=== FILE: README.md ===
# Fantasy football draft ranker — a Dafny model of its core

The program ranks the players still available in a fantasy football draft. It works in these steps:

1. It loads player records from several data sources.
2. It merges the records that name the same player. This needs a fuzzy name comparison.
3. It plots each player's rank against projected points per game, one point set per position.
4. It fits an inverse-power curve to each position's points.
5. It scores a remaining player by the player's mean projection minus the curve's value at the next pick.

The repository has two versions of this core:

- `src/`, the current Python 3 code;
- `Source/`, an older Python 2 snapshot.

They differ in how names are simplified, in the evaluation budget they give `curve_fit` (`maxfev` 10000 in the current code, 1000000 in the older one), and in what happens when a fit fails. The model covers both and proves where they agree and where they part.

| module | file | models |
|---|---|---|
| `Wrappers` | `wrappers.dfy` | `Option` and `Result` |
| `Scores` | `scores.dfy` | a similarity score: a finite value or infinity |
| `PyStrings` | `py_strings.dfy` | `str.replace` and `in`, as the name matchers use them |
| `PyDicts` | `py_dicts.dfy` | an insertion-ordered `dict`, with `d[k] = v` and the update loop |
| `Players` | `players.dfy` | the `Player` record, `merge` and `get_average_projected_ppg` |
| `Infra` | `infra.dfy` | `simplify`/`similarity` of `src/infra.py`, with the suffix regex and the settings' team names |
| `LegacyInfra` | `legacy_infra.dfy` | `simplify`/`similarity` of `Source/infra.py`: a fixed chain of 38 literal deletions |
| `Matching` | `matching.dfy` | `find_match` and `load_players`, for either variant |
| `Util` | `util.dfy` | `levenstein_distance`, `ListWrapper.filter` and `concatenate_lists` |
| `Ranking` | `ranking.dfy` | the stable `sort(key=..., reverse=True)` |
| `Charting` | `charting.dfy` | `Point`, `PointSet` and `ScatterPlotData`, in both variants |
| `Pipeline` | `pipeline.dfy` | `main.py`: `build_position_map`, the chart points, the QB filter, the fit loop, `calculate_draft_value` and `rank_players_by_draft_value` |

Everything is written as pure functions over immutable values. A Python method that mutates its receiver returns the new value instead. A failed assertion or a raised exception becomes an `Err`.

Some inputs are parameters rather than parts of the model:

- the team-name list and the league size from the settings module;
- the fitted curve;
- the outcome of `scipy.optimize.curve_fit` for each point set and evaluation budget.

## Model

| member | source | states |
|---|---|---|
| PyStrings.Replace | src/infra.py:80 | replacing a pattern by itself changes nothing; deleting a non-empty pattern never lengthens the name |
| PyStrings.ReplaceAbsent | src/infra.py:80-83 | a non-empty pattern that does not occur leaves the name as it was |
| PyStrings.ReplaceAtFirstOccurrence | src/infra.py:80 | `replace` keeps everything before the first occurrence, substitutes it, and carries on after it |
| PyStrings.MissingCharMeansAbsent | Source/infra.py:77-115 | a pattern holding a character the name lacks cannot occur in it |
| PyStrings.RemoveAll | src/infra.py:82-83 | the team loop deletes pattern after pattern; with non-empty patterns the name never grows |
| PyStrings.RemoveAllSplit | src/infra.py:82-83 | running the deletion loop over a pattern list is running it over a prefix of the list and then over the rest |
| PyStrings.RemoveAllUnchanged | Source/infra.py:84-115 | deletions whose patterns each hold a character missing from the name leave it unchanged |
| PyStrings.RemoveAllAbsent | src/infra.py:82-83 | deletions of non-empty patterns none of which occurs leave the name unchanged |
| PyStrings.FirstOccurrenceByChar | Source/infra.py:77-82 | an occurrence whose k-th character is absent from everything before it is the first occurrence |
| PyStrings.ReplaceMissingChar | Source/infra.py:77-115 | deleting a pattern that holds a character the name lacks changes nothing |
| PyStrings.LateSpaceAbsent | Source/infra.py:84-115 | a pattern ending in a space, longer than the stretch that holds all the name's spaces, is not found |
| PyStrings.ReplaceAfterPrefix | src/infra.py:80 | when the pattern's first character is not in the prefix, the occurrence after the prefix is the first one replaced |
| PyStrings.DeleteSoleOccurrence | Source/infra.py:77-82 | deleting a pattern that occurs once between a prefix and a suffix joins the two |
| PyStrings.DeletePrefix | Source/infra.py:84-115 | a pattern at the front of a name, one of whose characters the rest lacks, is deleted once, leaving the rest |
| PyStrings.SecondCharOnlyAtFront | Source/infra.py:77 | a pattern cannot occur when its second character appears in the name at most as the first character |
| PyDicts.EntryInMap | src/infra.py:37-38 | in a dict with distinct keys, each entry is what a lookup of its key returns |
| PyDicts.Get | src/infra.py:37-47 | `d.get(k)` finds a value exactly when `k` is a key, and in a dict with distinct keys it is the value of `k`'s entry |
| PyDicts.EntriesInMap | src/infra.py:37-47 | in a dict with distinct keys, every entry is what a lookup of its key returns |
| PyDicts.Set | src/infra.py:28-29 | `d[k] = v` keeps the keys distinct and maps `k` to `v`; an existing key keeps its place; a new key goes last |
| PyDicts.Update | src/infra.py:56-61 | the update loop leaves every key of the receiver in place, and the other dict's values win on shared keys |
| PyDicts.SetPresent | src/infra.py:28-29 | storing the value a key already holds leaves the dict as it was |
| PyDicts.UpdateAbsorbed | src/infra.py:56-61 | updating with entries that already stand changes nothing |
| PyDicts.UpdateIdempotent | src/infra.py:56-61 | updating twice with the same dict gives the same as updating once |
| Players.NewPlayer | src/infra.py:17-26 | a new player has the given name, position and team, and all three per-source maps empty |
| Players.Or | src/infra.py:53-54 | `a or b`: `a` when it is neither `None` nor empty, otherwise `b` |
| Players.Merge | src/infra.py:49-61 | merge keeps the name; it fills a missing position or team from the other player; in each of the three per-source maps the other's entries win, the receiver's other entries stay, and the receiver's keys keep their order at the front |
| Players.MergeKeepsPosition | src/infra.py:53 | after a merge a player has a position exactly when either side had one |
| Players.MergeIdempotent | src/infra.py:49-61 | merging the same record a second time changes nothing |
| Players.MergeSelf | src/infra.py:49-61 | a record merged with itself is unchanged |
| Players.SumBounds | Source/infra.py:56 | a sum of terms in `[lo, hi]` lies between `n * lo` and `n * hi` |
| Players.AverageProjectedPpg | src/infra.py:46-47 | the mean projection exists exactly when the player has at least one projection |
| Players.AverageWithinBounds | src/infra.py:46-47 | the mean lies between the smallest and largest projection |
| Infra.DropToken | src/infra.py:78 | the result is the name, or the name with one suffix token taken off its end |
| Infra.StripSuffix | src/infra.py:78 | the regex removes at most one suffix token, at the end or just before a final newline |
| Infra.StripSuffixOnlyAtEnd | src/infra.py:78 | a name ending in anything but `.`, `I` or a newline is left as it is |
| Infra.DropTokenAppended | src/infra.py:78 | a name plus one suffix token loses exactly that token |
| Infra.StripSuffixRemovesOne | src/infra.py:78 | a name with a suffix token appended simplifies back to the name, whatever it ended with before |
| Infra.StripSuffixBeforeNewline | src/infra.py:78 | a token just before a final newline is removed and the newline kept |
| Infra.MidNameTokenKept | src/infra.py:78 | "John Jr. Doe" keeps its mid-name " Jr." |
| Infra.StripMarkersAndTeams | src/infra.py:80-83 | the marker and team deletions never lengthen the name |
| Infra.Simplify | src/infra.py:76-84 | simplification never lengthens the name |
| Infra.Similarity | src/infra.py:86-97 | the score is 0 exactly for equal names; any finite score is at most 2 |
| Infra.SimilaritySymmetric | src/infra.py:86-97 | the score does not depend on which player asks |
| Infra.PlainNameUnchanged | src/infra.py:80-83 | a name without markers or team names passes the marker and team deletions unchanged |
| Infra.SuffixedNameScoresOne | src/infra.py:89-93 | a plain name scores 1 against the same name plus a suffix token |
| Infra.DifferentSuffixesScoreTwo | src/infra.py:89-95 | one base name with two different suffix tokens scores 2 |
| Infra.JuniorScoresOne | tests/test_infra.py:11-14 | "John Doe Jr." against "John Doe" scores 1 |
| Infra.DifferentNamesScoreInfinite | tests/test_infra.py:16-19 | "Jane Smith" against "John Doe" scores infinity |
| Infra.SingleMarkerPass | src/infra.py:80 | the " D/ST" pass cuts a trailing " D/STD/ST" down to "D/ST" |
| Infra.SpacelessUnchanged | src/infra.py:80-83 | a spaceless name passes the " D/STD/ST" and team deletions unchanged |
| Infra.DoubleMarkerLeavesTail | src/infra.py:76-84 | because " D/ST" runs first, "X D/STD/ST" simplifies to "XD/ST" |
| Infra.SpacelessNoTeam | src/infra.py:82-83 | every team pattern ends in a space, so none occurs in a spaceless name |
| Infra.SpacelessSimplifiedSuffix | src/infra.py:76-84 | a spaceless name plus a suffix token simplifies to the name, whatever the team list |
| Infra.SpacelessSuffixScoresOne | src/infra.py:86-93 | such a name with a suffix scores 1 against the bare name, whatever the team list |
| Infra.TeamPatternsSplit | src/infra.py:82-83 | the team patterns of `before + [t] + after` are those of `before`, then `t + " "`, then those of `after` |
| Infra.TeamPassRemovesCity | src/infra.py:82-83 | when no earlier team occurs, the team loop deletes a leading team name and its space and leaves a spaceless nickname |
| Infra.TeamNameRemoved | src/infra.py:76-84 | a team name, a space and a nickname simplify to the nickname, for any team list that holds the name and whose earlier names do not occur |
| Infra.TeamNameScoresOne | src/infra.py:86-93 | so such a name scores 1, not 2, against its nickname |
| Infra.KansasCityScoresOne | src/infra.py:76-93 | with "Kansas City" among the team names, "Kansas City Chiefs" simplifies to "Chiefs" and scores 1 against it |
| LegacyInfra.MarkerPattern | Source/infra.py:77-82 | each of the six marker deletions starts with a space |
| LegacyInfra.TeamPatternA | Source/infra.py:84-99 | each team deletion of the first half ends with a space and is longer than five characters |
| LegacyInfra.TeamPatternB | Source/infra.py:100-115 | each team deletion of the second half ends with a space and is longer than five characters |
| LegacyInfra.Pattern | Source/infra.py:77-115 | the chain is six markers that start with a space, then team names that end with one |
| LegacyInfra.SimplifyFrom | Source/infra.py:77-115 | running the rest of the chain never lengthens the name |
| LegacyInfra.Simplify | Source/infra.py:76-117 | simplification never lengthens the name |
| LegacyInfra.Similarity | Source/infra.py:119-123 | the score is 0 exactly for equal names; any finite score is at most 2 |
| LegacyInfra.SimilaritySymmetric | Source/infra.py:119-123 | the score does not depend on which player asks |
| LegacyInfra.MarkerValues | Source/infra.py:77-82 | the markers, in order: " Jr.", " sr.", " II", " III", " D/STD/ST", " D/ST" |
| LegacyInfra.StepTo | Source/infra.py:76-117 | one deletion of the chain with a known result advances the chain by one |
| LegacyInfra.SkipUnchanged | Source/infra.py:76-117 | deletions that find nothing can be skipped |
| LegacyInfra.TeamLateSpace | Source/infra.py:84-115 | no team deletion applies to a name whose spaces all lie in its first five characters |
| LegacyInfra.EarlySpacesKeepTeams | Source/infra.py:84-115 | the team deletions leave such a name unchanged |
| LegacyInfra.SpacelessUnchanged | Source/infra.py:77-115 | every deletion holds a space, so the chain leaves a spaceless name unchanged |
| LegacyInfra.SpacelessSimplified | Source/infra.py:76-117 | a spaceless name is its own simplification |
| LegacyInfra.MarkersPassBy | Source/infra.py:77-82 | markers that each hold a character missing from the name leave it unchanged |
| LegacyInfra.PlainCharsKeepMarkers | Source/infra.py:77-82 | a name without `.`, `I` or `/` passes every marker deletion |
| LegacyInfra.MarkerStep | Source/infra.py:77-82 | a marker deletion removes the marker's sole occurrence after a word |
| LegacyInfra.JuniorRemovedAnywhere | Source/infra.py:77 | " Jr." is deleted in the middle of a name too |
| LegacyInfra.SeniorKept | Source/infra.py:78 | only the lower-case " sr." is deleted, so "Doe Sr." is its own simplification |
| LegacyInfra.SeniorDoesNotMatch | Source/infra.py:119-123 | so a short one-word name with " Sr." scores infinity against the name without it |
| LegacyInfra.ThirdLeavesOneI | Source/infra.py:79-80 | " II" runs before " III", so "X III" simplifies to "XI" |
| LegacyInfra.DoubleMarkerRemoved | Source/infra.py:81-82 | " D/STD/ST" runs before " D/ST", so "X D/STD/ST" simplifies to "X" |
| LegacyInfra.FirstTeamValue | Source/infra.py:84 | the first team deletion is "Jacksonville " |
| LegacyInfra.FirstTeamStep | Source/infra.py:84 | the first team deletion takes "Jacksonville " off the front of a name whose rest has no space |
| LegacyInfra.FirstTeamRemoved | Source/infra.py:76-117 | the first city followed by a nickname without space, `.`, `I` or `/` simplifies to the nickname |
| LegacyInfra.CityPrefixRemoved | Source/infra.py:76-117 | "Jacksonville " followed by a word without space, `.`, `I` or `/` simplifies to the word |
| LegacyInfra.CityPrefixScoresOne | Source/infra.py:119-123 | so "Jacksonville " plus such a word scores 1, not 2, against the word |
| LegacyInfra.TeamPrefixStep | Source/infra.py:84-115 | any team deletion takes its city off the front of a name whose rest has no space |
| LegacyInfra.JaguarsScoreOne | Source/infra.py:84-123 | "Jacksonville Jaguars" scores 1 against "Jaguars" |
| LegacyInfra.PassOne | Source/infra.py:77-115 | a deletion holding a character the name lacks passes the name by |
| LegacyInfra.KansasCityValue | Source/infra.py:96 | the thirteenth team deletion is "Kansas City " |
| LegacyInfra.EarlierTeamCharsA | Source/infra.py:84-89 | each of the first six team deletions starts with a capital "Kansas City Chiefs" lacks |
| LegacyInfra.EarlierTeamCharsB | Source/infra.py:90-95 | each of the next six holds a capital, or the `r` of "Carolina ", that "Kansas City Chiefs" lacks |
| LegacyInfra.FirstSixTeamsPassBy | Source/infra.py:84-89 | the first six team deletions pass by a name without their witnesses |
| LegacyInfra.NextSixTeamsPassBy | Source/infra.py:90-95 | the next six pass by a name without theirs |
| LegacyInfra.KansasCityChars | Source/infra.py:77-96 | "Kansas City " holds no marker or earlier-team witness |
| LegacyInfra.KansasCityPassesEarlierTeams | Source/infra.py:84-95 | the twelve team deletions before "Kansas City " leave "Kansas City " plus such a nickname unchanged |
| LegacyInfra.KansasCityPrefixRemoved | Source/infra.py:76-117 | "Kansas City " followed by such a nickname simplifies to the nickname |
| LegacyInfra.KansasCityScoresOne | Source/infra.py:96-123 | "Kansas City Chiefs" simplifies to "Chiefs" and so scores 1, not 2, against it |
| LegacyInfra.TeamWitnesses1 | Source/infra.py:84-91 | each of team deletions 6 to 13 holds its witness character |
| LegacyInfra.TeamWitnesses2 | Source/infra.py:92-99 | each of team deletions 14 to 21 holds its witness character |
| LegacyInfra.TeamWitnesses3 | Source/infra.py:100-107 | each of team deletions 22 to 29 holds its witness character |
| LegacyInfra.TeamWitnesses4 | Source/infra.py:108-115 | each of team deletions 30 to 37 holds its witness character |
| LegacyInfra.WitnessesAbsent | Source/infra.py:84-115 | a name with no witness character lacks each of the seventeen witnesses |
| LegacyInfra.TeamsPassBy1 | Source/infra.py:84-91 | team deletions 6 to 13 pass by a name without witnesses |
| LegacyInfra.TeamsPassBy2 | Source/infra.py:92-99 | team deletions 14 to 21 pass it by |
| LegacyInfra.TeamsPassBy3 | Source/infra.py:100-107 | team deletions 22 to 29 pass it by |
| LegacyInfra.TeamsPassBy4 | Source/infra.py:108-115 | team deletions 30 to 37 pass it by |
| LegacyInfra.NoWitnessKeepsTeams | Source/infra.py:84-115 | every team deletion leaves such a name unchanged, wherever its spaces are |
| LegacyInfra.JuniorPassesBy | Source/infra.py:77 | " Jr." is not deleted from a name with no `J` after its first character |
| LegacyInfra.LaterMarkersPassBy | Source/infra.py:78-82 | the other markers pass by a name without `s`, `I` or `/` |
| LegacyInfra.SpacedSeniorKept | Source/infra.py:76-117 | a name of several words without lower-case `s`, `/`, a witness, or a late `J` is its own simplification |
| LegacyInfra.SpacedSeniorDoesNotMatch | Source/infra.py:78-123 | so such a name plus " Sr." scores infinity against the name |
| LegacyInfra.JohnDoeSeniorDoesNotMatch | Source/infra.py:78-123 | "John Doe Sr." scores infinity against "John Doe" |
| LegacyInfra.SeniorVariantsDisagree | Source/infra.py:78 | on "X Sr." against "X" the current code scores 1 and the older code infinity |
| LegacyInfra.ThirdVariantsDisagree | Source/infra.py:79-80 | on "X III" the current code strips the whole token and the older code leaves an "I" |
| LegacyInfra.DoubleMarkerVariantsDisagree | Source/infra.py:81-82 | on "X D/STD/ST" the current code keeps a "D/ST" tail and the older code removes it whole |
| LegacyInfra.MidJuniorVariantsDisagree | Source/infra.py:77 | a mid-name " Jr." is kept by the current suffix regex, and by the current simplification when no team name occurs; the older code deletes it |
| Matching.Similarity | src/infra.py:75-97 | either variant's score is 0 exactly for equal names, and any finite score is at most 2 |
| Matching.SimilaritySymmetric | Source/infra.py:119-123 | either variant's score is symmetric |
| Matching.FirstMinimum | src/infra.py:106 | `min` with a key picks a smallest score, and the first one when several tie |
| Matching.FindMatch | src/infra.py:99-108 | no match exactly when every score is infinite (an empty pool included); otherwise the first player with the least, finite score |
| Matching.SameNameMatches | src/infra.py:86-87 | a player already in the pool under the same name makes the match succeed with score 0 |
| Matching.Ingest | src/infra.py:295-299 | one loading turn keeps every name; it appends the new record exactly when it matches nobody |
| Matching.IngestMerges | src/infra.py:295-297 | a matched record receives the new record's data, and no other record changes |
| Matching.IngestedNameMatches | src/infra.py:295-299 | after its turn, the new record's name matches a record of the pool |
| Matching.IngestKeepsSeparated | src/infra.py:295-299 | a loading turn keeps the records pairwise unmatched |
| Matching.LoadFrom | src/infra.py:292-299 | loading keeps the existing names in place and adds at most one record per input |
| Matching.LoadPlayers | src/infra.py:290-300 | `load_players` returns no more records than it read |
| Matching.LoadFromAppend | Source/infra.py:266-274 | loading one batch after another is loading their concatenation |
| Matching.LoadFromKeepsSeparated | src/infra.py:292-299 | the loaded records never match each other |
| Matching.LoadFromMatchesInputs | src/infra.py:292-299 | every loaded name matches one of the loaded records |
| Matching.LoadPlayersSound | src/infra.py:290-300 | loaded records pairwise do not match, and every input's name finds a match among them |
| Matching.LoadedNamesDistinct | src/infra.py:290-300 | no two loaded records carry the same name |
| Matching.KnownNameMerges | Source/infra.py:270-274 | a record whose name is already loaded never adds a record |
| Util.Min3 | Source/util.py:22-32 | the cheapest of the three edits is one of them and no larger than any |
| Util.Distance | Source/util.py:10-33 | the edit distance is at most the sum of the lengths: delete every item of one, insert every item of the other |
| Util.DistanceCell | Source/util.py:19-32 | each table cell is the cheapest of deleting, substituting or inserting from its neighbours |
| Util.NextRow | Source/util.py:20-32 | the row computed from the previous row holds the edit distances of the longer prefix |
| Util.LevensteinDistance | Source/util.py:10-33 | `levenstein_distance` returns the edit distance of the two sequences |
| Util.DistanceAtLeastLengthGap | Source/util.py:10-33 | the distance is at least the difference of the lengths |
| Util.DistanceAtMostLonger | Source/util.py:10-33 | the distance is at most the longer length |
| Util.DistanceZeroIffEqual | Source/util.py:10-33 | the distance is zero exactly when the sequences are equal |
| Util.DistanceSymmetric | Source/util.py:10-33 | the distance is symmetric |
| Util.Filter | Source/util.py:40-45 | `filter` keeps exactly the items that meet the criterion, and no more of them than there were |
| Util.FilterItems | Source/util.py:40-45 | the loop of `filter` appends exactly the items that meet the criterion, in their order |
| Util.FilterAppend | Source/util.py:40-45 | filtering a concatenation filters each part |
| Util.FilterIdempotent | Source/util.py:40-45 | filtering twice by the same criterion is filtering once |
| Util.FilterCountsSplit | Source/util.py:40-45 | the kept and the dropped items together are all the items |
| Util.Concatenate | Source/util.py:47-48 | `concatenate_lists` holds every item of every list and nothing else; its length is the total length |
| Util.ConcatenateAppend | Source/util.py:47-48 | chaining two lists of lists chains each part |
| Util.ConcatenatePlacesList | Source/util.py:47-48 | list `i` sits in the chain right after the lists before it |
| Ranking.Insert | src/main.py:39 | inserting a later position into a stably sorted order gives a stably sorted order of all of them |
| Ranking.SortPrefix | src/main.py:39 | sorting the first `n` positions gives each of them once, in stable descending order |
| Ranking.SortDescending | src/main.py:39 | `sort(reverse=True)` gives every position once, in non-increasing value, with ties in input order |
| Ranking.OrderedIsUnique | src/main.py:39 | there is only one stable descending order of a set of positions |
| Ranking.ShiftedValuesSortAlike | src/main.py:39 | values shifted by the same amount sort into the same order |
| Ranking.SortPrefixPermutes | src/main.py:39 | sorting the first `n` positions rearranges the first `n` items |
| Ranking.SortPermutes | src/main.py:39 | the sort rearranges the items, neither losing nor repeating any |
| Charting.Append | src/charting.py:44-46 | `PointSet.append` puts the point at the end and keeps the name and the earlier points |
| Charting.XValues | src/charting.py:48-49 | `x_values()` holds one value per point, the x of the point at the same index |
| Charting.YValues | src/charting.py:51-52 | `y_values()` holds one value per point, the y of the point at the same index |
| Charting.PointsFrom | src/charting.py:64-66 | the loop makes one point per coordinate pair, in order, labelled from the labels when there are some |
| Charting.AppendedCoordinates | src/charting.py:48-52 | after appending points made from `xs` and `ys`, `x_values()` and `y_values()` end with `xs` and `ys` |
| Charting.AddPointsFromLists | src/charting.py:54-67 | fails exactly when the coordinate lists differ in length, or there are non-empty labels of another length; otherwise it appends the points, labelled when labels are given |
| Charting.LegacyAddPointsFromLists | Source/charting.py:56-65 | the same, except that any label list that is not `None` must match in length |
| Charting.EmptyLabelsVariantsDisagree | src/charting.py:61-65 | an empty label list adds unlabelled points in the current code and fails the assertion in the older code |
| Charting.LabelVariantsAgree | Source/charting.py:58-62 | without labels, or with a non-empty label list, the two variants agree |
| Charting.NameSetSize | src/charting.py:80-82 | the name set is as large as the list exactly when the names are unique |
| Charting.NameSetHolds | src/charting.py:80 | every name in the name set belongs to some point set |
| Charting.NewPlotData | src/charting.py:76-82 | `ScatterPlotData(sets)` succeeds exactly when the names are unique; it holds the sets given, or none |
| Charting.AppendSet | src/charting.py:84-89 | appending succeeds exactly when the name is new; the set goes last and the names stay unique |
| Charting.AddPoint | src/charting.py:91-96 | `add_point` fails with "not found" exactly when no set has the name; otherwise only the first set with that name gains the point, at its end |
| Charting.AddPointKeepsNames | src/charting.py:91-96 | adding a point keeps the names of the sets |
| Charting.AllPoints | src/charting.py:98-99 | `all_points` holds each set's points in order, right after the points of the sets before it; every point in it comes from some set; its length is the total |
| Charting.AddPointGrowsAllPoints | src/charting.py:91-99 | after `add_point`, `all_points` holds the new point and one point more |
| Pipeline.BuildPositionMap | src/main.py:20-25 | the position map is a dict with distinct keys; its keys, their order and its groups are stated by PositionMapKeys, PositionMapKeyOrder and PositionMapGroups |
| Pipeline.PositionMapKeyOrder | src/main.py:20-25 | the keys come in order of first appearance: some player at an earlier key comes before every player at a later key |
| Pipeline.PositionMapKeys | src/main.py:20-25 | the keys of the position map are exactly the non-empty positions somebody plays |
| Pipeline.PositionMapGroups | src/main.py:20-25 | under each position the map holds exactly the players at that position, in input order |
| Pipeline.PointsOver | src/main.py:106-111 | one point per source that has both a rank and a projection |
| Pipeline.PointsOverAt | src/main.py:106-110 | the k-th point is the rank and projection of the k-th such source |
| Pipeline.PlayerPoints | src/main.py:105-111 | a player gets as many points as it has sources with both a rank and a projection |
| Pipeline.PlayerPointsAt | src/main.py:106-110 | a player's k-th point is its rank and projection from its k-th such source, in rank-map order |
| Pipeline.AddPoints | src/main.py:111 | adding a player's points fails exactly when there are points and no set bears the position; success keeps the names |
| Pipeline.AddPointsAppends | src/main.py:111 | all of a player's points go, in order, to the end of the first set with its position; no other set changes |
| Pipeline.AddPlayerPoints | src/main.py:105-111 | the loop over the players fails exactly when some player with points has no set for its position; success keeps the names |
| Pipeline.AddPlayerPointsGroups | src/main.py:105-111 | with unique names, each set ends up with the points of the players at its position, in player order |
| Pipeline.InitialSets | src/main.py:100-103 | one empty set per position-map key, in key order, with unique names |
| Pipeline.ChartDataGroupsPoints | src/main.py:100-111 | the chart data exists exactly when every player with points has a position; then each position's set holds the points of the players at that position, in order |
| Pipeline.PlayersChartData | Source/main.py:62-71 | for loaded players, the chart data exists exactly when every player with points has a position; then each position's set holds the points of that position's players, in player order |
| Pipeline.FilteredXValues | src/main.py:75-77 | outside the QB set every x value is kept; never more are kept than there were |
| Pipeline.FilteredYValues | src/main.py:78-80 | outside the QB set every y value is kept; each kept value passes the filter |
| Pipeline.FilteredValuesPaired | src/main.py:74-80 | the two filtered lists are the coordinates of the same kept points, so they stay paired |
| Pipeline.FitInputsAreKeptPoints | Source/main.py:46-54 | the fit of a set sees the coordinates of exactly the points the filter keeps |
| Pipeline.QuarterbackCutoff | src/main.py:76 | a QB point is fitted exactly when its projection is above 200; a point at 200 is dropped |
| Pipeline.Outcome | src/main.py:71-92 | the fit of a set is run, under the variant's evaluation budget, on the coordinates of exactly the points the quarterback filter keeps |
| Pipeline.FitAll | src/main.py:116-126 | when the current fit loop completes, every set with a fitted model also has parameters |
| Pipeline.LegacyFitAll | Source/main.py:76-77 | when the older fit loop completes, every set with a fitted model also has parameters |
| Pipeline.FitAllCompletes | src/main.py:116-123 | the current loop completes exactly when no fit fails other than by not converging |
| Pipeline.LegacyFitAllCompletes | Source/main.py:76-77 | the older loop completes exactly when every fit succeeds |
| Pipeline.FitAllRecords | src/main.py:116-126 | with distinct names, a set gets a curve exactly when its fit succeeded, with the fitted parameters |
| Pipeline.FitAllLacks | src/main.py:125-126 | a name no set carries gets no curve |
| Pipeline.FitAllKeys | src/main.py:125-126 | the sets with a curve are exactly those whose fit succeeded |
| Pipeline.LoopsAgree | Source/main.py:76-77 | on attempts that all succeed, the current and the older loop give the same result |
| Pipeline.FitVariantsAgree | Source/main.py:43-56 | when every fit succeeds under the current budget of 10000 evaluations and the older budget of 1000000 gives the same parameters, the two variants fit the same curves |
| Pipeline.NotConvergedParts | src/main.py:84-90 | a fit that fails to converge within 10000 evaluations, and does not succeed within 1000000 either, makes the loops part: the current one completes, the older one stops |
| Pipeline.LargerBudgetKeepsCurve | Source/main.py:56 | a set that does not converge within 10000 evaluations but does within 1000000 gets a curve from the older loop and none from the current one |
| Pipeline.Curve | src/main.py:139-143 | the callback draws a curve exactly when the set has parameters, and draws it with them |
| Pipeline.CurveDrawnIffFitted | src/main.py:116-143 | after the current loop, a set is drawn with a curve exactly when its fit succeeded |
| Pipeline.DraftValue | src/main.py:47-52 | a draft value exists exactly when the player has a projection |
| Pipeline.DraftValueOrder | src/main.py:47-52 | two players' draft values compare as their mean projections do |
| Pipeline.DraftValueBounds | src/main.py:47-52 | with every projection in `[lo, hi]`, the draft value lies in that range shifted down by the curve's value |
| Pipeline.DraftValueShift | Source/main.py:35-36 | another pick, league size or curve shifts a draft value by the difference of the curve values |
| Pipeline.Valuations | src/main.py:34-38 | when the loop completes there is one pair per remaining name |
| Pipeline.ValuationsComplete | src/main.py:35-38 | the pairs are built exactly when every remaining name finds a player with a projection |
| Pipeline.ValuationsAt | src/main.py:35-38 | pair `i` is the player name `i` finds, with that player's value |
| Pipeline.RankByValue | src/main.py:34-39 | the ranking exists exactly when every name is valued; it is a rearrangement of the pairs in non-increasing value |
| Pipeline.RankingIsStable | src/main.py:39 | the ranking is the pairs in a stable order: pairs of equal value keep their input order |
| Pipeline.RankingIgnoresShift | src/main.py:39 | values shifted by the same amount rank the same players in the same order |
| Pipeline.RankPlayersByDraftValue | src/main.py:28-39 | the ranking exists exactly when every name matches a player with a projection; values are non-increasing |
| Pipeline.RankedPairsAreMatches | src/main.py:35-39 | every name's match is ranked with its draft value, and each ranked pair is some name's match with that player's draft value |
| Pipeline.RankingIgnoresCurve | Source/main.py:21-27 | the order of the ranking depends on neither the curve, the draft position nor the league size |
| Pipeline.DraftValuesShiftAlike | src/main.py:28-39 | the same, for any way of looking up the players |

## Left out

- Scraping and parsing the data sources (`ESPN`, `FantasyPros`, `parse_rankings`, `parse_ppg`) is left out, because it is network and HTML I/O. `load_players` takes the records those parsers return, in order.
- `aggressively_sanitize` in `src/util.py` is left out; it is Unicode normalisation that the name matchers do not call.
- `ListWrapper.shuffle` is left out, because it is randomness. Logging and the `VERBOSE` printing are left out. So is the printing of the ranking.
- Plotting is left out: chart layout, colours, the regression-line option, and drawing the curve over its x range. Only the callback's decision to draw a curve is modelled, in `Pipeline.Curve`.
- `scipy.optimize.curve_fit` and its numerics are left out. The outcome of each fit is a parameter: parameters, failure to converge (`RuntimeError`), or any other exception. The outcome is a function of the budget as well as the lists, so the two variants' budgets are kept apart. Whether the larger budget converges where the smaller one did not is not modelled; the lemmas that compare the variants state it as a hypothesis.
- Settings are parameters: `settings.TEAM_NAMES` and `settings.LEAGUE_SIZE`.
- `levenstein_distance` keeps the whole table; `Util.LevensteinDistance` keeps only the previous row. Both return the last cell.
- Floating point is modelled as exact reals. Scores are a finite natural number or infinity. Edit distances are natural numbers; in the source they are numpy floats.
- `get_rank`, `get_position_rank` and `get_projected_ppg` are modelled as map lookups, and `__repr__` is left out.
- Players.AverageProjectedPpg: a player without projections has no mean. In the source this is numpy's NaN (current code) or a `ZeroDivisionError` (older code); in the model it is `None`, reported as `NoProjections` when ranking.
- Pipeline.RankPlayersByDraftValue: a name with no match makes the source fail on `None` inside `calculate_draft_value`. The model reports it as `NoMatch`.
- Pipeline.Valuations: when the loop fails, which name the error carries is not stated.
- Pipeline.FitAll: when the loop fails, which set the error names is not stated.
- Pipeline.LegacyFitAll: when the loop fails, which set the error names is not stated.
- The older code's dicts are Python 2 dicts, whose key order is unspecified. The model gives them insertion order, as in the current code.
- The `functions` and `parameters` dicts of `main` are only ever looked up, so they are plain maps.
- `ListWrapper.filter` builds its result with `self.__class__()`. That cannot construct a `PointSet`, whose name is required. `Util.Filter` models the filtering on plain sequences.
- The chart's sets are built directly in `Pipeline.InitialSets`. They are not built by repeated `ScatterPlotData.append`, because the position-map keys are distinct and every append succeeds.
- The code filters QB points with `> 200`, strictly, in both variants. The model follows the code.
- The current code's suffix regex recognises " Sr."; the older code deletes only the lower-case " sr.". The model follows each variant's code.
- PyStrings.Replace: its contract states only the identity and length facts. What `replace` produces is stated by `PyStrings.ReplaceAtFirstOccurrence` and `PyStrings.ReplaceAbsent`.
- PyStrings.RemoveAll: its contract states only that the name does not grow. Its effect is stated by `PyStrings.RemoveAllSplit`, `PyStrings.RemoveAllAbsent` and `PyStrings.RemoveAllUnchanged`.
- Infra.StripSuffix: its contract states that at most one token is removed; which one is stated by `Infra.StripSuffixRemovesOne`, `Infra.StripSuffixBeforeNewline` and `Infra.StripSuffixOnlyAtEnd`.
- Infra.StripMarkersAndTeams: its contract states only that the name does not grow. Its effect is stated by `Infra.PlainNameUnchanged`, `Infra.SingleMarkerPass` and `Infra.SpacelessUnchanged`.
- Infra.Simplify: its contract states only that the name does not grow. Its effect is stated by `Infra.SpacelessSimplifiedSuffix`, `Infra.DoubleMarkerLeavesTail` and `Infra.TeamNameRemoved`. They cover names without inner spaces, and a team name followed by a spaceless nickname, not every name.
- LegacyInfra.SimplifyFrom: its contract states only that the name does not grow. Single steps are stated by `LegacyInfra.StepTo`, `LegacyInfra.MarkerStep` and `LegacyInfra.SkipUnchanged`.
- LegacyInfra.Simplify: its contract states only that the name does not grow. Its effect on families of names is stated by the lemmas from `LegacyInfra.SpacelessSimplified` to `LegacyInfra.SpacedSeniorKept`. They cover names whose spaces lie early, the cities "Jacksonville " and "Kansas City " followed by a nickname, and names with no team witness; they do not cover every name.
- Matching.LoadFrom: its contract states the bounds and that names are kept. That records end up pairwise unmatched and that every input finds a match is stated by `Matching.LoadFromKeepsSeparated` and `Matching.LoadFromMatchesInputs`.
- Matching.LoadPlayers: its contract states only the bound on the number of records. What the records are is stated by `Matching.LoadPlayersSound`.
- Pipeline.BuildPositionMap: its contract states only that the keys are distinct. The keys are stated by `Pipeline.PositionMapKeys`, their first-appearance order by `Pipeline.PositionMapKeyOrder`, and the groups by `Pipeline.PositionMapGroups`.
- Pipeline.FitAll: its contract states only that both dicts get the same keys. When the loop completes, and what it records, is stated by `Pipeline.FitAllCompletes`, `Pipeline.FitAllRecords` and `Pipeline.FitAllKeys`.
- Pipeline.LegacyFitAll: its contract states only that both dicts get the same keys. When the loop completes is stated by `Pipeline.LegacyFitAllCompletes`.
- Pipeline.PointsOver: its contract states only the number of points. The points themselves are stated by `Pipeline.PointsOverAt`.
- Pipeline.PlayerPoints: its contract states only the number of points. The points themselves are stated by `Pipeline.PlayerPointsAt`.
- Util.Distance: its contract states only the bound by the sum of the lengths. The recurrence is stated cell by cell by `Util.DistanceCell`, and the other bounds by `Util.DistanceAtLeastLengthGap` and `Util.DistanceAtMostLonger`.
- Pipeline.FilteredXValues: its contract states the non-QB case and a length bound. The QB case is stated by `Pipeline.FilteredValuesPaired` and `Pipeline.QuarterbackCutoff`.

=== FILE: charting.dfy ===
/**
 * The point containers of `charting.py`, in both variants: a point, a named
 * set of points, and the plot data, a list of point sets whose names are
 * unique. A Python assertion that fails, or the `ValueError` of `add_point`,
 * is an `Err`; every operation returns the new value instead of mutating.
 */
module Charting {
  import opened Wrappers
  import Util

  /** `Point(x_value, y_value, label)`; the label is `tag`, since `label` is a Dafny keyword. */
  datatype Point = Point(x: real, y: real, tag: Option<string>)

  /** `PointSet(name, points=...)`; colour and drawing options are not modelled. */
  datatype PointSet = PointSet(name: string, points: seq<Point>)

  datatype ChartError =
    | AssertionFailed
    | PointSetNotFound(setName: Option<string>)

  /** `PointSet.append`: the point goes at the end. */
  function Append(ps: PointSet, p: Point): (r: PointSet)
    ensures r.name == ps.name
    ensures |r.points| == |ps.points| + 1 && r.points[|ps.points|] == p
    ensures r.points[..|ps.points|] == ps.points
  {
    PointSet(ps.name, ps.points + [p])
  }

  /** `x_values()`: the x coordinates, point by point. */
  function XValues(ps: PointSet): (r: seq<real>)
    ensures |r| == |ps.points|
    ensures forall i :: 0 <= i < |r| ==> r[i] == ps.points[i].x
  {
    seq(|ps.points|, i requires 0 <= i < |ps.points| => ps.points[i].x)
  }

  /** `y_values()`: the y coordinates, point by point. */
  function YValues(ps: PointSet): (r: seq<real>)
    ensures |r| == |ps.points|
    ensures forall i :: 0 <= i < |r| ==> r[i] == ps.points[i].y
  {
    seq(|ps.points|, i requires 0 <= i < |ps.points| => ps.points[i].y)
  }

  /** The label the loop of `add_points_from_lists` gives its `i`-th point. */
  function LabelAt(labels: Option<seq<string>>, i: nat): Option<string>
    requires labels.Some? ==> i < |labels.value|
  {
    if labels.Some? then Some(labels.value[i]) else None
  }

  /**
   * The points the loop of `add_points_from_lists` appends from index `i`
   * on: one per pair `(xs[k], ys[k])`, labelled from `labels` when there are
   * labels.
   */
  function PointsFrom(xs: seq<real>, ys: seq<real>, labels: Option<seq<string>>, i: nat): (r: seq<Point>)
    requires |xs| == |ys| && i <= |xs|
    requires labels.Some? ==> |labels.value| == |xs|
    ensures |r| == |xs| - i
    ensures forall k :: 0 <= k < |r| ==> r[k] == Point(xs[i + k], ys[i + k], LabelAt(labels, i + k))
    decreases |xs| - i
  {
    if i == |xs| then [] else [Point(xs[i], ys[i], LabelAt(labels, i))] + PointsFrom(xs, ys, labels, i + 1)
  }

  /** Appending the points made from `xs` and `ys` extends the coordinate lists by `xs` and `ys`. */
  lemma AppendedCoordinates(ps: PointSet, xs: seq<real>, ys: seq<real>, labels: Option<seq<string>>)
    requires |xs| == |ys| && (labels.Some? ==> |labels.value| == |xs|)
    ensures var r := PointSet(ps.name, ps.points + PointsFrom(xs, ys, labels, 0));
            XValues(r) == XValues(ps) + xs && YValues(r) == YValues(ps) + ys
  {
  }

  /** Python truthiness of an optional list: given and not empty. */
  predicate Given(labels: Option<seq<string>>) {
    labels.Some? && |labels.value| > 0
  }

  /**
   * `add_points_from_lists` as the current code has it: an empty label list
   * counts as no labels, so its length is not checked.
   */
  function AddPointsFromLists(ps: PointSet, xs: seq<real>, ys: seq<real>, labels: Option<seq<string>>): (r: Result<PointSet, ChartError>)
    ensures r.Ok? <==> |xs| == |ys| && (Given(labels) ==> |labels.value| == |ys|)
    ensures r.Ok? ==> |r.value.points| == |ps.points| + |xs|
    ensures r.Ok? ==> r.value.name == ps.name && r.value.points[..|ps.points|] == ps.points
    ensures r.Ok? ==> XValues(r.value) == XValues(ps) + xs && YValues(r.value) == YValues(ps) + ys
    ensures r.Ok? ==> forall k :: 0 <= k < |xs| ==>
              r.value.points[|ps.points| + k].tag == (if Given(labels) then Some(labels.value[k]) else None)
  {
    if |xs| != |ys| then Err(AssertionFailed)
    else if Given(labels) && |labels.value| != |ys| then Err(AssertionFailed)
    else
      var given := if Given(labels) then labels else None;
      AppendedCoordinates(ps, xs, ys, given);
      Ok(PointSet(ps.name, ps.points + PointsFrom(xs, ys, given, 0)))
  }

  /**
   * `add_points_from_lists` as the Python 2 code has it: any label list that
   * is not `None`, empty or not, must match the coordinates in length.
   */
  function LegacyAddPointsFromLists(ps: PointSet, xs: seq<real>, ys: seq<real>, labels: Option<seq<string>>): (r: Result<PointSet, ChartError>)
    ensures r.Ok? <==> |xs| == |ys| && (labels.Some? ==> |labels.value| == |ys|)
    ensures r.Ok? ==> |r.value.points| == |ps.points| + |xs|
    ensures r.Ok? ==> r.value.name == ps.name && r.value.points[..|ps.points|] == ps.points
    ensures r.Ok? ==> XValues(r.value) == XValues(ps) + xs && YValues(r.value) == YValues(ps) + ys
    ensures r.Ok? ==> forall k :: 0 <= k < |xs| ==> r.value.points[|ps.points| + k].tag == LabelAt(labels, k)
  {
    if |xs| != |ys| then Err(AssertionFailed)
    else if labels.Some? && |labels.value| != |ys| then Err(AssertionFailed)
    else
      AppendedCoordinates(ps, xs, ys, labels);
      Ok(PointSet(ps.name, ps.points + PointsFrom(xs, ys, labels, 0)))
  }

  /**
   * The two variants part on an empty label list: the current code adds
   * unlabelled points, the Python 2 code fails its length assertion.
   */
  lemma EmptyLabelsVariantsDisagree(ps: PointSet, xs: seq<real>, ys: seq<real>)
    requires |xs| == |ys| > 0
    ensures AddPointsFromLists(ps, xs, ys, Some([])).Ok?
    ensures AddPointsFromLists(ps, xs, ys, Some([])) == AddPointsFromLists(ps, xs, ys, None)
    ensures LegacyAddPointsFromLists(ps, xs, ys, Some([])).Err?
  {
  }

  /** On no labels, or a non-empty label list, the two variants agree. */
  lemma LabelVariantsAgree(ps: PointSet, xs: seq<real>, ys: seq<real>, labels: Option<seq<string>>)
    requires labels.None? || Given(labels)
    ensures AddPointsFromLists(ps, xs, ys, labels) == LegacyAddPointsFromLists(ps, xs, ys, labels)
  {
  }

  /** The names of the point sets, in order. */
  function Names(sets: seq<PointSet>): (r: seq<string>)
    ensures |r| == |sets| && forall i :: 0 <= i < |sets| ==> r[i] == sets[i].name
  {
    seq(|sets|, i requires 0 <= i < |sets| => sets[i].name)
  }

  /** The invariant of `ScatterPlotData`: no two point sets share a name. */
  predicate UniqueNames(sets: seq<PointSet>) {
    forall i, j :: 0 <= i < j < |sets| ==> sets[i].name != sets[j].name
  }

  /** `set(ps.name for ps in sets)`. */
  function NameSet(sets: seq<PointSet>): (r: set<string>)
    ensures forall i :: 0 <= i < |sets| ==> sets[i].name in r
  {
    if |sets| == 0 then {} else NameSet(sets[..|sets| - 1]) + {sets[|sets| - 1].name}
  }

  /** The name set is as large as the list exactly when the names are unique. */
  lemma {:induction false} NameSetSize(sets: seq<PointSet>)
    ensures |NameSet(sets)| <= |sets|
    ensures |NameSet(sets)| == |sets| <==> UniqueNames(sets)
    decreases |sets|
  {
    if |sets| > 0 {
      var front, last := sets[..|sets| - 1], sets[|sets| - 1];
      NameSetSize(front);
      if last.name in NameSet(front) {
        NameSetHolds(front);
        var i :| 0 <= i < |front| && front[i].name == last.name;
        assert sets[i].name == sets[|sets| - 1].name;
      } else if UniqueNames(front) {
        assert UniqueNames(sets) by {
          forall i, j | 0 <= i < j < |sets| ensures sets[i].name != sets[j].name {
            if j < |sets| - 1 {
              assert front[i].name != front[j].name;
            } else {
              assert sets[i].name == front[i].name;
            }
          }
        }
      } else {
        var i, j :| 0 <= i < j < |front| && front[i].name == front[j].name;
        assert sets[i].name == sets[j].name;
      }
    }
  }

  /** Every name in the name set is the name of some point set. */
  lemma {:induction false} NameSetHolds(sets: seq<PointSet>)
    ensures forall n :: n in NameSet(sets) ==> exists i :: 0 <= i < |sets| && sets[i].name == n
    decreases |sets|
  {
    if |sets| > 0 {
      var front := sets[..|sets| - 1];
      NameSetHolds(front);
      assert forall i :: 0 <= i < |front| ==> front[i] == sets[i];
    }
  }

  /**
   * `ScatterPlotData(point_sets)`: the sets given (none means none), once
   * the size of their name set shows the names are unique.
   */
  function NewPlotData(sets: Option<seq<PointSet>>): (r: Result<seq<PointSet>, ChartError>)
    ensures r.Ok? <==> sets.None? || UniqueNames(sets.value)
    ensures r.Ok? ==> r.value == sets.GetOr([]) && UniqueNames(r.value)
  {
    var given := sets.GetOr([]);
    NameSetSize(given);
    if |NameSet(given)| == |given| then Ok(given) else Err(AssertionFailed)
  }

  /** `ScatterPlotData.append`: a set whose name is already present is refused. */
  function AppendSet(data: seq<PointSet>, ps: PointSet): (r: Result<seq<PointSet>, ChartError>)
    ensures r.Ok? <==> forall i :: 0 <= i < |data| ==> data[i].name != ps.name
    ensures r.Ok? ==> |r.value| == |data| + 1
    ensures r.Ok? ==> r.value[..|data|] == data && r.value[|data|..] == [ps]
    ensures r.Ok? && UniqueNames(data) ==> UniqueNames(r.value)
  {
    if ps.name in Names(data) then Err(AssertionFailed) else Ok(data + [ps])
  }

  /** The set at `i` is the first whose name is `name`. */
  predicate FirstNamed(data: seq<PointSet>, name: Option<string>, i: nat) {
    i < |data| && Some(data[i].name) == name &&
    forall j :: 0 <= j < i ==> Some(data[j].name) != name
  }

  /**
   * `add_point`: appends `p` to the first set named `name` and to no other,
   * or fails with `PointSetNotFound` when there is none (a missing position,
   * `None`, names no set).
   */
  function AddPoint(data: seq<PointSet>, p: Point, name: Option<string>): (r: Result<seq<PointSet>, ChartError>)
    ensures r.Ok? <==> exists i :: 0 <= i < |data| && Some(data[i].name) == name
    ensures r.Err? ==> r.error == PointSetNotFound(name)
    ensures r.Ok? ==> |r.value| == |data|
    ensures r.Ok? ==> forall i :: 0 <= i < |data| ==>
              r.value[i] == (if FirstNamed(data, name, i) then Append(data[i], p) else data[i])
  {
    if |data| == 0 then Err(PointSetNotFound(name))
    else if Some(data[0].name) == name then Ok([Append(data[0], p)] + data[1..])
    else
      match AddPoint(data[1..], p, name)
      case Err(e) => Err(e)
      case Ok(rest) =>
        assert forall i :: 1 <= i < |data| ==> (FirstNamed(data, name, i) <==> FirstNamed(data[1..], name, i - 1));
        Ok([data[0]] + rest)
  }

  /** Adding a point keeps the names, and so keeps them unique. */
  lemma AddPointKeepsNames(data: seq<PointSet>, p: Point, name: Option<string>)
    requires AddPoint(data, p, name).Ok?
    ensures Names(AddPoint(data, p, name).value) == Names(data)
  {
    var r := AddPoint(data, p, name).value;
    assert forall i :: 0 <= i < |data| ==> r[i].name == data[i].name;
  }

  /** The point lists of the sets, in order. */
  function PointLists(data: seq<PointSet>): (r: seq<seq<Point>>)
    ensures |r| == |data| && forall i :: 0 <= i < |data| ==> r[i] == data[i].points
  {
    seq(|data|, i requires 0 <= i < |data| => data[i].points)
  }

  /** How many points the sets before the `i`-th hold. */
  function PointsBefore(data: seq<PointSet>, i: nat): nat
    requires i <= |data|
  {
    Util.TotalLength(PointLists(data)[..i])
  }

  /**
   * `all_points`: the points of every set, set after set. Each set's points
   * sit, in their own order, right after those of the sets before it, and
   * nothing else is there.
   */
  function AllPoints(data: seq<PointSet>): (r: seq<Point>)
    ensures |r| == Util.TotalLength(PointLists(data))
    ensures forall i :: 0 <= i < |data| ==>
              PointsBefore(data, i) + |data[i].points| <= |r| &&
              r[PointsBefore(data, i)..PointsBefore(data, i) + |data[i].points|] == data[i].points
    ensures forall i, k :: 0 <= i < |data| && 0 <= k < |data[i].points| ==> data[i].points[k] in r
    ensures forall k :: 0 <= k < |r| ==> exists i :: 0 <= i < |data| && r[k] in data[i].points
  {
    var lists := PointLists(data);
    forall i | 0 <= i < |data|
      ensures PointsBefore(data, i) + |data[i].points| <= |Util.Concatenate(lists)|
      ensures Util.Concatenate(lists)[PointsBefore(data, i)..PointsBefore(data, i) + |data[i].points|] == data[i].points
    {
      Util.ConcatenatePlacesList(lists, i);
    }
    Util.Concatenate(lists)
  }

  /** Lengthening one list by one lengthens the chain by one. */
  lemma {:induction false} TotalLengthGrows(lists: seq<seq<Point>>, k: nat, p: Point)
    requires k < |lists|
    ensures Util.TotalLength(lists[k := lists[k] + [p]]) == Util.TotalLength(lists) + 1
    decreases |lists|
  {
    if k > 0 {
      assert lists[k := lists[k] + [p]][1..] == lists[1..][k - 1 := lists[1..][k - 1] + [p]];
      TotalLengthGrows(lists[1..], k - 1, p);
    } else {
      assert lists[k := lists[k] + [p]][1..] == lists[1..];
    }
  }

  /** After `add_point` succeeds, `all_points` holds the new point and one point more. */
  lemma AddPointGrowsAllPoints(data: seq<PointSet>, p: Point, name: Option<string>)
    requires AddPoint(data, p, name).Ok?
    ensures |AllPoints(AddPoint(data, p, name).value)| == |AllPoints(data)| + 1
    ensures p in AllPoints(AddPoint(data, p, name).value)
  {
    var r := AddPoint(data, p, name).value;
    var i :| 0 <= i < |data| && Some(data[i].name) == name;
    var k := FirstIndex(data, name, i);
    assert r[k] == Append(data[k], p);
    assert PointLists(r) == PointLists(data)[k := data[k].points + [p]] by {
      assert forall j :: 0 <= j < |data| && j != k ==> r[j] == data[j];
    }
    assert Util.TotalLength(PointLists(r)) == Util.TotalLength(PointLists(data)) + 1 by {
      TotalLengthGrows(PointLists(data), k, p);
    }
    assert r[k].points[|data[k].points|] == p;
  }

  /** Some set named `name` at `i` means there is a first one. */
  lemma {:induction false} FirstIndex(data: seq<PointSet>, name: Option<string>, i: nat) returns (k: nat)
    requires i < |data| && Some(data[i].name) == name
    ensures k <= i && FirstNamed(data, name, k)
    decreases i
  {
    if exists j :: 0 <= j < i && Some(data[j].name) == name {
      var j :| 0 <= j < i && Some(data[j].name) == name;
      k := FirstIndex(data, name, j);
    } else {
      k := i;
    }
  }
}

=== FILE: infra.dfy ===
/**
 * Name matching of the current variant (`src/infra.py`): the `simplify`
 * rewrite and the `similarity` score. The team names come from the settings
 * module, which is not part of this model, so they are a parameter.
 */
module Infra {
  import opened PyStrings
  import opened Scores

  /** The tokens the regex ` (Jr\.|Sr\.|II|III)$` removes, with their space. */
  const Suffixes: seq<string> := [" Jr.", " Sr.", " II", " III"]

  /** `s` without the suffix token it ends with; `s` itself when it ends with none. */
  function DropToken(s: string): (r: string)
    ensures r == s || exists k | 0 <= k < |Suffixes| :: s == r + Suffixes[k]
  {
    if EndsWith(s, " Jr.") then
      assert s == s[..|s| - 4] + Suffixes[0];
      s[..|s| - 4]
    else if EndsWith(s, " Sr.") then
      assert s == s[..|s| - 4] + Suffixes[1];
      s[..|s| - 4]
    else if EndsWith(s, " II") then
      assert s == s[..|s| - 3] + Suffixes[2];
      s[..|s| - 3]
    else if EndsWith(s, " III") then
      assert s == s[..|s| - 4] + Suffixes[3];
      s[..|s| - 4]
    else s
  }

  /**
   * `re.sub(r" (Jr\.|Sr\.|II|III)$", "", name)`. Without the multi-line flag
   * `$` matches at the very end and just before a final newline; the tokens
   * cannot end both there and at the end, so at most one is removed.
   */
  function StripSuffix(name: string): (r: string)
    ensures r == name || exists k | 0 <= k < |Suffixes| ::
      name == r + Suffixes[k] || (|r| > 0 && name == r[..|r| - 1] + Suffixes[k] + "\n")
  {
    if |name| > 0 && name[|name| - 1] == '\n' then
      var body := name[..|name| - 1];
      var r := DropToken(body) + "\n";
      assert r[..|r| - 1] == DropToken(body);
      r
    else DropToken(name)
  }

  /** A name ending in anything but `.`, `I` or a newline is left as it is. */
  lemma StripSuffixOnlyAtEnd(name: string)
    requires |name| == 0 || (name[|name| - 1] != '.' && name[|name| - 1] != 'I' && name[|name| - 1] != '\n')
    ensures StripSuffix(name) == name
  {
    if |name| > 0 {
      assert !EndsWith(name, " Jr.") && !EndsWith(name, " Sr.");
      assert !EndsWith(name, " II") && !EndsWith(name, " III");
    }
  }

  /** Appending one suffix token and stripping gives back the name, whatever it ends with. */
  lemma DropTokenAppended(s: string, k: nat)
    requires k < |Suffixes|
    ensures DropToken(s + Suffixes[k]) == s
  {
    var n := s + Suffixes[k];
    var t := Suffixes[k];
    assert n[|n| - |t|..] == t;
    assert n[..|n| - |t|] == s;
    if k == 2 {
      assert n[|n| - 1] == 'I';
      assert !EndsWith(n, " Jr.") && !EndsWith(n, " Sr.");
    } else if k == 3 {
      assert n[|n| - 1] == 'I' && n[|n| - 3] == 'I';
      assert !EndsWith(n, " Jr.") && !EndsWith(n, " Sr.") && !EndsWith(n, " II");
    } else if k == 1 {
      assert n[|n| - 3] == 'S';
      assert !EndsWith(n, " Jr.");
    }
  }

  /** Exactly one token is removed from the end: a name ending in two loses only the last. */
  lemma StripSuffixRemovesOne(s: string, k: nat)
    requires k < |Suffixes|
    ensures StripSuffix(s + Suffixes[k]) == s
  {
    var n := s + Suffixes[k];
    assert n[|n| - 1] == Suffixes[k][|Suffixes[k]| - 1];
    DropTokenAppended(s, k);
  }

  /** A token just before a final newline is removed and the newline kept. */
  lemma StripSuffixBeforeNewline(s: string, k: nat)
    requires k < |Suffixes|
    ensures StripSuffix(s + Suffixes[k] + "\n") == s + "\n"
  {
    var n := s + Suffixes[k] + "\n";
    assert n[..|n| - 1] == s + Suffixes[k];
    DropTokenAppended(s, k);
  }

  /** The patterns `f"{team_name} "` deleted for each team name, in order. */
  function TeamPatterns(teams: seq<string>): (pats: seq<string>)
    ensures |pats| == |teams|
    ensures forall i :: 0 <= i < |pats| ==> pats[i] == teams[i] + " "
  {
    seq(|teams|, i requires 0 <= i < |teams| => teams[i] + " ")
  }

  /** No team name followed by a space occurs in `s`. */
  predicate NoTeamIn(s: string, teams: seq<string>) {
    forall i :: 0 <= i < |teams| ==> !Occurs(s, teams[i] + " ")
  }

  /**
   * The steps of `simplify` after the suffix: delete every " D/ST", then
   * every " D/STD/ST", then every team name followed by a space.
   */
  function StripMarkersAndTeams(s: string, teams: seq<string>): (r: string)
    ensures |r| <= |s|
  {
    RemoveAll(Replace(Replace(s, " D/ST", ""), " D/STD/ST", ""), TeamPatterns(teams))
  }

  /** `simplify(name)` with `settings.TEAM_NAMES` given as `teams`. */
  function Simplify(name: string, teams: seq<string>): (r: string)
    ensures |r| <= |name|
  {
    StripMarkersAndTeams(StripSuffix(name), teams)
  }

  /** `self.similarity(other)` for two players named `a` and `b`. */
  function Similarity(a: string, b: string, teams: seq<string>): (r: Score)
    ensures r == Finite(0) <==> a == b
    ensures r.Finite? ==> r.value <= 2
  {
    if a == b then Finite(0)
    else
      var sa, sb := Simplify(a, teams), Simplify(b, teams);
      if sa == b || sb == a then Finite(1)
      else if sa == sb then Finite(2)
      else Infinite
  }

  /** The score does not depend on which player asks. */
  lemma SimilaritySymmetric(a: string, b: string, teams: seq<string>)
    ensures Similarity(a, b, teams) == Similarity(b, a, teams)
  {
  }

  /** Without markers or team names, a name is its own simplification. */
  lemma {:induction false} PlainNameUnchanged(s: string, teams: seq<string>)
    requires !Occurs(s, " D/ST") && !Occurs(s, " D/STD/ST") && NoTeamIn(s, teams)
    ensures StripMarkersAndTeams(s, teams) == s
  {
    ReplaceAbsent(s, " D/ST", "");
    ReplaceAbsent(s, " D/STD/ST", "");
    RemoveAllAbsent(s, TeamPatterns(teams));
  }

  /**
   * A plain name and the same name with a suffix token score 1: the
   * simplified longer name equals the shorter one.
   */
  lemma SuffixedNameScoresOne(x: string, k: nat, teams: seq<string>)
    requires k < |Suffixes|
    requires !Occurs(x, " D/ST") && !Occurs(x, " D/STD/ST") && NoTeamIn(x, teams)
    ensures Similarity(x + Suffixes[k], x, teams) == Finite(1)
  {
    var a := x + Suffixes[k];
    assert a != x by {
      assert |a| > |x|;
    }
    assert Simplify(a, teams) == x by {
      StripSuffixRemovesOne(x, k);
      PlainNameUnchanged(x, teams);
    }
  }

  /**
   * One base name with two different suffix tokens scores 2: neither raw
   * name is the other's simplification, but both simplify alike.
   */
  lemma DifferentSuffixesScoreTwo(x: string, k1: nat, k2: nat, teams: seq<string>)
    requires k1 < |Suffixes| && k2 < |Suffixes| && k1 != k2
    ensures Similarity(x + Suffixes[k1], x + Suffixes[k2], teams) == Finite(2)
  {
    var a, b := x + Suffixes[k1], x + Suffixes[k2];
    assert a[|x|..] == Suffixes[k1] && b[|x|..] == Suffixes[k2];
    assert a != b;
    StripSuffixRemovesOne(x, k1);
    StripSuffixRemovesOne(x, k2);
  }

  /** The case the unit tests pin: "John Doe Jr." against "John Doe" scores 1. */
  lemma JuniorScoresOne(teams: seq<string>)
    requires NoTeamIn("John Doe", teams)
    ensures Similarity("John Doe Jr.", "John Doe", teams) == Finite(1)
  {
    MissingCharMeansAbsent("John Doe", " D/ST", 2);
    MissingCharMeansAbsent("John Doe", " D/STD/ST", 2);
    assert "John Doe" + Suffixes[0] == "John Doe Jr.";
    SuffixedNameScoresOne("John Doe", 0, teams);
  }

  /** The case the unit tests pin: "Jane Smith" against "John Doe" scores infinity. */
  lemma DifferentNamesScoreInfinite(teams: seq<string>)
    requires NoTeamIn("Jane Smith", teams) && NoTeamIn("John Doe", teams)
    ensures Similarity("Jane Smith", "John Doe", teams) == Infinite
  {
    StripSuffixOnlyAtEnd("Jane Smith");
    StripSuffixOnlyAtEnd("John Doe");
    MissingCharMeansAbsent("John Doe", " D/ST", 2);
    MissingCharMeansAbsent("John Doe", " D/STD/ST", 2);
    MissingCharMeansAbsent("Jane Smith", " D/ST", 2);
    MissingCharMeansAbsent("Jane Smith", " D/STD/ST", 2);
    PlainNameUnchanged("Jane Smith", teams);
    PlainNameUnchanged("John Doe", teams);
  }

  /** A suffix token in the middle of a name is not removed. */
  lemma MidNameTokenKept()
    ensures StripSuffix("John Jr. Doe") == "John Jr. Doe"
  {
    StripSuffixOnlyAtEnd("John Jr. Doe");
  }

  /** The " D/ST" pass cuts the double marker down to its "D/ST" tail. */
  lemma SingleMarkerPass(x: string)
    requires ' ' !in x
    ensures Replace(x + " D/STD/ST", " D/ST", "") == x + "D/ST"
  {
    assert x + " D/STD/ST" == x + " D/ST" + "D/ST" by {
      assert " D/STD/ST" == " D/ST" + "D/ST";
    }
    DeleteSoleOccurrence(x, " D/ST", "D/ST", 0);
  }

  /** A string without spaces holds neither the double marker nor any team pattern. */
  lemma SpacelessUnchanged(t: string, teams: seq<string>)
    requires ' ' !in t
    ensures RemoveAll(Replace(t, " D/STD/ST", ""), TeamPatterns(teams)) == t
  {
    MissingCharMeansAbsent(t, " D/STD/ST", 0);
    ReplaceAbsent(t, " D/STD/ST", "");
    var pats := TeamPatterns(teams);
    forall i | 0 <= i < |pats|
      ensures |pats[i]| > 0 && !Occurs(t, pats[i])
    {
      MissingCharMeansAbsent(t, pats[i], |pats[i]| - 1);
    }
    RemoveAllAbsent(t, pats);
  }

  /**
   * " D/ST" goes first, so a name "X D/STD/ST" with no space in X keeps a
   * "D/ST" tail; no team pattern can occur, since each ends in a space.
   */
  lemma DoubleMarkerLeavesTail(x: string, teams: seq<string>)
    requires ' ' !in x
    ensures Simplify(x + " D/STD/ST", teams) == x + "D/ST"
  {
    StripSuffixOnlyAtEnd(x + " D/STD/ST");
    SingleMarkerPass(x);
    SpacelessUnchanged(x + "D/ST", teams);
  }

  /** Each team pattern ends in a space, so none occurs in a name without one. */
  lemma SpacelessNoTeam(s: string, teams: seq<string>)
    requires ' ' !in s
    ensures NoTeamIn(s, teams)
  {
    forall i | 0 <= i < |teams|
      ensures !Occurs(s, teams[i] + " ")
    {
      MissingCharMeansAbsent(s, teams[i] + " ", |teams[i]|);
    }
  }

  /** A name without spaces plus a suffix token simplifies back to the name. */
  lemma SpacelessSimplifiedSuffix(x: string, k: nat, teams: seq<string>)
    requires k < |Suffixes| && ' ' !in x
    ensures Simplify(x + Suffixes[k], teams) == x
  {
    StripSuffixRemovesOne(x, k);
    MissingCharMeansAbsent(x, " D/ST", 0);
    MissingCharMeansAbsent(x, " D/STD/ST", 0);
    SpacelessNoTeam(x, teams);
    PlainNameUnchanged(x, teams);
  }

  /** So such a name with a suffix scores 1 against the bare name, whatever the teams. */
  lemma SpacelessSuffixScoresOne(x: string, k: nat, teams: seq<string>)
    requires k < |Suffixes| && ' ' !in x
    ensures Similarity(x + Suffixes[k], x, teams) == Finite(1)
  {
    var a := x + Suffixes[k];
    assert a != x by {
      assert |a| > |x|;
    }
    assert Simplify(a, teams) == x by {
      SpacelessSimplifiedSuffix(x, k, teams);
    }
  }

  /** The team patterns of a split list are the split of its team patterns. */
  lemma TeamPatternsSplit(before: seq<string>, t: string, after: seq<string>)
    ensures TeamPatterns(before + [t] + after)[..|before|] == TeamPatterns(before)
    ensures TeamPatterns(before + [t] + after)[|before|..] == [t + " "] + TeamPatterns(after)
  {
    var teams := before + [t] + after;
    var pats := TeamPatterns(teams);
    assert pats[..|before|] == TeamPatterns(before) by {
      forall i | 0 <= i < |before|
        ensures pats[..|before|][i] == TeamPatterns(before)[i]
      {
        assert teams[i] == before[i];
      }
    }
    assert pats[|before|..] == [t + " "] + TeamPatterns(after) by {
      forall i | 0 <= i < |pats| - |before|
        ensures pats[|before|..][i] == ([t + " "] + TeamPatterns(after))[i]
      {
        if i > 0 {
          assert teams[|before| + i] == after[i - 1];
        }
      }
    }
  }

  /**
   * The team pass on a name that starts with a team name and a space: the
   * earlier team patterns do not occur, this one is deleted from the front,
   * and the later ones cannot occur in the spaceless rest.
   */
  lemma TeamPassRemovesCity(t: string, y: string, before: seq<string>, after: seq<string>)
    requires ' ' !in y && NoTeamIn(t + " " + y, before)
    ensures RemoveAll(t + " " + y, TeamPatterns(before + [t] + after)) == y
  {
    var s := t + " " + y;
    var pats := TeamPatterns(before + [t] + after);
    TeamPatternsSplit(before, t, after);
    RemoveAllSplit(s, pats, |before|);
    assert RemoveAll(s, pats[..|before|]) == s by {
      RemoveAllAbsent(s, TeamPatterns(before));
    }
    var rest := pats[|before|..];
    assert rest[0] == t + " " && rest[1..] == TeamPatterns(after);
    assert Replace(s, t + " ", "") == y by {
      assert s == "" + (t + " ") + y;
      DeleteSoleOccurrence("", t + " ", y, |t|);
    }
    assert RemoveAll(y, TeamPatterns(after)) == y by {
      SpacelessNoTeam(y, after);
      RemoveAllAbsent(y, TeamPatterns(after));
    }
  }

  /**
   * A team name, a space and a nickname simplify to the nickname: with no
   * `/` neither marker occurs, the team pass deletes the city, and a
   * nickname ending in anything but `.`, `I` or a newline loses no suffix.
   */
  lemma TeamNameRemoved(t: string, y: string, before: seq<string>, after: seq<string>)
    requires '/' !in t && '/' !in y && ' ' !in y
    requires |y| == 0 || (y[|y| - 1] != '.' && y[|y| - 1] != 'I' && y[|y| - 1] != '\n')
    requires NoTeamIn(t + " " + y, before)
    ensures Simplify(t + " " + y, before + [t] + after) == y
  {
    var s := t + " " + y;
    assert |y| > 0 ==> s[|s| - 1] == y[|y| - 1];
    StripSuffixOnlyAtEnd(s);
    assert '/' !in s;
    MissingCharMeansAbsent(s, " D/ST", 2);
    ReplaceAbsent(s, " D/ST", "");
    MissingCharMeansAbsent(s, " D/STD/ST", 2);
    ReplaceAbsent(s, " D/STD/ST", "");
    TeamPassRemovesCity(t, y, before, after);
  }

  /** So such a name scores 1, not 2, against its nickname. */
  lemma TeamNameScoresOne(t: string, y: string, before: seq<string>, after: seq<string>)
    requires '/' !in t && '/' !in y && ' ' !in y
    requires |y| == 0 || (y[|y| - 1] != '.' && y[|y| - 1] != 'I' && y[|y| - 1] != '\n')
    requires NoTeamIn(t + " " + y, before)
    ensures Similarity(t + " " + y, y, before + [t] + after) == Finite(1)
  {
    assert |t + " " + y| > |y|;
    TeamNameRemoved(t, y, before, after);
  }

  /** "Kansas City Chiefs" simplifies to "Chiefs" when "Kansas City" is a team name. */
  lemma KansasCityScoresOne(before: seq<string>, after: seq<string>)
    requires NoTeamIn("Kansas City Chiefs", before)
    ensures Simplify("Kansas City Chiefs", before + ["Kansas City"] + after) == "Chiefs"
    ensures Similarity("Kansas City Chiefs", "Chiefs", before + ["Kansas City"] + after) == Finite(1)
  {
    var t, y := "Kansas City", "Chiefs";
    assert "Kansas City Chiefs" == t + " " + y;
    assert '/' !in t && '/' !in y && ' ' !in y && y[|y| - 1] == 's' by {
      assert forall i :: 0 <= i < |t| ==> t[i] != '/';
      assert forall i :: 0 <= i < |y| ==> y[i] != '/' && y[i] != ' ';
    }
    TeamNameRemoved(t, y, before, after);
    TeamNameScoresOne(t, y, before, after);
  }
}

=== FILE: legacy_infra.dfy ===
/**
 * Name matching of the older variant (`Source/infra.py`): `simplify` is one
 * fixed chain of 38 literal deletions (six suffix and defence markers, then
 * 32 team names, each followed by a space), applied anywhere in the name.
 */
module LegacyInfra {
  import opened PyStrings
  import opened Scores
  import Infra

  /** The chain starts with this many marker deletions, then the team deletions. */
  const MarkerCount := 6
  const PatternCount := 38

  /** The marker deletions, in chain order; each starts with a space. */
  function MarkerPattern(i: nat): (r: string)
    requires i < MarkerCount
    ensures |r| >= 3 && r[0] == ' '
  {
    if i == 0 then " Jr."
    else if i == 1 then " sr."
    else if i == 2 then " II"
    else if i == 3 then " III"
    else if i == 4 then " D/STD/ST"
    else " D/ST"
  }

  /** The first half of the team deletions, in chain order. */
  function TeamPatternA(i: nat): (r: string)
    requires i < 16
    ensures |r| > 5 && r[|r| - 1] == ' '
  {
    if i == 0 then "Jacksonville "
    else if i == 1 then "Minnesota "
    else if i == 2 then "Philadelphia "
    else if i == 3 then "Houston "
    else if i == 4 then "Los Angeles "
    else if i == 5 then "Baltimore "
    else if i == 6 then "Denver "
    else if i == 7 then "Seattle "
    else if i == 8 then "New England "
    else if i == 9 then "Carolina "
    else if i == 10 then "Pittsburgh "
    else if i == 11 then "Carolina "
    else if i == 12 then "Kansas City "
    else if i == 13 then "Chicago "
    else if i == 14 then "Atlanta "
    else "Arizona "
  }

  /** The second half of the team deletions, in chain order. */
  function TeamPatternB(i: nat): (r: string)
    requires 16 <= i < 32
    ensures |r| > 5 && r[|r| - 1] == ' '
  {
    if i == 16 then "Green Bay "
    else if i == 17 then "New York "
    else if i == 18 then "Tennessee "
    else if i == 19 then "Detroit "
    else if i == 20 then "Buffalo "
    else if i == 21 then "New Orleans "
    else if i == 22 then "San Francisco "
    else if i == 23 then "Washington "
    else if i == 24 then "Cleveland "
    else if i == 25 then "Cincinnati "
    else if i == 26 then "Dallas "
    else if i == 27 then "Houston "
    else if i == 28 then "Indianapolis "
    else if i == 29 then "Miami "
    else if i == 30 then "Oakland "
    else "Tampa Bay "
  }

  /**
   * The `i`-th deletion of the chain. Markers start with a space; team
   * patterns end with one and are longer than five characters.
   */
  function Pattern(i: nat): (r: string)
    requires i < PatternCount
    ensures i < MarkerCount ==> |r| >= 3 && r[0] == ' '
    ensures MarkerCount <= i ==> |r| > 5 && r[|r| - 1] == ' '
  {
    if i < MarkerCount then MarkerPattern(i)
    else if i < MarkerCount + 16 then TeamPatternA(i - MarkerCount)
    else TeamPatternB(i - MarkerCount)
  }

  /** The chain from its `i`-th deletion on. */
  function SimplifyFrom(name: string, i: nat): (r: string)
    requires i <= PatternCount
    ensures |r| <= |name|
    decreases PatternCount - i
  {
    if i == PatternCount then name else SimplifyFrom(Replace(name, Pattern(i), ""), i + 1)
  }

  /** `simplify(name)`: every deletion of the chain, anywhere in the name. */
  function Simplify(name: string): (r: string)
    ensures |r| <= |name|
  {
    SimplifyFrom(name, 0)
  }

  /**
   * `self.similarity(other)`: 0 for equal names, 1 when either simplified
   * name is the other raw name, 2 when both simplify alike, else infinity.
   */
  function Similarity(a: string, b: string): (r: Score)
    ensures r == Finite(0) <==> a == b
    ensures r.Finite? ==> r.value <= 2
  {
    if a == b then Finite(0)
    else if Simplify(a) == b then Finite(1)
    else if Simplify(b) == a then Finite(1)
    else if Simplify(b) == Simplify(a) then Finite(2)
    else Infinite
  }

  /** The score does not depend on which player asks. */
  lemma SimilaritySymmetric(a: string, b: string)
    ensures Similarity(a, b) == Similarity(b, a)
  {
  }

  /** The marker deletions, spelled out. */
  lemma MarkerValues()
    ensures Pattern(0) == " Jr."
    ensures Pattern(1) == " sr."
    ensures Pattern(2) == " II"
    ensures Pattern(3) == " III"
    ensures Pattern(4) == " D/STD/ST"
    ensures Pattern(5) == " D/ST"
  {
  }

  /** The characters of the markers that the lemmas below use as witnesses. */
  lemma MarkerChars()
    ensures |Pattern(0)| == 4 && Pattern(0)[1] == 'J' && Pattern(0)[3] == '.'
    ensures |Pattern(1)| == 4 && Pattern(1)[1] == 's' && Pattern(1)[3] == '.'
    ensures |Pattern(2)| == 3 && Pattern(2)[1] == 'I'
    ensures |Pattern(3)| == 4 && Pattern(3)[1] == 'I'
    ensures |Pattern(4)| == 9 && Pattern(4)[2] == '/'
    ensures |Pattern(5)| == 5 && Pattern(5)[2] == '/'
  {
    MarkerValues();
  }

  /** One deletion of the chain, whose result is known. */
  lemma StepTo(s: string, i: nat, t: string)
    requires i < PatternCount && Replace(s, Pattern(i), "") == t
    ensures SimplifyFrom(s, i) == SimplifyFrom(t, i + 1)
  {
  }

  /** Deletions that find nothing can be skipped. */
  lemma {:induction false} SkipUnchanged(s: string, i: nat, j: nat)
    requires i <= j <= PatternCount
    requires forall k :: i <= k < j ==> Replace(s, Pattern(k), "") == s
    ensures SimplifyFrom(s, i) == SimplifyFrom(s, j)
    decreases j - i
  {
    if i < j {
      assert SimplifyFrom(s, i) == SimplifyFrom(s, i + 1) by {
        StepTo(s, i, s);
      }
      assert SimplifyFrom(s, i + 1) == SimplifyFrom(s, j) by {
        SkipUnchanged(s, i + 1, j);
      }
    }
  }

  /** A team pattern cannot occur in a name whose spaces all lie in its first five characters. */
  lemma TeamLateSpace(s: string, k: nat)
    requires MarkerCount <= k < PatternCount
    requires forall j :: 5 <= j < |s| ==> s[j] != ' '
    ensures Replace(s, Pattern(k), "") == s
  {
    var p := Pattern(k);
    LateSpaceAbsent(s, p, 5);
  }

  /** So the team deletions leave such a name as it is. */
  lemma EarlySpacesKeepTeams(s: string, i: nat)
    requires MarkerCount <= i <= PatternCount
    requires forall j :: 5 <= j < |s| ==> s[j] != ' '
    ensures SimplifyFrom(s, i) == s
  {
    forall k | i <= k < PatternCount
      ensures Replace(s, Pattern(k), "") == s
    {
      TeamLateSpace(s, k);
    }
    SkipUnchanged(s, i, PatternCount);
  }

  /** Every pattern of the chain holds a space, so a name without one is left as it is. */
  lemma SpacelessUnchanged(s: string, i: nat)
    requires ' ' !in s && i <= PatternCount
    ensures SimplifyFrom(s, i) == s
  {
    forall k | i <= k < PatternCount
      ensures Replace(s, Pattern(k), "") == s
    {
      if k < MarkerCount {
        ReplaceMissingChar(s, Pattern(k), 0);
      } else {
        TeamLateSpace(s, k);
      }
    }
    SkipUnchanged(s, i, PatternCount);
  }

  /** A name without spaces is its own simplification. */
  lemma SpacelessSimplified(s: string)
    requires ' ' !in s
    ensures Simplify(s) == s
  {
    SpacelessUnchanged(s, 0);
  }

  /**
   * Markers `i` to `j` each hold, at the index `hints` gives, a character
   * `s` lacks, so those deletions pass `s` by.
   */
  lemma MarkersPassBy(s: string, hints: seq<nat>, i: nat, j: nat)
    requires i <= j <= MarkerCount && |hints| == MarkerCount
    requires forall k :: i <= k < j ==> hints[k] < |Pattern(k)| && Pattern(k)[hints[k]] !in s
    ensures SimplifyFrom(s, i) == SimplifyFrom(s, j)
  {
    forall k | i <= k < j
      ensures Replace(s, Pattern(k), "") == s
    {
      ReplaceMissingChar(s, Pattern(k), hints[k]);
    }
    SkipUnchanged(s, i, j);
  }

  /** Each marker holds a `.`, an `I` or a `/`; a name with none of them passes the markers. */
  lemma PlainCharsKeepMarkers(s: string, i: nat, j: nat)
    requires i <= j <= MarkerCount
    requires '.' !in s && 'I' !in s && '/' !in s
    ensures SimplifyFrom(s, i) == SimplifyFrom(s, j)
  {
    MarkerChars();
    MarkersPassBy(s, [3, 3, 1, 1, 2, 2], i, j);
  }

  /** The chain's `k`-th deletion removes the sole occurrence of its pattern after a word. */
  lemma MarkerStep(x: string, k: nat, y: string, h: nat)
    requires k < MarkerCount && ' ' !in x && h < |Pattern(k)| && Pattern(k)[h] !in y
    ensures SimplifyFrom(x + Pattern(k) + y, k) == SimplifyFrom(x + y, k + 1)
  {
    DeleteSoleOccurrence(x, Pattern(k), y, h);
    StepTo(x + Pattern(k) + y, k, x + y);
  }

  /**
   * " Jr." is deleted in the middle of a name too, not only at its end: a
   * first word, " Jr." and the rest simplify to the two words joined.
   */
  lemma JuniorRemovedAnywhere(x: string, y: string)
    requires ' ' !in x && 'J' !in y
    requires '.' !in x + y && 'I' !in x + y && '/' !in x + y
    requires forall j :: 5 <= j < |x + y| ==> (x + y)[j] != ' '
    ensures Simplify(x + " Jr." + y) == x + y
  {
    MarkerChars();
    MarkerValues();
    MarkerStep(x, 0, y, 1);
    PlainCharsKeepMarkers(x + y, 1, MarkerCount);
    EarlySpacesKeepTeams(x + y, MarkerCount);
  }

  /**
   * Only the lower-case " sr." is deleted, so a name like "Doe Sr." is its
   * own simplification: no `J`, `s`, `I` or `/`, and spaces only in its
   * first five characters.
   */
  lemma SeniorKept(s: string)
    requires 'J' !in s && 's' !in s && 'I' !in s && '/' !in s
    requires forall j :: 5 <= j < |s| ==> s[j] != ' '
    ensures Simplify(s) == s
  {
    MarkerChars();
    MarkersPassBy(s, [1, 1, 1, 1, 2, 2], 0, MarkerCount);
    EarlySpacesKeepTeams(s, MarkerCount);
  }

  /** And such a name with " Sr." does not match the name without it at all. */
  lemma SeniorDoesNotMatch(x: string)
    requires ' ' !in x && |x| <= 4 && 'J' !in x && 's' !in x && 'I' !in x && '/' !in x
    ensures Similarity(x + " Sr.", x) == Infinite
  {
    var s := x + " Sr.";
    assert forall c :: c in s ==> c in x || c in " Sr.";
    assert forall j :: 5 <= j < |s| ==> s[j] == " Sr."[j - |x|];
    SeniorKept(s);
    SpacelessSimplified(x);
  }

  /**
   * A character that is none of the witnesses below: for each team deletion
   * one character it holds (mostly its capital).
   */
  predicate NoTeamWitness(c: char) {
    c != 'a' && c != 'M' && c != 'P' && c != 'H' && c != 'L' && c != 'B' &&
    c != 'v' && c != 'N' && c != 'C' && c != 'K' && c != 'A' && c != 'G' &&
    c != 'T' && c != 't' && c != 'W' && c != 'I' && c != 'O'
  }

  /** A name none of whose characters is a team witness. */
  predicate NoTeamWitnessIn(s: string) {
    forall i :: 0 <= i < |s| ==> NoTeamWitness(s[i])
  }

  /** The witnesses of team deletions 6 to 13. */
  lemma TeamWitnesses1()
    ensures Pattern(6)[1] == 'a' && Pattern(7)[0] == 'M' && Pattern(8)[0] == 'P' && Pattern(9)[0] == 'H'
    ensures Pattern(10)[0] == 'L' && Pattern(11)[0] == 'B' && Pattern(12)[3] == 'v' && Pattern(13)[2] == 'a'
  {
  }

  /** The witnesses of team deletions 14 to 21. */
  lemma TeamWitnesses2()
    ensures Pattern(14)[0] == 'N' && Pattern(15)[0] == 'C' && Pattern(16)[0] == 'P' && Pattern(17)[0] == 'C'
    ensures Pattern(18)[0] == 'K' && Pattern(19)[0] == 'C' && Pattern(20)[0] == 'A' && Pattern(21)[0] == 'A'
  {
  }

  /** The witnesses of team deletions 22 to 29. */
  lemma TeamWitnesses3()
    ensures Pattern(22)[0] == 'G' && Pattern(23)[0] == 'N' && Pattern(24)[0] == 'T' && Pattern(25)[2] == 't'
    ensures Pattern(26)[0] == 'B' && Pattern(27)[0] == 'N' && Pattern(28)[1] == 'a' && Pattern(29)[0] == 'W'
  {
  }

  /** The witnesses of team deletions 30 to 37. */
  lemma TeamWitnesses4()
    ensures Pattern(30)[0] == 'C' && Pattern(31)[0] == 'C' && Pattern(32)[1] == 'a' && Pattern(33)[0] == 'H'
    ensures Pattern(34)[0] == 'I' && Pattern(35)[0] == 'M' && Pattern(36)[0] == 'O' && Pattern(37)[0] == 'T'
  {
  }

  /** The witness characters, as membership facts. */
  lemma WitnessesAbsent(s: string)
    requires NoTeamWitnessIn(s)
    ensures 'a' !in s && 'M' !in s && 'P' !in s && 'H' !in s && 'L' !in s && 'B' !in s
    ensures 'v' !in s && 'N' !in s && 'C' !in s && 'K' !in s && 'A' !in s && 'G' !in s
    ensures 'T' !in s && 't' !in s && 'W' !in s && 'I' !in s && 'O' !in s
  {
  }

  /** Team deletions 6 to 13 pass such a name by. */
  lemma TeamsPassBy1(s: string)
    requires NoTeamWitnessIn(s)
    ensures SimplifyFrom(s, 6) == SimplifyFrom(s, 14)
  {
    WitnessesAbsent(s);
    TeamWitnesses1();
    PassOne(s, 6, 1);
    PassOne(s, 7, 0);
    PassOne(s, 8, 0);
    PassOne(s, 9, 0);
    PassOne(s, 10, 0);
    PassOne(s, 11, 0);
    PassOne(s, 12, 3);
    PassOne(s, 13, 2);
  }

  /** Team deletions 14 to 21 pass such a name by. */
  lemma TeamsPassBy2(s: string)
    requires NoTeamWitnessIn(s)
    ensures SimplifyFrom(s, 14) == SimplifyFrom(s, 22)
  {
    WitnessesAbsent(s);
    TeamWitnesses2();
    PassOne(s, 14, 0);
    PassOne(s, 15, 0);
    PassOne(s, 16, 0);
    PassOne(s, 17, 0);
    PassOne(s, 18, 0);
    PassOne(s, 19, 0);
    PassOne(s, 20, 0);
    PassOne(s, 21, 0);
  }

  /** Team deletions 22 to 29 pass such a name by. */
  lemma TeamsPassBy3(s: string)
    requires NoTeamWitnessIn(s)
    ensures SimplifyFrom(s, 22) == SimplifyFrom(s, 30)
  {
    WitnessesAbsent(s);
    TeamWitnesses3();
    PassOne(s, 22, 0);
    PassOne(s, 23, 0);
    PassOne(s, 24, 0);
    PassOne(s, 25, 2);
    PassOne(s, 26, 0);
    PassOne(s, 27, 0);
    PassOne(s, 28, 1);
    PassOne(s, 29, 0);
  }

  /** Team deletions 30 to 37 pass such a name by. */
  lemma TeamsPassBy4(s: string)
    requires NoTeamWitnessIn(s)
    ensures SimplifyFrom(s, 30) == s
  {
    WitnessesAbsent(s);
    TeamWitnesses4();
    PassOne(s, 30, 0);
    PassOne(s, 31, 0);
    PassOne(s, 32, 1);
    PassOne(s, 33, 0);
    PassOne(s, 34, 0);
    PassOne(s, 35, 0);
    PassOne(s, 36, 0);
    PassOne(s, 37, 0);
  }

  /** So every team deletion passes by a name without a witness, wherever its spaces are. */
  lemma NoWitnessKeepsTeams(s: string)
    requires NoTeamWitnessIn(s)
    ensures SimplifyFrom(s, MarkerCount) == s
  {
    TeamsPassBy1(s);
    TeamsPassBy2(s);
    TeamsPassBy3(s);
    TeamsPassBy4(s);
  }

  /** " Jr." passes by a name with no `J` after its first character. */
  lemma JuniorPassesBy(s: string)
    requires |s| > 0 && 'J' !in s[1..]
    ensures SimplifyFrom(s, 0) == SimplifyFrom(s, 1)
  {
    var p := Pattern(0);
    assert |p| == 4 && p[1] == 'J' by {
      MarkerChars();
    }
    assert forall i :: 1 <= i < |s| ==> s[i] == s[1..][i - 1];
    SecondCharOnlyAtFront(s, p);
    ReplaceAbsent(s, p, "");
    StepTo(s, 0, s);
  }

  /** The markers after " Jr." pass by a name without `s`, `I` or `/`. */
  lemma LaterMarkersPassBy(s: string)
    requires 's' !in s && 'I' !in s && '/' !in s
    ensures SimplifyFrom(s, 1) == SimplifyFrom(s, MarkerCount)
  {
    MarkerChars();
    MarkersPassBy(s, [1, 1, 1, 1, 2, 2], 1, MarkerCount);
  }

  /**
   * A name of several words is its own simplification when it has no
   * lower-case `s`, no `/`, no team witness (which rules out `I`) and no `J`
   * after its first character: " Jr." needs a `J` after a space.
   */
  lemma SpacedSeniorKept(s: string)
    requires |s| > 0 && 's' !in s && '/' !in s && 'J' !in s[1..] && NoTeamWitnessIn(s)
    ensures Simplify(s) == s
  {
    assert 'I' !in s by {
      WitnessesAbsent(s);
    }
    assert SimplifyFrom(s, 0) == SimplifyFrom(s, 1) by {
      JuniorPassesBy(s);
    }
    assert SimplifyFrom(s, 1) == SimplifyFrom(s, MarkerCount) by {
      LaterMarkersPassBy(s);
    }
    assert SimplifyFrom(s, MarkerCount) == s by {
      NoWitnessKeepsTeams(s);
    }
  }

  /**
   * So a name of several words with " Sr." does not match the name without
   * it at all.
   */
  lemma SpacedSeniorDoesNotMatch(x: string)
    requires |x| > 0 && 's' !in x && '/' !in x && 'J' !in x[1..] && NoTeamWitnessIn(x)
    ensures Similarity(x + " Sr.", x) == Infinite
  {
    var s := x + " Sr.";
    assert s[1..] == x[1..] + " Sr.";
    assert NoTeamWitnessIn(s) by {
      assert forall i :: |x| <= i < |s| ==> s[i] == " Sr."[i - |x|];
    }
    assert 's' !in s && '/' !in s && 'J' !in s[1..] by {
      assert forall c :: c in s ==> c in x || c in " Sr.";
      assert forall c :: c in s[1..] ==> c in x[1..] || c in " Sr.";
    }
    SpacedSeniorKept(s);
    SpacedSeniorKept(x);
  }

  /** The case in point: "John Doe Sr." does not match "John Doe". */
  lemma JohnDoeSeniorDoesNotMatch()
    ensures Similarity("John Doe Sr.", "John Doe") == Infinite
  {
    var x := "John Doe";
    assert NoTeamWitnessIn(x) && 's' !in x && '/' !in x && 'J' !in x[1..] by {
      assert forall i :: 0 <= i < |x| ==> NoTeamWitness(x[i]) && x[i] != 's' && x[i] != '/';
      assert forall i :: 1 <= i < |x| ==> x[i] != 'J';
      assert forall i :: 0 <= i < |x[1..]| ==> x[1..][i] == x[i + 1];
    }
    assert "John Doe Sr." == x + " Sr.";
    SpacedSeniorDoesNotMatch(x);
  }

  /**
   * " II" runs before " III", so a third leaves an "I" behind: for a word
   * without spaces or dots, "X III" simplifies to "XI".
   */
  lemma ThirdLeavesOneI(x: string)
    requires ' ' !in x && '.' !in x
    ensures Simplify(x + " III") == x + "I"
  {
    var s := x + " III";
    MarkerChars();
    MarkerValues();
    assert '.' !in s && s == x + Pattern(2) + "I";
    MarkersPassBy(s, [3, 3, 0, 0, 0, 0], 0, 2);
    MarkerStep(x, 2, "I", 0);
    SpacelessUnchanged(x + "I", 3);
  }

  /**
   * " D/STD/ST" runs before " D/ST" and removes the double marker whole: for
   * a word without spaces, dots or `I`, "X D/STD/ST" simplifies to "X".
   */
  lemma DoubleMarkerRemoved(x: string)
    requires ' ' !in x && '.' !in x && 'I' !in x
    ensures Simplify(x + " D/STD/ST") == x
  {
    var s := x + " D/STD/ST";
    MarkerChars();
    MarkerValues();
    assert '.' !in s && 'I' !in s && s == x + Pattern(4) + "";
    MarkersPassBy(s, [3, 3, 1, 1, 0, 0], 0, 4);
    MarkerStep(x, 4, "", 0);
    assert x + "" == x;
    SpacelessUnchanged(x, 5);
  }

  /** The first team deletion, spelled out. */
  lemma FirstTeamValue()
    ensures Pattern(MarkerCount) == "Jacksonville "
  {
  }

  /** The first team deletion starts with `J` and holds no `.`, `I` or `/`. */
  lemma FirstTeamChars()
    ensures |Pattern(MarkerCount)| > 0 && Pattern(MarkerCount)[0] == 'J'
    ensures '.' !in Pattern(MarkerCount) && 'I' !in Pattern(MarkerCount) && '/' !in Pattern(MarkerCount)
  {
    FirstTeamValue();
  }

  /**
   * A team deletion takes its city off the front of a name: the city ends in
   * a space, so when the rest holds none the city occurs there only once.
   */
  lemma TeamPrefixStep(k: nat, y: string)
    requires MarkerCount <= k < PatternCount && ' ' !in y
    ensures SimplifyFrom(Pattern(k) + y, k) == SimplifyFrom(y, k + 1)
  {
    assert Replace(Pattern(k) + y, Pattern(k), "") == y by {
      DeletePrefix(Pattern(k), y, |Pattern(k)| - 1);
    }
    StepTo(Pattern(k) + y, k, y);
  }

  /** The first team deletion takes its city off the front of a name. */
  lemma FirstTeamStep(y: string)
    requires ' ' !in y
    ensures SimplifyFrom(Pattern(MarkerCount) + y, MarkerCount) == SimplifyFrom(y, MarkerCount + 1)
  {
    TeamPrefixStep(MarkerCount, y);
  }

  /** So a city followed by a nickname simplifies to the nickname. */
  lemma FirstTeamRemoved(y: string)
    requires ' ' !in y && '.' !in y && 'I' !in y && '/' !in y
    ensures Simplify(Pattern(MarkerCount) + y) == y
  {
    FirstTeamChars();
    var s := Pattern(MarkerCount) + y;
    PlainCharsKeepMarkers(s, 0, MarkerCount);
    FirstTeamStep(y);
    SpacelessUnchanged(y, MarkerCount + 1);
  }

  /**
   * A city prefix is deleted, leaving the nickname: "Jacksonville " followed
   * by a word without spaces, `.`, `I` or `/` simplifies to the word.
   */
  lemma CityPrefixRemoved(y: string)
    requires ' ' !in y && '.' !in y && 'I' !in y && '/' !in y
    ensures Simplify("Jacksonville " + y) == y
  {
    FirstTeamValue();
    FirstTeamRemoved(y);
  }

  /** So "Jacksonville Jaguars" scores 1, not 2, against "Jaguars", and so on. */
  lemma CityPrefixScoresOne(y: string)
    requires ' ' !in y && '.' !in y && 'I' !in y && '/' !in y
    ensures Similarity("Jacksonville " + y, y) == Finite(1)
  {
    CityPrefixRemoved(y);
  }

  /** So "Jacksonville Jaguars" scores 1, not 2, against "Jaguars". */
  lemma JaguarsScoreOne()
    ensures Similarity("Jacksonville Jaguars", "Jaguars") == Finite(1)
  {
    assert "Jacksonville Jaguars" == "Jacksonville " + "Jaguars";
    CityPrefixScoresOne("Jaguars");
  }

  /** A deletion holding, at index `h`, a character `s` lacks passes `s` by. */
  lemma PassOne(s: string, k: nat, h: nat)
    requires k < PatternCount && h < |Pattern(k)| && Pattern(k)[h] !in s
    ensures SimplifyFrom(s, k) == SimplifyFrom(s, k + 1)
  {
    ReplaceMissingChar(s, Pattern(k), h);
    StepTo(s, k, s);
  }

  /** "Kansas City " is the thirteenth team deletion of the chain. */
  lemma KansasCityValue()
    ensures Pattern(MarkerCount + 12) == "Kansas City "
  {
  }

  /**
   * The nicknames the lemmas below take: no space, no character of a
   * marker's witness, and none of the characters that tell the twelve
   * earlier team deletions apart from "Kansas City " (their capitals and
   * the `r` of "Carolina ").
   */
  predicate KansasCityNickname(y: string) {
    ' ' !in y && '.' !in y && 'I' !in y && '/' !in y &&
    'J' !in y && 'M' !in y && 'P' !in y && 'H' !in y && 'L' !in y &&
    'B' !in y && 'D' !in y && 'S' !in y && 'N' !in y && 'r' !in y
  }

  /** The witnesses: a capital of each of the first six team deletions. */
  lemma EarlierTeamCharsA()
    ensures Pattern(6)[0] == 'J' && Pattern(7)[0] == 'M' && Pattern(8)[0] == 'P'
    ensures Pattern(9)[0] == 'H' && Pattern(10)[0] == 'L' && Pattern(11)[0] == 'B'
  {
  }

  /** The witnesses for the next six: a capital, or the `r` of "Carolina ". */
  lemma EarlierTeamCharsB()
    ensures Pattern(12)[0] == 'D' && Pattern(13)[0] == 'S' && Pattern(14)[0] == 'N'
    ensures Pattern(15)[2] == 'r' && Pattern(16)[0] == 'P' && Pattern(17)[2] == 'r'
  {
  }

  /** The first six team deletions pass by a name without `J`, `M`, `P`, `H`, `L` or `B`. */
  lemma FirstSixTeamsPassBy(s: string)
    requires 'J' !in s && 'M' !in s && 'P' !in s && 'H' !in s && 'L' !in s && 'B' !in s
    ensures SimplifyFrom(s, 6) == SimplifyFrom(s, 12)
  {
    EarlierTeamCharsA();
    PassOne(s, 6, 0);
    PassOne(s, 7, 0);
    PassOne(s, 8, 0);
    PassOne(s, 9, 0);
    PassOne(s, 10, 0);
    PassOne(s, 11, 0);
  }

  /** The next six pass by a name without `D`, `S`, `N`, `r` or `P`. */
  lemma NextSixTeamsPassBy(s: string)
    requires 'D' !in s && 'S' !in s && 'N' !in s && 'r' !in s && 'P' !in s
    ensures SimplifyFrom(s, 12) == SimplifyFrom(s, 18)
  {
    EarlierTeamCharsB();
    PassOne(s, 12, 0);
    PassOne(s, 13, 0);
    PassOne(s, 14, 0);
    PassOne(s, 15, 2);
    PassOne(s, 16, 0);
    PassOne(s, 17, 2);
  }

  /**
   * So the twelve team deletions before "Kansas City " pass by
   * "Kansas City " followed by such a nickname.
   */
  lemma KansasCityPassesEarlierTeams(y: string)
    requires KansasCityNickname(y)
    ensures SimplifyFrom("Kansas City " + y, MarkerCount) == SimplifyFrom("Kansas City " + y, MarkerCount + 12)
  {
    var s := "Kansas City " + y;
    KansasCityChars(y);
    FirstSixTeamsPassBy(s);
    NextSixTeamsPassBy(s);
  }

  /**
   * "Kansas City " holds none of the witnesses, of the teams or of the
   * markers, so neither does it followed by such a nickname.
   */
  lemma KansasCityChars(y: string)
    requires KansasCityNickname(y)
    ensures var s := "Kansas City " + y;
            'J' !in s && 'M' !in s && 'P' !in s && 'H' !in s && 'L' !in s && 'B' !in s &&
            'D' !in s && 'S' !in s && 'N' !in s && 'r' !in s &&
            '.' !in s && 'I' !in s && '/' !in s
  {
    var c := "Kansas City ";
    assert forall i :: 0 <= i < |c| ==> NoEarlierWitness(c[i]) && c[i] != '.' && c[i] != 'I' && c[i] != '/';
  }

  /** A character that is none of the twelve witnesses. */
  predicate NoEarlierWitness(c: char) {
    c != 'J' && c != 'M' && c != 'P' && c != 'H' && c != 'L' && c != 'B' &&
    c != 'D' && c != 'S' && c != 'N' && c != 'r'
  }

  /** "Kansas City " followed by such a nickname simplifies to the nickname. */
  lemma KansasCityPrefixRemoved(y: string)
    requires KansasCityNickname(y)
    ensures Simplify("Kansas City " + y) == y
  {
    var k := MarkerCount + 12;
    var s := "Kansas City " + y;
    assert s == Pattern(k) + y by {
      KansasCityValue();
    }
    assert SimplifyFrom(s, 0) == SimplifyFrom(s, MarkerCount) by {
      KansasCityChars(y);
      PlainCharsKeepMarkers(s, 0, MarkerCount);
    }
    assert SimplifyFrom(s, MarkerCount) == SimplifyFrom(s, k) by {
      KansasCityPassesEarlierTeams(y);
    }
    assert SimplifyFrom(s, k) == SimplifyFrom(y, k + 1) by {
      TeamPrefixStep(k, y);
    }
    assert SimplifyFrom(y, k + 1) == y by {
      SpacelessUnchanged(y, k + 1);
    }
  }

  /** "Kansas City Chiefs" simplifies to "Chiefs", and so scores 1, not 2, against it. */
  lemma KansasCityScoresOne()
    ensures Simplify("Kansas City Chiefs") == "Chiefs"
    ensures Similarity("Kansas City Chiefs", "Chiefs") == Finite(1)
  {
    var y := "Chiefs";
    assert KansasCityNickname(y) by {
      assert forall i :: 0 <= i < |y| ==>
        NoEarlierWitness(y[i]) && y[i] != ' ' && y[i] != '.' && y[i] != 'I' && y[i] != '/';
    }
    assert "Kansas City Chiefs" == "Kansas City " + y;
    KansasCityPrefixRemoved(y);
  }

  /**
   * The variants disagree on a name like "Doe Sr.": the current one strips
   * the suffix and scores 1 against "Doe", the older one finds no match.
   */
  lemma SeniorVariantsDisagree(x: string, teams: seq<string>)
    requires ' ' !in x && |x| <= 4 && 'J' !in x && 's' !in x && 'I' !in x && '/' !in x
    ensures Infra.Similarity(x + " Sr.", x, teams) == Finite(1)
    ensures Similarity(x + " Sr.", x) == Infinite
  {
    assert x + Infra.Suffixes[1] == x + " Sr.";
    Infra.SpacelessSuffixScoresOne(x, 1, teams);
    SeniorDoesNotMatch(x);
  }

  /**
   * The variants disagree on a third: the current one strips " III" whole,
   * the older one leaves an "I" behind.
   */
  lemma ThirdVariantsDisagree(x: string, teams: seq<string>)
    requires ' ' !in x && '.' !in x
    ensures Infra.Simplify(x + " III", teams) == x
    ensures Simplify(x + " III") == x + "I"
  {
    assert x + Infra.Suffixes[3] == x + " III";
    Infra.SpacelessSimplifiedSuffix(x, 3, teams);
    ThirdLeavesOneI(x);
  }

  /**
   * The variants disagree on a double marker: the current one keeps a
   * "D/ST" tail, the older one removes it whole.
   */
  lemma DoubleMarkerVariantsDisagree(x: string, teams: seq<string>)
    requires ' ' !in x && '.' !in x && 'I' !in x
    ensures Infra.Simplify(x + " D/STD/ST", teams) == x + "D/ST"
    ensures Simplify(x + " D/STD/ST") == x
  {
    Infra.DoubleMarkerLeavesTail(x, teams);
    DoubleMarkerRemoved(x);
  }

  /**
   * The variants disagree on a mid-name " Jr." (as in "John Jr. Doe"): the
   * current one only strips a suffix at the end, so unless a team name
   * occurs in the name it keeps the token; the older one deletes it.
   */
  lemma MidJuniorVariantsDisagree(x: string, y: string, teams: seq<string>)
    requires ' ' !in x && 'J' !in y && y != "" && '\n' !in y
    requires '.' !in x + y && 'I' !in x + y && '/' !in x + y
    requires forall j :: 5 <= j < |x + y| ==> (x + y)[j] != ' '
    ensures Infra.StripSuffix(x + " Jr." + y) == x + " Jr." + y
    ensures Infra.NoTeamIn(x + " Jr." + y, teams) ==> Infra.Simplify(x + " Jr." + y, teams) == x + " Jr." + y
    ensures Simplify(x + " Jr." + y) == x + y
  {
    var s := x + " Jr." + y;
    assert s[|s| - 1] == y[|y| - 1] && y[|y| - 1] in x + y;
    Infra.StripSuffixOnlyAtEnd(s);
    if Infra.NoTeamIn(s, teams) {
      assert '/' !in s by {
        assert forall c :: c in s ==> c in x + y || c in " Jr.";
      }
      MissingCharMeansAbsent(s, " D/ST", 2);
      MissingCharMeansAbsent(s, " D/STD/ST", 2);
      Infra.PlainNameUnchanged(s, teams);
    }
    JuniorRemovedAnywhere(x, y);
  }
}

=== FILE: matching.dfy ===
/**
 * `Player.find_match` and `load_players`, shared by both variants of
 * `infra.py`: they differ only in how `similarity` scores two names.
 */
module Matching {
  import opened Wrappers
  import opened Scores
  import opened Players
  import Infra
  import LegacyInfra

  /**
   * Which `infra.py` scores the names: the current one, whose team-name
   * deletions come from the settings module (`teams`), or the older one,
   * whose team names are written into `simplify`.
   */
  datatype Variant = Current(teams: seq<string>) | Legacy

  /** `self.similarity(other)` on the two players' names. */
  function Similarity(v: Variant, a: string, b: string): (r: Score)
    ensures r == Finite(0) <==> a == b
    ensures r.Finite? ==> r.value <= 2
  {
    match v
    case Current(teams) => Infra.Similarity(a, b, teams)
    case Legacy => LegacyInfra.Similarity(a, b)
  }

  lemma SimilaritySymmetric(v: Variant, a: string, b: string)
    ensures Similarity(v, a, b) == Similarity(v, b, a)
  {
    match v
    case Current(teams) => Infra.SimilaritySymmetric(a, b, teams);
    case Legacy => LegacyInfra.SimilaritySymmetric(a, b);
  }

  /** `a <= b` on the floats the scores stand for. */
  predicate AtMost(a: Score, b: Score) {
    !b.Below(a)
  }

  /**
   * `min(range(len(scores)), key=scores.__getitem__)`: Python's `min` keeps
   * the element it holds unless a later one is strictly smaller, so the
   * result is the first of the smallest scores.
   */
  function FirstMinimum(scores: seq<Score>): (k: nat)
    requires |scores| > 0
    ensures k < |scores|
    // no score is smaller than the chosen one
    ensures forall j :: 0 <= j < |scores| ==> AtMost(scores[k], scores[j])
    // and every score before it is strictly larger
    ensures forall j :: 0 <= j < k ==> scores[k].Below(scores[j])
    decreases |scores|
  {
    if |scores| == 1 then 0
    else
      var k := FirstMinimum(scores[..|scores| - 1]);
      if scores[|scores| - 1].Below(scores[k]) then |scores| - 1 else k
  }

  /** The score of `name` against every player of `pool`, in order. */
  function ScoresAgainst(v: Variant, name: string, pool: seq<Player>): (r: seq<Score>)
    ensures |r| == |pool|
    ensures forall i :: 0 <= i < |pool| ==> r[i] == Similarity(v, name, pool[i].name)
  {
    seq(|pool|, i requires 0 <= i < |pool| => Similarity(v, name, pool[i].name))
  }

  /**
   * `player.find_match(players)`: the position of the first best-scoring
   * player, or `None` when the pool is empty or every score is infinite.
   */
  function FindMatch(v: Variant, name: string, pool: seq<Player>): (r: Option<nat>)
    ensures r.None? <==> forall i :: 0 <= i < |pool| ==> Similarity(v, name, pool[i].name) == Infinite
    ensures r.Some? ==> r.value < |pool| && Similarity(v, name, pool[r.value].name).Finite?
    ensures r.Some? ==> forall i :: 0 <= i < |pool| ==>
              AtMost(Similarity(v, name, pool[r.value].name), Similarity(v, name, pool[i].name))
    ensures r.Some? ==> forall i :: 0 <= i < r.value ==>
              Similarity(v, name, pool[r.value].name).Below(Similarity(v, name, pool[i].name))
  {
    if |pool| == 0 then None
    else
      var scores := ScoresAgainst(v, name, pool);
      var k := FirstMinimum(scores);
      if scores[k] == Infinite then None else Some(k)
  }

  /** A player already in the pool under the same name is always the match. */
  lemma SameNameMatches(v: Variant, name: string, pool: seq<Player>, i: nat)
    requires i < |pool| && pool[i].name == name
    ensures FindMatch(v, name, pool).Some?
    ensures Similarity(v, name, pool[FindMatch(v, name, pool).value].name) == Finite(0)
  {
    assert Similarity(v, name, pool[i].name) == Finite(0);
  }

  /** Every record of the pool is well formed. */
  predicate AllWellFormed(pool: seq<Player>) {
    forall i :: 0 <= i < |pool| ==> WellFormed(pool[i])
  }

  /** No two records of the pool match each other at all. */
  predicate Separated(v: Variant, pool: seq<Player>) {
    forall i, j :: 0 <= i < |pool| && 0 <= j < |pool| && i != j ==>
      Similarity(v, pool[i].name, pool[j].name) == Infinite
  }

  /**
   * One turn of `load_players`'s loop: the new record is merged into its
   * match, or appended when it has none.
   */
  function Ingest(v: Variant, pool: seq<Player>, p: Player): (r: seq<Player>)
    requires AllWellFormed(pool) && WellFormed(p)
    ensures AllWellFormed(r)
    // records keep their names and places; at most one is added, at the end
    ensures |pool| <= |r| <= |pool| + 1
    ensures forall i :: 0 <= i < |pool| ==> r[i].name == pool[i].name
    ensures |r| == |pool| + 1 ==> r[|pool|] == p
    // a record is added exactly when nothing in the pool matches
    ensures |r| == |pool| + 1 <==> FindMatch(v, p.name, pool).None?
  {
    match FindMatch(v, p.name, pool)
    case None => pool + [p]
    case Some(k) => pool[k := Merge(pool[k], p)]
  }

  /** A matched record receives the new record's data; no other record changes. */
  lemma IngestMerges(v: Variant, pool: seq<Player>, p: Player)
    requires AllWellFormed(pool) && WellFormed(p) && FindMatch(v, p.name, pool).Some?
    ensures var k := FindMatch(v, p.name, pool).value;
      var r := Ingest(v, pool, p);
      r[k] == Merge(pool[k], p) && forall i :: 0 <= i < |pool| && i != k ==> r[i] == pool[i]
  {
  }

  /** The `k`-th record of the pool matches `name` with a finite score. */
  predicate MatchedAt(v: Variant, name: string, pool: seq<Player>, k: nat) {
    k < |pool| && Similarity(v, name, pool[k].name).Finite?
  }

  /** After its turn, the new record's name matches a record of the pool. */
  lemma IngestedNameMatches(v: Variant, pool: seq<Player>, p: Player) returns (k: nat)
    requires AllWellFormed(pool) && WellFormed(p)
    ensures MatchedAt(v, p.name, Ingest(v, pool, p), k)
  {
    var r := Ingest(v, pool, p);
    match FindMatch(v, p.name, pool)
    case None =>
      k := |pool|;
      assert Similarity(v, p.name, r[k].name) == Finite(0);
    case Some(j) =>
      k := j;
  }

  /** Ingesting keeps the records pairwise unmatched. */
  lemma IngestKeepsSeparated(v: Variant, pool: seq<Player>, p: Player)
    requires AllWellFormed(pool) && WellFormed(p) && Separated(v, pool)
    ensures Separated(v, Ingest(v, pool, p))
  {
    var r := Ingest(v, pool, p);
    if |r| == |pool| + 1 {
      forall i, j | 0 <= i < |r| && 0 <= j < |r| && i != j
        ensures Similarity(v, r[i].name, r[j].name) == Infinite
      {
        if i == |pool| {
          assert Similarity(v, p.name, pool[j].name) == Infinite;
        } else if j == |pool| {
          assert Similarity(v, p.name, pool[i].name) == Infinite;
          SimilaritySymmetric(v, p.name, pool[i].name);
        }
      }
    }
  }

  /**
   * The rest of `load_players`: every remaining record of `inputs`, the
   * rankings and then the projections of each source, ingested in order.
   */
  function LoadFrom(v: Variant, pool: seq<Player>, inputs: seq<Player>): (r: seq<Player>)
    requires AllWellFormed(pool) && AllWellFormed(inputs)
    ensures AllWellFormed(r)
    ensures |pool| <= |r| <= |pool| + |inputs|
    ensures forall i :: 0 <= i < |pool| ==> r[i].name == pool[i].name
    decreases |inputs|
  {
    if |inputs| == 0 then pool else LoadFrom(v, Ingest(v, pool, inputs[0]), inputs[1..])
  }

  /** `load_players()`: all records, starting from an empty pool. */
  function LoadPlayers(v: Variant, inputs: seq<Player>): (r: seq<Player>)
    requires AllWellFormed(inputs)
    ensures AllWellFormed(r)
    ensures |r| <= |inputs|
  {
    LoadFrom(v, [], inputs)
  }

  /** Loading one batch after another is loading their concatenation. */
  lemma {:induction false} LoadFromAppend(v: Variant, pool: seq<Player>, a: seq<Player>, b: seq<Player>)
    requires AllWellFormed(pool) && AllWellFormed(a) && AllWellFormed(b)
    ensures LoadFrom(v, LoadFrom(v, pool, a), b) == LoadFrom(v, pool, a + b)
    decreases |a|
  {
    if |a| == 0 {
      assert a + b == b;
    } else {
      assert (a + b)[0] == a[0] && (a + b)[1..] == a[1..] + b;
      LoadFromAppend(v, Ingest(v, pool, a[0]), a[1..], b);
    }
  }

  /** The loaded records never match each other. */
  lemma {:induction false} LoadFromKeepsSeparated(v: Variant, pool: seq<Player>, inputs: seq<Player>)
    requires AllWellFormed(pool) && AllWellFormed(inputs) && Separated(v, pool)
    ensures Separated(v, LoadFrom(v, pool, inputs))
    decreases |inputs|
  {
    if |inputs| > 0 {
      IngestKeepsSeparated(v, pool, inputs[0]);
      LoadFromKeepsSeparated(v, Ingest(v, pool, inputs[0]), inputs[1..]);
    }
  }

  /** Loading a batch is ingesting its first record, then loading the rest. */
  lemma LoadFromFirst(v: Variant, pool: seq<Player>, inputs: seq<Player>)
    requires AllWellFormed(pool) && AllWellFormed(inputs) && |inputs| > 0
    ensures AllWellFormed(inputs[1..])
    ensures LoadFrom(v, pool, inputs) == LoadFrom(v, Ingest(v, pool, inputs[0]), inputs[1..])
  {
  }

  /** Every name loaded matches one of the loaded records. */
  lemma {:induction false} LoadFromMatchesInputs(v: Variant, pool: seq<Player>, inputs: seq<Player>, i: nat)
    returns (k: nat)
    requires AllWellFormed(pool) && AllWellFormed(inputs) && i < |inputs|
    ensures MatchedAt(v, inputs[i].name, LoadFrom(v, pool, inputs), k)
    decreases |inputs|
  {
    var next, rest := Ingest(v, pool, inputs[0]), inputs[1..];
    LoadFromFirst(v, pool, inputs);
    if i == 0 {
      k := IngestedNameMatches(v, pool, inputs[0]);
      assert LoadFrom(v, next, rest)[k].name == next[k].name;
      assert MatchedAt(v, inputs[0].name, LoadFrom(v, next, rest), k);
    } else {
      assert rest[i - 1] == inputs[i];
      k := LoadFromMatchesInputs(v, next, rest, i - 1);
      assert MatchedAt(v, inputs[i].name, LoadFrom(v, next, rest), k);
    }
  }

  /**
   * What `load_players()` returns: records that pairwise do not match, no
   * more of them than inputs, and a match for every input's name.
   */
  lemma LoadPlayersSound(v: Variant, inputs: seq<Player>)
    requires AllWellFormed(inputs)
    ensures Separated(v, LoadPlayers(v, inputs))
    ensures forall i :: 0 <= i < |inputs| ==> FindMatch(v, inputs[i].name, LoadPlayers(v, inputs)).Some?
  {
    LoadFromKeepsSeparated(v, [], inputs);
    forall i | 0 <= i < |inputs|
      ensures FindMatch(v, inputs[i].name, LoadPlayers(v, inputs)).Some?
    {
      var k := LoadFromMatchesInputs(v, [], inputs, i);
      assert MatchedAt(v, inputs[i].name, LoadPlayers(v, inputs), k);
    }
  }

  /** In particular no two loaded records carry the same name. */
  lemma LoadedNamesDistinct(v: Variant, inputs: seq<Player>, i: nat, j: nat)
    requires AllWellFormed(inputs)
    requires i < |LoadPlayers(v, inputs)| && j < |LoadPlayers(v, inputs)| && i != j
    ensures LoadPlayers(v, inputs)[i].name != LoadPlayers(v, inputs)[j].name
  {
    LoadPlayersSound(v, inputs);
  }

  /**
   * A record whose name is already in the pool never adds a record: the
   * same player reported twice, or by two sources, is loaded once.
   */
  lemma KnownNameMerges(v: Variant, pool: seq<Player>, p: Player, i: nat)
    requires AllWellFormed(pool) && WellFormed(p) && i < |pool| && pool[i].name == p.name
    ensures |Ingest(v, pool, p)| == |pool|
  {
    SameNameMatches(v, p.name, pool, i);
  }
}

=== FILE: pipeline.dfy ===
/**
 * The glue of `main.py` around the curve fit, in both variants: grouping
 * the players by position, one chart point per source that reports both a
 * rank and a projection, the quarterback outlier filter, the fit loop, and
 * the ranking of the remaining players by draft value. The fit itself and
 * the fitted curve are parameters.
 */
module Pipeline {
  import opened Wrappers
  import opened PyDicts
  import opened Players
  import Matching
  import Charting
  import Ranking
  import Util

  // ---------------------------------------------------------------------
  // build_position_map

  /** The criterion "plays at position `k`". */
  function AtPosition<T>(position: T -> Option<string>, k: string): T -> bool {
    (p: T) => position(p) == Some(k)
  }

  /**
   * `build_position_map(players)`: a `defaultdict(list)` to which every
   * player with a truthy position is appended under that position. The
   * function reads nothing of a player but its position, so it is stated
   * for any record with a `position` accessor.
   */
  function BuildPositionMap<T>(players: seq<T>, position: T -> Option<string>): (r: Dict<string, seq<T>>)
    ensures Valid(r)
    decreases |players|
  {
    if |players| == 0 then Empty()
    else
      var front, p := players[..|players| - 1], players[|players| - 1];
      var m := BuildPositionMap(front, position);
      if Truthy(position(p)) then
        var k := position(p).value;
        Set(m, k, Get(m, k).GetOr([]) + [p])
      else m
  }

  /** Some player of `players` plays at position `k`. */
  predicate Plays<T>(players: seq<T>, position: T -> Option<string>, k: string) {
    exists i :: 0 <= i < |players| && position(players[i]) == Some(k)
  }

  /** The keys of the map are the non-empty positions somebody plays. */
  lemma {:induction false} PositionMapKeys<T>(players: seq<T>, position: T -> Option<string>, k: string)
    ensures k in ToMap(BuildPositionMap(players, position)) <==> k != "" && Plays(players, position, k)
    decreases |players|
  {
    if |players| > 0 {
      var front, p := players[..|players| - 1], players[|players| - 1];
      PositionMapKeys(front, position, k);
      if Plays(front, position, k) {
        var i :| 0 <= i < |front| && position(front[i]) == Some(k);
        assert position(players[i]) == Some(k);
      }
      if Plays(players, position, k) && position(p) != Some(k) {
        var i :| 0 <= i < |players| && position(players[i]) == Some(k);
        assert i < |front| && position(front[i]) == Some(k);
      }
    }
  }

  /**
   * Under each non-empty position the map holds exactly the players at that
   * position, in input order; a position nobody plays holds nothing.
   */
  lemma {:induction false} PositionMapGroups<T>(players: seq<T>, position: T -> Option<string>, k: string)
    requires k != ""
    ensures Get(BuildPositionMap(players, position), k).GetOr([]) == Util.Filter(players, AtPosition(position, k))
    decreases |players|
  {
    if |players| > 0 {
      var front, p := players[..|players| - 1], players[|players| - 1];
      var at := AtPosition(position, k);
      assert Util.Filter(players, at) == Util.Filter(front, at) + Util.Filter([p], at) by {
        assert players == front + [p];
        Util.FilterAppend(front, [p], at);
      }
      assert Util.Filter([p], at) == if at(p) then [p] else [] by {
        assert [p][1..] == [];
      }
      assert Get(BuildPositionMap(front, position), k).GetOr([]) == Util.Filter(front, at) by {
        PositionMapGroups(front, position, k);
      }
    }
  }

  /** One more player adds its position as the last key exactly when the position is truthy and new. */
  lemma PositionMapLastKey<T>(players: seq<T>, position: T -> Option<string>)
    requires |players| > 0
    ensures var m := BuildPositionMap(players[..|players| - 1], position);
            var o := position(players[|players| - 1]);
            Keys(BuildPositionMap(players, position)) ==
              if Truthy(o) && o.value !in ToMap(m) then Keys(m) + [o.value] else Keys(m)
  {
  }

  /** Some player at position `k` comes before every player at position `k'`. */
  predicate ComesFirst<T>(players: seq<T>, position: T -> Option<string>, k: string, k': string) {
    exists i :: 0 <= i < |players| && position(players[i]) == Some(k) &&
                forall j :: 0 <= j <= i ==> position(players[j]) != Some(k')
  }

  /** A position played where another is not comes first. */
  lemma ComesFirstWhenOtherAbsent<T>(players: seq<T>, position: T -> Option<string>, k: string, k': string)
    requires Plays(players, position, k) && !Plays(players, position, k')
    ensures ComesFirst(players, position, k, k')
  {
    var i :| 0 <= i < |players| && position(players[i]) == Some(k);
    assert forall j :: 0 <= j <= i ==> position(players[j]) != Some(k');
  }

  /** Coming first among some players stays true when more players follow. */
  lemma ComesFirstExtends<T>(players: seq<T>, more: seq<T>, position: T -> Option<string>, k: string, k': string)
    requires ComesFirst(players, position, k, k')
    ensures ComesFirst(players + more, position, k, k')
  {
    var all := players + more;
    var i :| 0 <= i < |players| && position(players[i]) == Some(k) &&
             forall j :: 0 <= j <= i ==> position(players[j]) != Some(k');
    assert position(all[i]) == Some(k);
    forall j | 0 <= j <= i
      ensures position(all[j]) != Some(k')
    {
      assert all[j] == players[j];
    }
  }

  /**
   * The keys come in order of first appearance: for two keys, some player
   * at the earlier one comes before every player at the later one.
   */
  lemma {:induction false} PositionMapKeyOrder<T>(players: seq<T>, position: T -> Option<string>, a: nat, b: nat)
    requires a < b < |Keys(BuildPositionMap(players, position))|
    ensures var ks := Keys(BuildPositionMap(players, position));
            ComesFirst(players, position, ks[a], ks[b])
    decreases |players|
  {
    var ks := Keys(BuildPositionMap(players, position));
    var front, last := players[..|players| - 1], players[|players| - 1];
    var m := BuildPositionMap(front, position);
    assert players == front + [last];
    PositionMapLastKey(players, position);
    if b < |Keys(m)| {
      assert ks[a] == Keys(m)[a] && ks[b] == Keys(m)[b];
      PositionMapKeyOrder(front, position, a, b);
    } else {
      var o := position(last);
      assert Truthy(o) && o.value !in ToMap(m) && ks[b] == o.value;
      assert !Plays(front, position, ks[b]) by {
        PositionMapKeys(front, position, ks[b]);
      }
      assert Plays(front, position, ks[a]) by {
        assert Keys(m)[a] == ks[a];
        PositionMapKeys(front, position, ks[a]);
      }
      ComesFirstWhenOtherAbsent(front, position, ks[a], ks[b]);
    }
    ComesFirstExtends(front, [last], position, ks[a], ks[b]);
  }

  /** The position of a player record. */
  function PositionOf(p: Player): Option<string> {
    p.position
  }

  // ---------------------------------------------------------------------
  // chart points

  /** The criterion "the source has a projection in `ppg`". */
  function HasProjection(ppg: map<string, real>): string -> bool {
    (s: string) => s in ppg
  }

  /**
   * The inner loop of `main` over `sources`, with `ranks` and `ppg` the
   * player's rank and projection maps: a point for every source that also
   * has a projection, x from the rank and y from the projection of that
   * same source.
   */
  function PointsOver(ranks: map<string, int>, ppg: map<string, real>, sources: seq<string>)
    : (r: seq<Charting.Point>)
    requires forall i :: 0 <= i < |sources| ==> sources[i] in ranks
    ensures |r| == |Util.Filter(sources, HasProjection(ppg))|
    decreases |sources|
  {
    if |sources| == 0 then []
    else
      var s := sources[0];
      var rest := PointsOver(ranks, ppg, sources[1..]);
      if s in ppg then [Charting.Point(ranks[s] as real, ppg[s], None)] + rest
      else rest
  }

  /** Point `k` comes from the `k`-th source with a projection: its rank and its projection. */
  lemma {:induction false} PointsOverAt(ranks: map<string, int>, ppg: map<string, real>, sources: seq<string>, k: nat)
    requires forall i :: 0 <= i < |sources| ==> sources[i] in ranks
    requires k < |Util.Filter(sources, HasProjection(ppg))|
    ensures var s := Util.Filter(sources, HasProjection(ppg))[k];
            s in ranks && s in ppg &&
            PointsOver(ranks, ppg, sources)[k] == Charting.Point(ranks[s] as real, ppg[s], None)
    decreases |sources|
  {
    if sources[0] in ppg {
      if k > 0 {
        PointsOverAt(ranks, ppg, sources[1..], k - 1);
      }
    } else {
      PointsOverAt(ranks, ppg, sources[1..], k);
    }
  }

  /** The sources, in rank-map order, that report both a rank and a projection for `p`. */
  function SharedSources(p: Player): seq<string> {
    Util.Filter(Keys(p.rankMap), HasProjection(ToMap(p.projectedPpgMap)))
  }

  /** The points `main` adds for one player, one per shared source. */
  function PlayerPoints(p: Player): (r: seq<Charting.Point>)
    ensures |r| == |SharedSources(p)|
  {
    PointsOver(ToMap(p.rankMap), ToMap(p.projectedPpgMap), Keys(p.rankMap))
  }

  /**
   * The `k`-th point of a player is for its `k`-th shared source, in
   * rank-map order: x the rank and y the projection from that same source.
   */
  lemma PlayerPointsAt(p: Player, k: nat)
    requires k < |SharedSources(p)|
    ensures var s := SharedSources(p)[k];
            s in ToMap(p.rankMap) && s in ToMap(p.projectedPpgMap) &&
            PlayerPoints(p)[k] == Charting.Point(ToMap(p.rankMap)[s] as real, ToMap(p.projectedPpgMap)[s], None)
  {
    PointsOverAt(ToMap(p.rankMap), ToMap(p.projectedPpgMap), Keys(p.rankMap), k);
  }

  /** Some set of `data` is named `name`. */
  predicate Named(data: seq<Charting.PointSet>, name: Option<string>) {
    exists i :: 0 <= i < |data| && Some(data[i].name) == name
  }

  /** `plot_data.add_point(point, name)` for each point in turn. */
  function AddPoints(data: seq<Charting.PointSet>, pts: seq<Charting.Point>, name: Option<string>)
    : (r: Result<seq<Charting.PointSet>, Charting.ChartError>)
    ensures r.Ok? <==> |pts| == 0 || Named(data, name)
    ensures r.Ok? ==> Charting.Names(r.value) == Charting.Names(data)
    decreases |pts|
  {
    if |pts| == 0 then Ok(data)
    else
      match Charting.AddPoint(data, pts[0], name)
      case Err(e) => Err(e)
      case Ok(next) =>
        Charting.AddPointKeepsNames(data, pts[0], name);
        SameNamesNamed(data, next, name);
        AddPoints(next, pts[1..], name)
  }

  /** Whether a set is named `name` depends only on the names. */
  lemma SameNamesNamed(a: seq<Charting.PointSet>, b: seq<Charting.PointSet>, name: Option<string>)
    requires Charting.Names(a) == Charting.Names(b)
    ensures Named(a, name) <==> Named(b, name)
    ensures forall i :: 0 <= i < |a| ==> a[i].name == b[i].name
    ensures forall i :: 0 <= i < |a| ==> (Charting.FirstNamed(a, name, i) <==> Charting.FirstNamed(b, name, i))
  {
    assert forall i :: 0 <= i < |a| ==> a[i].name == Charting.Names(a)[i] == b[i].name;
  }

  /** All the points go, in order, to the end of the first set named `name`; no other set changes. */
  lemma {:induction false} AddPointsAppends(data: seq<Charting.PointSet>, pts: seq<Charting.Point>, name: Option<string>, i: nat)
    requires AddPoints(data, pts, name).Ok? && i < |data|
    ensures |AddPoints(data, pts, name).value| == |data|
    ensures AddPoints(data, pts, name).value[i].points
            == if Charting.FirstNamed(data, name, i) then data[i].points + pts else data[i].points
    decreases |pts|, 1
  {
    if |pts| == 0 {
      assert data[i].points + pts == data[i].points;
    } else {
      AddPointsAppendsStep(data, pts, name, i);
    }
  }

  /** The inductive step of `AddPointsAppends`: the first point, then the rest. */
  lemma {:induction false} AddPointsAppendsStep(data: seq<Charting.PointSet>, pts: seq<Charting.Point>, name: Option<string>, i: nat)
    requires AddPoints(data, pts, name).Ok? && i < |data| && |pts| > 0
    ensures |AddPoints(data, pts, name).value| == |data|
    ensures AddPoints(data, pts, name).value[i].points
            == if Charting.FirstNamed(data, name, i) then data[i].points + pts else data[i].points
    decreases |pts|, 0
  {
    var next := Charting.AddPoint(data, pts[0], name).value;
    var first := Charting.FirstNamed(data, name, i);
    assert |next| == |data| && next[i].points == (if first then data[i].points + [pts[0]] else data[i].points) &&
           (Charting.FirstNamed(next, name, i) <==> first) by {
      AddPointStep(data, pts[0], name, i);
    }
    assert AddPoints(data, pts, name) == AddPoints(next, pts[1..], name);
    var later := AddPoints(next, pts[1..], name).value;
    assert |later| == |data| && later[i].points == (if first then next[i].points + pts[1..] else next[i].points) by {
      AddPointsAppends(next, pts[1..], name, i);
    }
    if first {
      Regroup(data[i].points, pts);
    }
  }

  /** Appending the head and then the tail of `b` appends `b`. */
  lemma Regroup<T>(a: seq<T>, b: seq<T>)
    requires |b| > 0
    ensures a + [b[0]] + b[1..] == a + b
  {
    assert [b[0]] + b[1..] == b;
  }

  /** One `add_point` as seen from set `i`: it gains the point exactly when it is the first set named `name`. */
  lemma AddPointStep(data: seq<Charting.PointSet>, p: Charting.Point, name: Option<string>, i: nat)
    requires Charting.AddPoint(data, p, name).Ok? && i < |data|
    ensures var next := Charting.AddPoint(data, p, name).value;
            |next| == |data| &&
            next[i].points == (if Charting.FirstNamed(data, name, i) then data[i].points + [p] else data[i].points) &&
            (Charting.FirstNamed(next, name, i) <==> Charting.FirstNamed(data, name, i))
  {
    var next := Charting.AddPoint(data, p, name).value;
    Charting.AddPointKeepsNames(data, p, name);
    SameNamesNamed(data, next, name);
  }

  /** The points `main` gives the set named `name`: those of the players at that position, in order. */
  function PointsAt<T>(players: seq<T>, position: T -> Option<string>, pointsOf: T -> seq<Charting.Point>, name: string)
    : seq<Charting.Point>
    decreases |players|
  {
    if |players| == 0 then []
    else
      (if position(players[0]) == Some(name) then pointsOf(players[0]) else [])
      + PointsAt(players[1..], position, pointsOf, name)
  }

  /** A player's points have somewhere to go: there are none, or a set is named after its position. */
  predicate Placeable<T>(data: seq<Charting.PointSet>, position: T -> Option<string>, pointsOf: T -> seq<Charting.Point>, p: T) {
    |pointsOf(p)| == 0 || Named(data, position(p))
  }

  /**
   * The loop of `main` over the players: every point of a player goes into
   * the set named after its position, or the loop stops with
   * `PointSetNotFound` at the first player that has points but no such set.
   * It reads a player's position and points only, so it is stated for any
   * record with the two accessors.
   */
  function AddPlayerPoints<T>(data: seq<Charting.PointSet>, players: seq<T>,
                              position: T -> Option<string>, pointsOf: T -> seq<Charting.Point>)
    : (r: Result<seq<Charting.PointSet>, Charting.ChartError>)
    ensures r.Ok? <==> forall j :: 0 <= j < |players| ==> Placeable(data, position, pointsOf, players[j])
    ensures r.Ok? ==> Charting.Names(r.value) == Charting.Names(data)
    decreases |players|
  {
    if |players| == 0 then Ok(data)
    else
      var p := players[0];
      match AddPoints(data, pointsOf(p), position(p))
      case Err(e) => Err(e)
      case Ok(next) =>
        assert forall j :: 1 <= j < |players| ==> players[j] == players[1..][j - 1];
        forall q: T ensures Named(data, position(q)) <==> Named(next, position(q)) {
          SameNamesNamed(data, next, position(q));
        }
        AddPlayerPoints(next, players[1..], position, pointsOf)
  }

  /**
   * When the names are unique, each set ends up with its own points followed
   * by those of the players at its position, in player order.
   */
  lemma {:induction false} AddPlayerPointsGroups<T>(data: seq<Charting.PointSet>, players: seq<T>,
                                                    position: T -> Option<string>, pointsOf: T -> seq<Charting.Point>, i: nat)
    requires Charting.UniqueNames(data) && i < |data|
    requires AddPlayerPoints(data, players, position, pointsOf).Ok?
    ensures |AddPlayerPoints(data, players, position, pointsOf).value| == |data|
    ensures AddPlayerPoints(data, players, position, pointsOf).value[i].points
            == data[i].points + PointsAt(players, position, pointsOf, data[i].name)
    decreases |players|, 1
  {
    if |players| == 0 {
      AppendNothing(data[i].points);
    } else {
      AddPlayerPointsGroupsStep(data, players, position, pointsOf, i);
    }
  }

  /** The inductive step of `AddPlayerPointsGroups`: the first player, then the rest. */
  lemma {:induction false} AddPlayerPointsGroupsStep<T>(data: seq<Charting.PointSet>, players: seq<T>,
                                                        position: T -> Option<string>, pointsOf: T -> seq<Charting.Point>, i: nat)
    requires Charting.UniqueNames(data) && i < |data| && |players| > 0
    requires AddPlayerPoints(data, players, position, pointsOf).Ok?
    ensures |AddPlayerPoints(data, players, position, pointsOf).value| == |data|
    ensures AddPlayerPoints(data, players, position, pointsOf).value[i].points
            == data[i].points + PointsAt(players, position, pointsOf, data[i].name)
    decreases |players|, 0
  {
    var p := players[0];
    var next := AddPoints(data, pointsOf(p), position(p)).value;
    var own := if Some(data[i].name) == position(p) then pointsOf(p) else [];
    assert |next| == |data| && next[i].name == data[i].name &&
           next[i].points == data[i].points + own && Charting.UniqueNames(next) by {
      AddPointsAppends(data, pointsOf(p), position(p), i);
      SameNamesNamed(data, next, position(p));
      assert Charting.FirstNamed(data, position(p), i) <==> Some(data[i].name) == position(p);
      AppendNothing(data[i].points);
    }
    assert AddPlayerPoints(data, players, position, pointsOf) == AddPlayerPoints(next, players[1..], position, pointsOf);
    var later := PointsAt(players[1..], position, pointsOf, data[i].name);
    assert |AddPlayerPoints(next, players[1..], position, pointsOf).value| == |data| &&
           AddPlayerPoints(next, players[1..], position, pointsOf).value[i].points == next[i].points + later by {
      AddPlayerPointsGroups(next, players[1..], position, pointsOf, i);
    }
    assert PointsAt(players, position, pointsOf, data[i].name) == own + later;
    Associate(data[i].points, own, later);
  }

  /** Appending no points leaves a point list as it was. */
  lemma AppendNothing<T>(a: seq<T>)
    ensures a + [] == a
  {
  }

  /** Points appended in two batches sit as if appended at once. */
  lemma Associate<T>(a: seq<T>, b: seq<T>, c: seq<T>)
    ensures a + b + c == a + (b + c)
  {
  }

  /** The empty point sets `main` makes, one per key of the position map, in key order. */
  function InitialSets<T>(players: seq<T>, position: T -> Option<string>): (r: seq<Charting.PointSet>)
    ensures Charting.UniqueNames(r)
    ensures Charting.Names(r) == Keys(BuildPositionMap(players, position))
    ensures forall i :: 0 <= i < |r| ==> r[i].points == []
  {
    var keys := Keys(BuildPositionMap(players, position));
    var r := seq(|keys|, i requires 0 <= i < |keys| => Charting.PointSet(keys[i], []));
    assert Charting.Names(r) == keys;
    r
  }

  /**
   * The chart data `main` builds: it exists exactly when every player with
   * points has a truthy position (otherwise `add_point` raises), and then
   * the set of each position holds the points of the players at that
   * position, in player order.
   */
  lemma ChartDataGroupsPoints<T>(players: seq<T>, position: T -> Option<string>, pointsOf: T -> seq<Charting.Point>)
    ensures var r := AddPlayerPoints(InitialSets(players, position), players, position, pointsOf);
            r.Ok? <==> forall j :: 0 <= j < |players| ==> |pointsOf(players[j])| == 0 || Truthy(position(players[j]))
    ensures var r := AddPlayerPoints(InitialSets(players, position), players, position, pointsOf);
            r.Ok? ==> |r.value| == |InitialSets(players, position)| &&
                      forall i :: 0 <= i < |r.value| ==>
                        r.value[i].points == PointsAt(players, position, pointsOf, InitialSets(players, position)[i].name)
  {
    var data := InitialSets(players, position);
    var m := BuildPositionMap(players, position);
    forall j | 0 <= j < |players|
      ensures Named(data, position(players[j])) <==> Truthy(position(players[j]))
    {
      var o := position(players[j]);
      if Truthy(o) {
        PositionMapKeys(players, position, o.value);
        assert o.value in Keys(m);
        var i :| 0 <= i < |Keys(m)| && Keys(m)[i] == o.value;
        assert Charting.Names(data)[i] == o.value;
      } else if Named(data, o) {
        var i :| 0 <= i < |data| && Some(data[i].name) == o;
        assert Charting.Names(data)[i] == o.value;
        PositionMapKeys(players, position, o.value);
      }
    }
    var r := AddPlayerPoints(data, players, position, pointsOf);
    if r.Ok? {
      assert |r.value| == |Charting.Names(r.value)| == |data|;
      forall i | 0 <= i < |data|
        ensures r.value[i].points == PointsAt(players, position, pointsOf, data[i].name)
      {
        AddPlayerPointsGroups(data, players, position, pointsOf, i);
        assert data[i].points + PointsAt(players, position, pointsOf, data[i].name)
               == PointsAt(players, position, pointsOf, data[i].name);
      }
    }
  }

  /**
   * For the players of the model: the chart data exists exactly when every
   * player with points has a position, and then the set of each position
   * holds the points of the players at that position, in player order.
   */
  lemma PlayersChartData(players: seq<Player>)
    ensures var r := AddPlayerPoints(InitialSets(players, PositionOf), players, PositionOf, PlayerPoints);
            r.Ok? <==> forall j :: 0 <= j < |players| ==> |SharedSources(players[j])| == 0 || Truthy(players[j].position)
    ensures var r := AddPlayerPoints(InitialSets(players, PositionOf), players, PositionOf, PlayerPoints);
            r.Ok? ==> |r.value| == |InitialSets(players, PositionOf)| &&
                      forall i :: 0 <= i < |r.value| ==>
                        r.value[i].points == PointsAt(players, PositionOf, PlayerPoints, InitialSets(players, PositionOf)[i].name)
  {
    ChartDataGroupsPoints(players, PositionOf, PlayerPoints);
  }

  // ---------------------------------------------------------------------
  // the quarterback filter of fit_curve

  /** A point with ppg `y` takes part in the fit of set `name`: all do, except quarterbacks at 200 or below. */
  predicate KeptForFit(name: string, y: real) {
    name != "QB" || y > 200.0
  }

  /** The criterion `KeptForFit` on points. */
  function KeptPoint(name: string): Charting.Point -> bool {
    (pt: Charting.Point) => KeptForFit(name, pt.y)
  }

  /** `filtered_x_values`: the x values whose y value at the same index is kept. */
  function FilteredXValues(name: string, xs: seq<real>, ys: seq<real>): (r: seq<real>)
    requires |xs| == |ys|
    ensures |r| <= |xs|
    ensures name != "QB" ==> r == xs
    decreases |xs|
  {
    if |xs| == 0 then []
    else (if KeptForFit(name, ys[0]) then [xs[0]] else []) + FilteredXValues(name, xs[1..], ys[1..])
  }

  /** `filtered_y_values`: the y values that are kept. */
  function FilteredYValues(name: string, ys: seq<real>): (r: seq<real>)
    ensures |r| <= |ys|
    ensures name != "QB" ==> r == ys
    ensures forall k :: 0 <= k < |r| ==> r[k] in ys && KeptForFit(name, r[k])
    decreases |ys|
  {
    if |ys| == 0 then []
    else
      var rest := FilteredYValues(name, ys[1..]);
      assert forall k :: 0 <= k < |rest| ==> rest[k] in ys;
      (if KeptForFit(name, ys[0]) then [ys[0]] else []) + rest
  }

  /** The x coordinates of a list of points. */
  function Xs(pts: seq<Charting.Point>): seq<real> {
    Charting.XValues(Charting.PointSet("", pts))
  }

  /** The y coordinates of a list of points. */
  function Ys(pts: seq<Charting.Point>): seq<real> {
    Charting.YValues(Charting.PointSet("", pts))
  }

  /** The x coordinates of a non-empty list of points: the first point's, then the rest's. */
  lemma XsOfCons(pts: seq<Charting.Point>)
    requires |pts| > 0
    ensures Xs(pts) == [pts[0].x] + Xs(pts[1..])
  {
    var l, r := Xs(pts), [pts[0].x] + Xs(pts[1..]);
    forall k | 0 <= k < |l| ensures l[k] == r[k] {
      if k > 0 {
        assert r[k] == Xs(pts[1..])[k - 1];
      }
    }
  }

  /** The y coordinates of a non-empty list of points: the first point's, then the rest's. */
  lemma YsOfCons(pts: seq<Charting.Point>)
    requires |pts| > 0
    ensures Ys(pts) == [pts[0].y] + Ys(pts[1..])
  {
    var l, r := Ys(pts), [pts[0].y] + Ys(pts[1..]);
    forall k | 0 <= k < |l| ensures l[k] == r[k] {
      if k > 0 {
        assert r[k] == Ys(pts[1..])[k - 1];
      }
    }
  }

  /**
   * The two filtered lists stay paired: they are the coordinates of the
   * points of the set that are kept, in order, so they have equal length.
   */
  lemma {:induction false} FilteredValuesPaired(name: string, pts: seq<Charting.Point>)
    ensures FilteredXValues(name, Xs(pts), Ys(pts)) == Xs(Util.Filter(pts, KeptPoint(name)))
    ensures FilteredYValues(name, Ys(pts)) == Ys(Util.Filter(pts, KeptPoint(name)))
    decreases |pts|
  {
    if |pts| > 0 {
      FilteredValuesPaired(name, pts[1..]);
      XsOfCons(pts);
      YsOfCons(pts);
      var kept := Util.Filter(pts, KeptPoint(name));
      if KeptForFit(name, pts[0].y) {
        assert kept == [pts[0]] + Util.Filter(pts[1..], KeptPoint(name));
        XsOfCons(kept);
        YsOfCons(kept);
      }
    }
  }

  /** The fit sees the same lists for a set as for the points it keeps. */
  lemma FitInputsAreKeptPoints(ps: Charting.PointSet)
    ensures var kept := Util.Filter(ps.points, KeptPoint(ps.name));
            FilteredXValues(ps.name, Charting.XValues(ps), Charting.YValues(ps)) == Xs(kept) &&
            FilteredYValues(ps.name, Charting.YValues(ps)) == Ys(kept)
  {
    FilteredValuesPaired(ps.name, ps.points);
    assert Charting.XValues(ps) == Xs(ps.points);
    assert Charting.YValues(ps) == Ys(ps.points);
  }

  /** For quarterbacks exactly the points above 200 ppg are fitted; a point at 200 is dropped. */
  lemma QuarterbackCutoff(pts: seq<Charting.Point>, k: nat)
    requires k < |pts|
    ensures pts[k] in Util.Filter(pts, KeptPoint("QB")) <==> pts[k].y > 200.0
  {
  }

  // ---------------------------------------------------------------------
  // the fit loop of main

  /**
   * What `curve_fit` does with one set's filtered lists: it returns the
   * fitted parameters, fails to converge (`RuntimeError`), or fails in some
   * other way (any other exception).
   */
  datatype FitOutcome<P> = Fitted(params: P) | NotConverged | Rejected

  /** The evaluation budget (`maxfev`) the current `fit_curve` gives `curve_fit`. */
  const CurrentMaxEvaluations: nat := 10000

  /** The evaluation budget the Python 2 `fit_curve` gives `curve_fit`. */
  const LegacyMaxEvaluations: nat := 1000000

  /** `curve_fit` as a parameter: its outcome for a budget and the two lists of coordinates. */
  type CurveFit<P> = (nat, seq<real>, seq<real>) -> FitOutcome<P>

  /** The model function handed to `curve_fit`, the same for every position. */
  datatype CurveModel = InversePower

  /**
   * The `functions` and `parameters` dicts `main` fills, keyed by set name.
   * They are only ever looked up, so their key order is not modelled.
   */
  datatype Fits<P> = Fits(functions: map<string, CurveModel>, parameters: map<string, P>)

  /** The fit loop stopped at the set with this name. */
  datatype FitError = FitFailed(setName: string)

  /**
   * The outcome of `fit_curve` for one set under an evaluation budget: the
   * fit run on its filtered lists, which are the coordinates of the points
   * the quarterback filter keeps.
   */
  function Outcome<P>(ps: Charting.PointSet, curveFit: CurveFit<P>, budget: nat): (r: FitOutcome<P>)
    ensures var kept := Util.Filter(ps.points, KeptPoint(ps.name));
            r == curveFit(budget, Xs(kept), Ys(kept))
  {
    FitInputsAreKeptPoints(ps);
    curveFit(budget, FilteredXValues(ps.name, Charting.XValues(ps), Charting.YValues(ps)),
             FilteredYValues(ps.name, Charting.YValues(ps)))
  }

  /** Each set's name with the outcome of its fit under `budget`, in chart order. */
  function Attempts<P>(sets: seq<Charting.PointSet>, curveFit: CurveFit<P>, budget: nat)
    : (r: seq<(string, FitOutcome<P>)>)
    ensures |r| == |sets|
    ensures forall i :: 0 <= i < |sets| ==> r[i] == (sets[i].name, Outcome(sets[i], curveFit, budget))
  {
    seq(|sets|, i requires 0 <= i < |sets| => (sets[i].name, Outcome(sets[i], curveFit, budget)))
  }

  /** The two dicts hold the same keys. */
  predicate Consistent<P>(fits: Fits<P>) {
    fits.functions.Keys == fits.parameters.Keys
  }

  /**
   * The fit loop of the current `main` over the attempts: a set whose fit
   * does not converge is skipped (logged), any other failure ends the loop.
   */
  function FitAll<P>(attempts: seq<(string, FitOutcome<P>)>): (r: Result<Fits<P>, FitError>)
    ensures r.Ok? ==> Consistent(r.value)
    decreases |attempts|
  {
    if |attempts| == 0 then Ok(Fits(map[], map[]))
    else
      var last := attempts[|attempts| - 1];
      match FitAll(attempts[..|attempts| - 1])
      case Err(e) => Err(e)
      case Ok(fits) =>
        match last.1
        case Rejected => Err(FitFailed(last.0))
        case NotConverged => Ok(fits)
        case Fitted(params) =>
          Ok(Fits(fits.functions[last.0 := InversePower], fits.parameters[last.0 := params]))
  }

  /** The fit loop of the Python 2 `main`: the first failure of any kind ends the loop. */
  function LegacyFitAll<P>(attempts: seq<(string, FitOutcome<P>)>): (r: Result<Fits<P>, FitError>)
    ensures r.Ok? ==> Consistent(r.value)
    decreases |attempts|
  {
    if |attempts| == 0 then Ok(Fits(map[], map[]))
    else
      var last := attempts[|attempts| - 1];
      match LegacyFitAll(attempts[..|attempts| - 1])
      case Err(e) => Err(e)
      case Ok(fits) =>
        match last.1
        case Fitted(params) =>
          Ok(Fits(fits.functions[last.0 := InversePower], fits.parameters[last.0 := params]))
        case _ => Err(FitFailed(last.0))
  }

  /** The current loop completes exactly when no fit fails other than by not converging. */
  lemma {:induction false} FitAllCompletes<P>(attempts: seq<(string, FitOutcome<P>)>)
    ensures FitAll(attempts).Ok? <==> forall i :: 0 <= i < |attempts| ==> !attempts[i].1.Rejected?
    decreases |attempts|
  {
    if |attempts| > 0 {
      var front := attempts[..|attempts| - 1];
      assert forall i :: 0 <= i < |front| ==> front[i] == attempts[i];
      FitAllCompletes(front);
    }
  }

  /** The Python 2 loop completes exactly when every fit succeeds. */
  lemma {:induction false} LegacyFitAllCompletes<P>(attempts: seq<(string, FitOutcome<P>)>)
    ensures LegacyFitAll(attempts).Ok? <==> forall i :: 0 <= i < |attempts| ==> attempts[i].1.Fitted?
    decreases |attempts|
  {
    if |attempts| > 0 {
      var front := attempts[..|attempts| - 1];
      assert forall i :: 0 <= i < |front| ==> front[i] == attempts[i];
      LegacyFitAllCompletes(front);
    }
  }

  /** No two attempts are for the same name, as for the sets of `main`. */
  predicate DistinctNames<P>(attempts: seq<(string, FitOutcome<P>)>) {
    forall i, j :: 0 <= i < j < |attempts| ==> attempts[i].0 != attempts[j].0
  }

  /**
   * With distinct names, the current loop records a curve for exactly the
   * sets whose fit succeeded, with their parameters; a failed fit leaves
   * only its own position without a curve.
   */
  lemma {:induction false} FitAllRecords<P>(attempts: seq<(string, FitOutcome<P>)>, i: nat)
    requires DistinctNames(attempts) && i < |attempts|
    requires FitAll(attempts).Ok?
    ensures var fits, o := FitAll(attempts).value, attempts[i].1;
            (attempts[i].0 in fits.parameters <==> o.Fitted?) &&
            (o.Fitted? ==> fits.parameters[attempts[i].0] == o.params && fits.functions[attempts[i].0] == InversePower)
    decreases |attempts|
  {
    var front := attempts[..|attempts| - 1];
    if i < |front| {
      assert front[i] == attempts[i];
      FitAllRecords(front, i);
    } else if attempts[i].1.NotConverged? {
      FitAllLacks(front, attempts[i].0);
    }
  }

  /** A name no attempt carries gets no curve. */
  lemma {:induction false} FitAllLacks<P>(attempts: seq<(string, FitOutcome<P>)>, name: string)
    requires FitAll(attempts).Ok?
    requires forall j :: 0 <= j < |attempts| ==> attempts[j].0 != name
    ensures name !in FitAll(attempts).value.parameters
    decreases |attempts|
  {
    if |attempts| > 0 {
      var front := attempts[..|attempts| - 1];
      assert forall j :: 0 <= j < |front| ==> front[j] == attempts[j];
      FitAllLacks(front, name);
    }
  }

  /** The criterion "this attempt succeeded". */
  function Succeeded<P>(a: (string, FitOutcome<P>)): bool {
    a.1.Fitted?
  }

  /** The names of the sets with a curve are the names whose fit succeeded. */
  lemma FitAllKeys<P>(attempts: seq<(string, FitOutcome<P>)>, name: string)
    requires DistinctNames(attempts)
    requires FitAll(attempts).Ok?
    ensures name in FitAll(attempts).value.parameters <==>
            exists i :: 0 <= i < |attempts| && attempts[i].0 == name && attempts[i].1.Fitted?
  {
    if exists i :: 0 <= i < |attempts| && attempts[i].0 == name {
      var i :| 0 <= i < |attempts| && attempts[i].0 == name;
      FitAllRecords(attempts, i);
    } else {
      FitAllLacks(attempts, name);
    }
  }

  /** On attempts that all succeed the two loops agree. */
  lemma {:induction false} LoopsAgree<P>(attempts: seq<(string, FitOutcome<P>)>)
    requires forall i :: 0 <= i < |attempts| ==> attempts[i].1.Fitted?
    ensures FitAll(attempts) == LegacyFitAll(attempts)
    decreases |attempts|
  {
    if |attempts| > 0 {
      var front := attempts[..|attempts| - 1];
      assert forall j :: 0 <= j < |front| ==> front[j] == attempts[j];
      LoopsAgree(front);
    }
  }

  /**
   * The two variants agree on the chart's sets when every fit succeeds
   * under the current budget and the older, larger budget yields the same
   * parameters. Nothing about `curve_fit` makes the two budgets agree, so
   * that is a hypothesis here.
   */
  lemma FitVariantsAgree<P>(sets: seq<Charting.PointSet>, curveFit: CurveFit<P>)
    requires forall i :: 0 <= i < |sets| ==>
               Outcome(sets[i], curveFit, CurrentMaxEvaluations).Fitted? &&
               Outcome(sets[i], curveFit, LegacyMaxEvaluations) == Outcome(sets[i], curveFit, CurrentMaxEvaluations)
    ensures FitAll(Attempts(sets, curveFit, CurrentMaxEvaluations))
            == LegacyFitAll(Attempts(sets, curveFit, LegacyMaxEvaluations))
  {
    assert Attempts(sets, curveFit, CurrentMaxEvaluations) == Attempts(sets, curveFit, LegacyMaxEvaluations);
    LoopsAgree(Attempts(sets, curveFit, CurrentMaxEvaluations));
  }

  /**
   * A fit that fails to converge under the current budget, and does not
   * succeed under the older one either, is where the loops part: the
   * current one goes on without that position, the Python 2 one stops.
   */
  lemma NotConvergedParts<P>(sets: seq<Charting.PointSet>, curveFit: CurveFit<P>, i: nat)
    requires i < |sets| && Outcome(sets[i], curveFit, CurrentMaxEvaluations).NotConverged?
    requires !Outcome(sets[i], curveFit, LegacyMaxEvaluations).Fitted?
    requires forall j :: 0 <= j < |sets| ==> !Outcome(sets[j], curveFit, CurrentMaxEvaluations).Rejected?
    ensures FitAll(Attempts(sets, curveFit, CurrentMaxEvaluations)).Ok?
    ensures LegacyFitAll(Attempts(sets, curveFit, LegacyMaxEvaluations)).Err?
  {
    FitAllCompletes(Attempts(sets, curveFit, CurrentMaxEvaluations));
    LegacyFitAllCompletes(Attempts(sets, curveFit, LegacyMaxEvaluations));
  }

  /**
   * The older, larger budget can also part the loops the other way: when
   * every fit succeeds under it, the Python 2 loop completes with a curve
   * for every set, while a set that does not converge under the current
   * budget is left without a curve by the current loop.
   */
  lemma LargerBudgetKeepsCurve<P>(sets: seq<Charting.PointSet>, curveFit: CurveFit<P>, i: nat)
    requires Charting.UniqueNames(sets) && i < |sets|
    requires Outcome(sets[i], curveFit, CurrentMaxEvaluations).NotConverged?
    requires forall j :: 0 <= j < |sets| ==> !Outcome(sets[j], curveFit, CurrentMaxEvaluations).Rejected?
    requires forall j :: 0 <= j < |sets| ==> Outcome(sets[j], curveFit, LegacyMaxEvaluations).Fitted?
    ensures FitAll(Attempts(sets, curveFit, CurrentMaxEvaluations)).Ok?
    ensures sets[i].name !in FitAll(Attempts(sets, curveFit, CurrentMaxEvaluations)).value.parameters
    ensures LegacyFitAll(Attempts(sets, curveFit, LegacyMaxEvaluations)).Ok?
    ensures sets[i].name in LegacyFitAll(Attempts(sets, curveFit, LegacyMaxEvaluations)).value.parameters
  {
    var current := Attempts(sets, curveFit, CurrentMaxEvaluations);
    var legacy := Attempts(sets, curveFit, LegacyMaxEvaluations);
    FitAllCompletes(current);
    LegacyFitAllCompletes(legacy);
    assert DistinctNames(current) && DistinctNames(legacy) by {
      assert forall j :: 0 <= j < |sets| ==> current[j].0 == legacy[j].0 == Charting.Names(sets)[j];
    }
    FitAllRecords(current, i);
    LoopsAgree(legacy);
    FitAllRecords(legacy, i);
  }

  /**
   * What the chart callback of set `name` draws: nothing when the set has
   * no curve (the early return), otherwise the model with its parameters.
   */
  function Curve<P>(fits: Fits<P>, name: string): (r: Option<(CurveModel, P)>)
    requires Consistent(fits)
    ensures r.Some? <==> name in fits.parameters
    ensures r.Some? ==> r.value.1 == fits.parameters[name]
  {
    if name !in fits.functions then None
    else Some((fits.functions[name], fits.parameters[name]))
  }

  /** After the current loop over the chart's sets, a set is drawn with a curve exactly when its fit succeeded. */
  lemma CurveDrawnIffFitted<P>(sets: seq<Charting.PointSet>, curveFit: CurveFit<P>, i: nat)
    requires Charting.UniqueNames(sets) && i < |sets|
    requires FitAll(Attempts(sets, curveFit, CurrentMaxEvaluations)).Ok?
    ensures var o := Outcome(sets[i], curveFit, CurrentMaxEvaluations);
            Curve(FitAll(Attempts(sets, curveFit, CurrentMaxEvaluations)).value, sets[i].name)
            == (if o.Fitted? then Some((InversePower, o.params)) else None)
  {
    FitAllRecords(Attempts(sets, curveFit, CurrentMaxEvaluations), i);
  }

  // ---------------------------------------------------------------------
  // calculate_draft_value and rank_players_by_draft_value

  /**
   * `calculate_draft_value`: the player's mean projection less what the
   * fitted curve gives for the pick `draftPosition + leagueSize`; `None`
   * when the player has no projection to average.
   */
  function DraftValue(p: Player, draftPosition: int, leagueSize: int, fitted: real -> real): (r: Option<real>)
    ensures r.Some? <==> |p.projectedPpgMap.items| > 0
  {
    match AverageProjectedPpg(p)
    case None => None
    case Some(average) => Some(average - fitted((draftPosition + leagueSize) as real))
  }

  /** Two players' draft values compare as their mean projections do. */
  lemma DraftValueOrder(p: Player, q: Player, draftPosition: int, leagueSize: int, fitted: real -> real)
    requires |p.projectedPpgMap.items| > 0 && |q.projectedPpgMap.items| > 0
    ensures DraftValue(p, draftPosition, leagueSize, fitted).value >= DraftValue(q, draftPosition, leagueSize, fitted).value
            <==> AverageProjectedPpg(p).value >= AverageProjectedPpg(q).value
  {
  }

  /** With every projection in `[lo, hi]`, the draft value lies in `[lo, hi]` shifted down by the curve. */
  lemma DraftValueBounds(p: Player, draftPosition: int, leagueSize: int, fitted: real -> real, lo: real, hi: real)
    requires |p.projectedPpgMap.items| > 0
    requires forall i :: 0 <= i < |p.projectedPpgMap.items| ==> lo <= p.projectedPpgMap.items[i].1 <= hi
    ensures var c := fitted((draftPosition + leagueSize) as real);
            lo - c <= DraftValue(p, draftPosition, leagueSize, fitted).value <= hi - c
  {
    AverageWithinBounds(p, lo, hi);
  }

  /**
   * Why a remaining name cannot be ranked: no player matches it (the
   * source then fails on `None`), or the matched player has no projection
   * to average.
   */
  datatype RankError = NoMatch(name: string) | NoProjections(name: string)

  /**
   * The loop of `rank_players_by_draft_value` that builds `pairs`, for
   * any `find` (the `find_match` lookup) and `value` (the draft value of
   * what it finds): for each remaining name in turn, what it finds and its
   * value. The first name that finds nothing or has no value ends it.
   */
  function Valuations<T>(names: seq<string>, find: string -> Option<T>, value: T -> Option<real>)
    : (r: Result<seq<(T, real)>, RankError>)
    ensures r.Ok? ==> |r.value| == |names|
    decreases |names|
  {
    if |names| == 0 then Ok([])
    else
      var name := names[|names| - 1];
      match Valuations(names[..|names| - 1], find, value)
      case Err(e) => Err(e)
      case Ok(pairs) =>
        match find(name)
        case None => Err(NoMatch(name))
        case Some(t) =>
          match value(t)
          case None => Err(NoProjections(name))
          case Some(x) => Ok(pairs + [(t, x)])
  }

  /** The name finds something that has a value. */
  predicate Valued<T>(name: string, find: string -> Option<T>, value: T -> Option<real>) {
    find(name).Some? && value(find(name).value).Some?
  }

  /** The pairs are built exactly when every remaining name finds something with a value. */
  lemma {:induction false} ValuationsComplete<T>(names: seq<string>, find: string -> Option<T>, value: T -> Option<real>)
    ensures Valuations(names, find, value).Ok? <==> forall i :: 0 <= i < |names| ==> Valued(names[i], find, value)
    decreases |names|
  {
    if |names| > 0 {
      var front := names[..|names| - 1];
      assert forall i :: 0 <= i < |front| ==> front[i] == names[i];
      ValuationsComplete(front, find, value);
    }
  }

  /** Pair `i` is what name `i` finds, with its value. */
  lemma {:induction false} ValuationsAt<T>(names: seq<string>, find: string -> Option<T>, value: T -> Option<real>, i: nat)
    requires Valuations(names, find, value).Ok? && i < |names|
    ensures var t := find(names[i]);
            t.Some? && value(t.value).Some? &&
            Valuations(names, find, value).value[i] == (t.value, value(t.value).value)
    decreases |names|
  {
    var front := names[..|names| - 1];
    if i < |front| {
      assert front[i] == names[i];
      ValuationsAt(front, find, value, i);
    }
  }

  /** The values of a list of pairs. */
  function ValuesOf<T>(pairs: seq<(T, real)>): (r: seq<real>)
    ensures |r| == |pairs| && forall i :: 0 <= i < |pairs| ==> r[i] == pairs[i].1
  {
    seq(|pairs|, i requires 0 <= i < |pairs| => pairs[i].1)
  }

  /** The first components of a list of pairs. */
  function FirstsOf<T>(pairs: seq<(T, real)>): (r: seq<T>)
    ensures |r| == |pairs| && forall i :: 0 <= i < |pairs| ==> r[i] == pairs[i].0
  {
    seq(|pairs|, i requires 0 <= i < |pairs| => pairs[i].0)
  }

  /** The pairs sorted by value, largest first, with `sort(reverse=True)`. */
  function RankByValue<T>(names: seq<string>, find: string -> Option<T>, value: T -> Option<real>)
    : (r: Result<seq<(T, real)>, RankError>)
    ensures r.Ok? <==> Valuations(names, find, value).Ok?
    ensures r.Ok? <==> forall i :: 0 <= i < |names| ==> Valued(names[i], find, value)
    ensures r.Ok? ==> multiset(r.value) == multiset(Valuations(names, find, value).value)
    ensures r.Ok? ==> forall i, j :: 0 <= i < j < |r.value| ==> r.value[i].1 >= r.value[j].1
  {
    ValuationsComplete(names, find, value);
    match Valuations(names, find, value)
    case Err(e) => Err(e)
    case Ok(pairs) =>
      var values := ValuesOf(pairs);
      Ranking.SortPermutes(pairs, values);
      Ok(Ranking.Arrange(pairs, Ranking.SortDescending(values)))
  }

  /**
   * The ranking is the stable sort: the pairs taken in the order of a
   * permutation of their positions under which pairs of equal value keep
   * their input order.
   */
  lemma RankingIsStable<T>(names: seq<string>, find: string -> Option<T>, value: T -> Option<real>)
    requires Valuations(names, find, value).Ok?
    ensures var pairs := Valuations(names, find, value).value;
            var ranked := RankByValue(names, find, value).value;
            var order := Ranking.SortDescending(ValuesOf(pairs));
            (forall x: nat :: x in order <==> x < |pairs|) &&
            |ranked| == |order| &&
            (forall i :: 0 <= i < |order| ==> ranked[i] == pairs[order[i]]) &&
            (forall i, j :: 0 <= i < j < |order| && ranked[i].1 == ranked[j].1 ==> order[i] < order[j])
  {
    ValuationsComplete(names, find, value);
  }

  /** Values shifted down by the same amount `c` rank the same items in the same order. */
  lemma RankingIgnoresShift<T>(names: seq<string>, find: string -> Option<T>, value: T -> Option<real>,
                               value': T -> Option<real>, c: real)
    requires forall i :: 0 <= i < |names| ==>
               Valued(names[i], find, value) &&
               value'(find(names[i]).value) == Some(value(find(names[i]).value).value - c)
    ensures RankByValue(names, find, value').Ok?
    ensures FirstsOf(RankByValue(names, find, value).value) == FirstsOf(RankByValue(names, find, value').value)
  {
    ValuationsComplete(names, find, value);
    ValuationsComplete(names, find, value');
    var a, b := Valuations(names, find, value).value, Valuations(names, find, value').value;
    forall i | 0 <= i < |a| ensures a[i].0 == b[i].0 && ValuesOf(b)[i] == ValuesOf(a)[i] - c {
      ValuationsAt(names, find, value, i);
      ValuationsAt(names, find, value', i);
      var t := find(names[i]).value;
      assert a[i] == (t, value(t).value) && b[i] == (t, value'(t).value);
    }
    Ranking.ShiftedValuesSortAlike(ValuesOf(a), ValuesOf(b), c);
  }

  /** `Player(name).find_match(players)`, as a lookup of the player found. */
  function MatchIn(v: Matching.Variant, players: seq<Player>): string -> Option<Player> {
    (name: string) =>
      match Matching.FindMatch(v, name, players)
      case None => None
      case Some(k) => Some(players[k])
  }

  /** The draft value of a player, for a given pick, league size and curve. */
  function ValueAt(draftPosition: int, leagueSize: int, fitted: real -> real): Player -> Option<real> {
    (p: Player) => DraftValue(p, draftPosition, leagueSize, fitted)
  }

  /**
   * `rank_players_by_draft_value`: the matched players with their draft
   * values, largest first, ties in the order of `names`. It fails at the
   * first name with no match or whose match has no projection.
   */
  function RankPlayersByDraftValue(v: Matching.Variant, draftPosition: int, leagueSize: int, names: seq<string>,
                                   players: seq<Player>, fitted: real -> real)
    : (r: Result<seq<(Player, real)>, RankError>)
    ensures r.Ok? <==> forall i :: 0 <= i < |names| ==>
              var m := Matching.FindMatch(v, names[i], players);
              m.Some? && |players[m.value].projectedPpgMap.items| > 0
    ensures r.Ok? ==> forall i, j :: 0 <= i < j < |r.value| ==> r.value[i].1 >= r.value[j].1
  {
    var find, value := MatchIn(v, players), ValueAt(draftPosition, leagueSize, fitted);
    assert forall i :: 0 <= i < |names| ==>
             (Valued(names[i], find, value) <==>
              var m := Matching.FindMatch(v, names[i], players);
              m.Some? && |players[m.value].projectedPpgMap.items| > 0);
    RankByValue(names, find, value)
  }

  /**
   * The ranking holds the matches of the names and nothing else: name `i`'s
   * match is ranked with its draft value, and each ranked pair is the match
   * of some name with that player's draft value.
   */
  lemma RankedPairsAreMatches(v: Matching.Variant, draftPosition: int, leagueSize: int, names: seq<string>,
                              players: seq<Player>, fitted: real -> real, i: nat)
    requires RankPlayersByDraftValue(v, draftPosition, leagueSize, names, players, fitted).Ok?
    requires i < |names|
    ensures var pairs := RankPlayersByDraftValue(v, draftPosition, leagueSize, names, players, fitted).value;
            var m := Matching.FindMatch(v, names[i], players);
            m.Some? && (players[m.value], DraftValue(players[m.value], draftPosition, leagueSize, fitted).value) in multiset(pairs)
    ensures var pairs := RankPlayersByDraftValue(v, draftPosition, leagueSize, names, players, fitted).value;
            forall k :: 0 <= k < |pairs| ==> exists j :: 0 <= j < |names| && MatchedPair(v, draftPosition, leagueSize, names[j], players, fitted, pairs[k])
  {
    var find, value := MatchIn(v, players), ValueAt(draftPosition, leagueSize, fitted);
    var all := Valuations(names, find, value).value;
    ValuationsAt(names, find, value, i);
    assert all[i] in multiset(all);
    var pairs := RankPlayersByDraftValue(v, draftPosition, leagueSize, names, players, fitted).value;
    forall k | 0 <= k < |pairs|
      ensures exists j :: 0 <= j < |names| && MatchedPair(v, draftPosition, leagueSize, names[j], players, fitted, pairs[k])
    {
      assert pairs[k] in multiset(pairs);
      var j :| 0 <= j < |all| && all[j] == pairs[k];
      ValuationsAt(names, find, value, j);
      assert MatchedPair(v, draftPosition, leagueSize, names[j], players, fitted, pairs[k]);
    }
  }

  /** `pair` is the match of `name` with that player's draft value. */
  predicate MatchedPair(v: Matching.Variant, draftPosition: int, leagueSize: int, name: string,
                        players: seq<Player>, fitted: real -> real, pair: (Player, real))
  {
    var m := Matching.FindMatch(v, name, players);
    m.Some? && DraftValue(players[m.value], draftPosition, leagueSize, fitted).Some? &&
    pair == (players[m.value], DraftValue(players[m.value], draftPosition, leagueSize, fitted).value)
  }

  /**
   * The order of the players does not depend on the fitted curve, the
   * draft position or the league size: those shift every value alike.
   */
  lemma RankingIgnoresCurve(v: Matching.Variant, names: seq<string>, players: seq<Player>,
                            draftPosition: int, leagueSize: int, fitted: real -> real,
                            draftPosition': int, leagueSize': int, fitted': real -> real)
    requires RankPlayersByDraftValue(v, draftPosition, leagueSize, names, players, fitted).Ok?
    ensures RankPlayersByDraftValue(v, draftPosition', leagueSize', names, players, fitted').Ok?
    ensures FirstsOf(RankPlayersByDraftValue(v, draftPosition, leagueSize, names, players, fitted).value)
            == FirstsOf(RankPlayersByDraftValue(v, draftPosition', leagueSize', names, players, fitted').value)
  {
    DraftValuesShiftAlike(names, MatchIn(v, players), draftPosition, leagueSize, fitted, draftPosition', leagueSize', fitted');
  }

  /** `RankingIgnoresCurve` for any lookup of the players. */
  lemma DraftValuesShiftAlike(names: seq<string>, find: string -> Option<Player>,
                              draftPosition: int, leagueSize: int, fitted: real -> real,
                              draftPosition': int, leagueSize': int, fitted': real -> real)
    requires RankByValue(names, find, ValueAt(draftPosition, leagueSize, fitted)).Ok?
    ensures RankByValue(names, find, ValueAt(draftPosition', leagueSize', fitted')).Ok?
    ensures FirstsOf(RankByValue(names, find, ValueAt(draftPosition, leagueSize, fitted)).value)
            == FirstsOf(RankByValue(names, find, ValueAt(draftPosition', leagueSize', fitted')).value)
  {
    var value, value' := ValueAt(draftPosition, leagueSize, fitted), ValueAt(draftPosition', leagueSize', fitted');
    var c := fitted'((draftPosition' + leagueSize') as real) - fitted((draftPosition + leagueSize) as real);
    forall i | 0 <= i < |names|
      ensures Valued(names[i], find, value) && value'(find(names[i]).value) == Some(value(find(names[i]).value).value - c)
    {
      var p := find(names[i]).value;
      DraftValueShift(p, draftPosition, leagueSize, fitted, draftPosition', leagueSize', fitted');
    }
    RankingIgnoresShift(names, find, value, value', c);
  }

  /** Another pick, league size or curve shifts a draft value by the difference of the curve values. */
  lemma DraftValueShift(p: Player, draftPosition: int, leagueSize: int, fitted: real -> real,
                        draftPosition': int, leagueSize': int, fitted': real -> real)
    requires |p.projectedPpgMap.items| > 0
    ensures var c := fitted'((draftPosition' + leagueSize') as real) - fitted((draftPosition + leagueSize) as real);
            DraftValue(p, draftPosition', leagueSize', fitted')
            == Some(DraftValue(p, draftPosition, leagueSize, fitted).value - c)
  {
  }
}

=== FILE: players.dfy ===
/** The player record both variants of `infra.py` build and merge. */
module Players {
  import opened Wrappers
  import opened PyDicts

  /**
   * A player: a name, an optional position and team, and three per-source
   * maps from the name of a data source to the overall rank, the rank within
   * the position, and the projected points per game that source reported.
   */
  datatype Player = Player(
    name: string,
    position: Option<string>,
    team: Option<string>,
    rankMap: Dict<string, int>,
    positionRankMap: Dict<string, int>,
    projectedPpgMap: Dict<string, real>)

  /** Every per-source map holds each source once. */
  predicate WellFormed(p: Player) {
    PyDicts.Valid(p.rankMap) && PyDicts.Valid(p.positionRankMap) && PyDicts.Valid(p.projectedPpgMap)
  }

  /** `Player(name, position, team)`: a record with no per-source data yet. */
  function NewPlayer(name: string, position: Option<string>, team: Option<string>): (p: Player)
    ensures WellFormed(p)
    ensures p.name == name && p.position == position && p.team == team
    ensures ToMap(p.rankMap) == map[] && ToMap(p.positionRankMap) == map[]
    ensures ToMap(p.projectedPpgMap) == map[]
  {
    Player(name, position, team, Empty(), Empty(), Empty())
  }

  /** Python truthiness of an optional string: neither `None` nor `""`. */
  predicate Truthy(o: Option<string>) {
    o.Some? && o.value != ""
  }

  /** `a or b` on optional strings. */
  function Or(a: Option<string>, b: Option<string>): (r: Option<string>)
    ensures Truthy(a) ==> r == a
    ensures !Truthy(a) ==> r == b
  {
    if Truthy(a) then a else b
  }

  /**
   * `self.merge(other)`: a missing position or team is taken from `other`,
   * and every per-source entry of `other` is written over `self`'s maps.
   */
  function Merge(self: Player, other: Player): (r: Player)
    requires WellFormed(self)
    ensures WellFormed(r)
    ensures r.name == self.name
    ensures Truthy(self.position) ==> r.position == self.position
    ensures !Truthy(self.position) ==> r.position == other.position
    ensures Truthy(self.team) ==> r.team == self.team
    ensures !Truthy(self.team) ==> r.team == other.team
    // other's entries win on shared sources; sources only self knows keep their values
    ensures ToMap(r.rankMap) == ToMap(self.rankMap) + ToMap(other.rankMap)
    ensures ToMap(r.positionRankMap) == ToMap(self.positionRankMap) + ToMap(other.positionRankMap)
    ensures ToMap(r.projectedPpgMap) == ToMap(self.projectedPpgMap) + ToMap(other.projectedPpgMap)
    // sources self already had keep their place in iteration order
    ensures Keys(self.rankMap) <= Keys(r.rankMap)
    ensures Keys(self.positionRankMap) <= Keys(r.positionRankMap)
    ensures Keys(self.projectedPpgMap) <= Keys(r.projectedPpgMap)
  {
    Player(
      self.name,
      Or(self.position, other.position),
      Or(self.team, other.team),
      Update(self.rankMap, other.rankMap),
      Update(self.positionRankMap, other.positionRankMap),
      Update(self.projectedPpgMap, other.projectedPpgMap))
  }

  /** After a merge a player has a position exactly when either side had one. */
  lemma MergeKeepsPosition(self: Player, other: Player)
    requires WellFormed(self)
    ensures Truthy(Merge(self, other).position) <==> Truthy(self.position) || Truthy(other.position)
  {
  }

  /** Merging the same record a second time changes nothing. */
  lemma MergeIdempotent(self: Player, other: Player)
    requires WellFormed(self) && WellFormed(other)
    ensures Merge(Merge(self, other), other) == Merge(self, other)
  {
    UpdateIdempotent(self.rankMap, other.rankMap);
    UpdateIdempotent(self.positionRankMap, other.positionRankMap);
    UpdateIdempotent(self.projectedPpgMap, other.projectedPpgMap);
  }

  /** A record merged with itself is unchanged. */
  lemma MergeSelf(p: Player)
    requires WellFormed(p)
    ensures Merge(p, p) == p
  {
    UpdateAbsorbed(p.rankMap, p.rankMap);
    UpdateAbsorbed(p.positionRankMap, p.positionRankMap);
    UpdateAbsorbed(p.projectedPpgMap, p.projectedPpgMap);
  }

  /** The sum of a list of reals. */
  function Sum(xs: seq<real>): real
    decreases |xs|
  {
    if |xs| == 0 then 0.0 else xs[0] + Sum(xs[1..])
  }

  /** Every term lies in `[lo, hi]`, so the sum lies in `[n * lo, n * hi]`. */
  lemma {:induction false} SumBounds(xs: seq<real>, lo: real, hi: real)
    requires forall i :: 0 <= i < |xs| ==> lo <= xs[i] <= hi
    ensures |xs| as real * lo <= Sum(xs) <= |xs| as real * hi
    decreases |xs|
  {
    if |xs| > 0 {
      SumBounds(xs[1..], lo, hi);
    }
  }

  /**
   * `get_average_projected_ppg()`: the mean of the projections, or `None`
   * when the player has none.
   */
  function AverageProjectedPpg(p: Player): (r: Option<real>)
    ensures r.Some? <==> |p.projectedPpgMap.items| > 0
  {
    var vs := Values(p.projectedPpgMap);
    if |vs| == 0 then None else Some(Sum(vs) / |vs| as real)
  }

  /** The mean lies between the smallest and the largest projection. */
  lemma AverageWithinBounds(p: Player, lo: real, hi: real)
    requires |p.projectedPpgMap.items| > 0
    requires forall i :: 0 <= i < |p.projectedPpgMap.items| ==> lo <= p.projectedPpgMap.items[i].1 <= hi
    ensures lo <= AverageProjectedPpg(p).value <= hi
  {
    var vs := Values(p.projectedPpgMap);
    SumBounds(vs, lo, hi);
    var n := |vs| as real;
    assert n * lo <= Sum(vs) <= n * hi;
    DivideBounds(Sum(vs), n, lo, hi);
  }

  lemma DivideBounds(s: real, n: real, lo: real, hi: real)
    requires n > 0.0 && n * lo <= s <= n * hi
    ensures lo <= s / n <= hi
  {
  }
}

=== FILE: py_dicts.dfy ===
/**
 * Python's `dict`, which remembers the order in which keys were first
 * inserted: a player's per-source maps are iterated in that order when the
 * pipeline builds chart points and averages projections.
 */
module PyDicts {
  import opened Wrappers

  /** The entries of a dict, in insertion order. */
  datatype Dict<K, V> = Dict(items: seq<(K, V)>)

  function Empty<K, V>(): Dict<K, V> {
    Dict([])
  }

  /** `list(d.keys())`. */
  function Keys<K, V>(d: Dict<K, V>): (ks: seq<K>)
    ensures |ks| == |d.items|
    ensures forall i :: 0 <= i < |ks| ==> ks[i] == d.items[i].0
  {
    seq(|d.items|, i requires 0 <= i < |d.items| => d.items[i].0)
  }

  /** `list(d.values())`. */
  function Values<K, V>(d: Dict<K, V>): (vs: seq<V>)
    ensures |vs| == |d.items|
    ensures forall i :: 0 <= i < |vs| ==> vs[i] == d.items[i].1
  {
    seq(|d.items|, i requires 0 <= i < |d.items| => d.items[i].1)
  }

  /** The dict without its oldest entry. */
  function Tail<K, V>(d: Dict<K, V>): Dict<K, V>
    requires |d.items| > 0
  {
    Dict(d.items[1..])
  }

  /** Every key is held once, as in every dict Python builds. */
  predicate Valid<K(==), V>(d: Dict<K, V>) {
    var ks := Keys(d);
    forall i, j :: 0 <= i < j < |ks| ==> ks[i] != ks[j]
  }

  /** The mapping the entries denote; a later entry for a key wins. */
  function ToMap<K(==), V>(d: Dict<K, V>): (m: map<K, V>)
    ensures forall k :: k in m ==> k in Keys(d)
    ensures forall k :: k in Keys(d) ==> k in m
    decreases |d.items|
  {
    if |d.items| == 0 then map[]
    else
      assert Keys(d) == [d.items[0].0] + Keys(Tail(d));
      map[d.items[0].0 := d.items[0].1] + ToMap(Tail(d))
  }

  /**
   * `d.get(k)`: a value exactly when `k` is a key, and in a dict with
   * distinct keys the value of `k`'s entry.
   */
  function Get<K(==), V>(d: Dict<K, V>, k: K): (r: Option<V>)
    ensures r.Some? <==> k in Keys(d)
    ensures Valid(d) ==> forall i :: 0 <= i < |d.items| && d.items[i].0 == k ==> r == Some(d.items[i].1)
  {
    EntriesInMap(d);
    var m := ToMap(d);
    if k in m then Some(m[k]) else None
  }

  /** Every entry of a dict with distinct keys is what the map holds for its key. */
  lemma EntriesInMap<K, V>(d: Dict<K, V>)
    ensures Valid(d) ==> forall i :: 0 <= i < |d.items| ==>
              d.items[i].0 in ToMap(d) && ToMap(d)[d.items[i].0] == d.items[i].1
  {
    if Valid(d) {
      forall i | 0 <= i < |d.items|
        ensures d.items[i].0 in ToMap(d) && ToMap(d)[d.items[i].0] == d.items[i].1
      {
        EntryInMap(d, i);
      }
    }
  }

  /** In a dict with distinct keys the oldest key is not among the others. */
  lemma HeadKeyUnique<K, V>(d: Dict<K, V>)
    requires Valid(d) && |d.items| > 0
    ensures Valid(Tail(d))
    ensures d.items[0].0 !in Keys(Tail(d))
  {
    var ks, ts := Keys(d), Keys(Tail(d));
    assert forall j :: 0 <= j < |ts| ==> ts[j] == ks[j + 1];
  }

  /** In a dict with distinct keys, each entry is what the map holds for its key. */
  lemma {:induction false} EntryInMap<K, V>(d: Dict<K, V>, i: nat)
    requires Valid(d) && i < |d.items|
    ensures d.items[i].0 in ToMap(d) && ToMap(d)[d.items[i].0] == d.items[i].1
    decreases i
  {
    HeadKeyUnique(d);
    if i > 0 {
      EntryInMap(Tail(d), i - 1);
    }
  }

  function SetItems<K(==), V>(items: seq<(K, V)>, k: K, v: V): seq<(K, V)>
    decreases |items|
  {
    if |items| == 0 then [(k, v)]
    else if items[0].0 == k then [(k, v)] + items[1..]
    else [items[0]] + SetItems(items[1..], k, v)
  }

  /**
   * `d[k] = v`: an existing key keeps its place and takes the new value; a
   * new key is appended.
   */
  function Set<K(==), V>(d: Dict<K, V>, k: K, v: V): (r: Dict<K, V>)
    requires Valid(d)
    ensures Valid(r)
    ensures ToMap(r) == ToMap(d)[k := v]
    ensures Keys(r) == if k in ToMap(d) then Keys(d) else Keys(d) + [k]
  {
    SetKeys(d, k, v);
    SetMap(d, k, v);
    AppendKeepsDistinct(d, Dict(SetItems(d.items, k, v)), k);
    Dict(SetItems(d.items, k, v))
  }

  /** Keeping the keys, or appending a missing one, keeps them distinct. */
  lemma AppendKeepsDistinct<K, V>(d: Dict<K, V>, r: Dict<K, V>, k: K)
    requires Valid(d)
    requires Keys(r) == if k in Keys(d) then Keys(d) else Keys(d) + [k]
    ensures Valid(r)
  {
  }

  lemma {:induction false} SetKeys<K, V>(d: Dict<K, V>, k: K, v: V)
    ensures Keys(Dict(SetItems(d.items, k, v))) == if k in Keys(d) then Keys(d) else Keys(d) + [k]
    decreases |d.items|
  {
    var r := Dict(SetItems(d.items, k, v));
    if |d.items| > 0 {
      assert Keys(d) == [d.items[0].0] + Keys(Tail(d));
      if d.items[0].0 != k {
        var h, kt := d.items[0].0, Keys(Tail(d));
        assert Keys(r) == [h] + Keys(Dict(SetItems(Tail(d).items, k, v)));
        SetKeys(Tail(d), k, v);
        assert (k in Keys(d)) == (k in kt);
        if k !in kt {
          assert [h] + (kt + [k]) == [h] + kt + [k];
        }
      } else {
        assert Keys(r) == [k] + Keys(Tail(d));
      }
    }
  }

  lemma {:induction false} SetMap<K, V>(d: Dict<K, V>, k: K, v: V)
    requires Valid(d)
    ensures ToMap(Dict(SetItems(d.items, k, v))) == ToMap(d)[k := v]
    decreases |d.items|
  {
    var r := Dict(SetItems(d.items, k, v));
    if |d.items| > 0 {
      HeadKeyUnique(d);
      assert Tail(r).items == SetItems(Tail(d).items, k, v) || Tail(r) == Tail(d);
      if d.items[0].0 == k {
        assert Tail(r) == Tail(d);
        OverwriteHead(ToMap(Tail(d)), k, d.items[0].1, v);
      } else {
        SetMap(Tail(d), k, v);
        assert Tail(r) == Dict(SetItems(Tail(d).items, k, v));
        UnionUpdate(map[d.items[0].0 := d.items[0].1], ToMap(Tail(d)), k, v);
      }
    }
  }

  /** `d.update(other)`, i.e. `d[k] = v` for every entry of `other` in its order. */
  function Update<K(==), V>(d: Dict<K, V>, other: Dict<K, V>): (r: Dict<K, V>)
    requires Valid(d)
    ensures Valid(r)
    // the other dict's values win on shared keys; keys only in `d` keep their values
    ensures ToMap(r) == ToMap(d) + ToMap(other)
    // keys already present keep their place at the front
    ensures Keys(d) <= Keys(r)
    decreases |other.items|
  {
    if |other.items| == 0 then d
    else
      var (k, v) := other.items[0];
      var r := Update(Set(d, k, v), Tail(other));
      UpdateThenUnion(ToMap(d), k, v, ToMap(Tail(other)));
      r
  }

  /** Storing the value a key already holds leaves the dict as it was. */
  lemma {:induction false} SetPresent<K, V>(d: Dict<K, V>, k: K, v: V)
    requires Valid(d) && k in ToMap(d) && ToMap(d)[k] == v
    ensures SetItems(d.items, k, v) == d.items
    decreases |d.items|
  {
    HeadKeyUnique(d);
    EntryInMap(d, 0);
    if d.items[0].0 != k {
      SetPresent(Tail(d), k, v);
    }
  }

  /** Every entry of `other` already stands in `d`. */
  predicate Absorbed<K(==), V(==)>(d: Dict<K, V>, other: Dict<K, V>) {
    var m, o := ToMap(d), ToMap(other);
    forall k :: k in o ==> k in m && m[k] == o[k]
  }

  /** Updating with entries that already stand changes nothing. */
  lemma {:induction false} UpdateAbsorbed<K, V>(d: Dict<K, V>, other: Dict<K, V>)
    requires Valid(d) && Valid(other) && Absorbed(d, other)
    ensures Update(d, other) == d
    decreases |other.items|
  {
    if |other.items| > 0 {
      var (k, v) := other.items[0];
      EntryInMap(other, 0);
      SetPresent(d, k, v);
      assert Set(d, k, v) == d;
      HeadKeyUnique(other);
      UpdateAbsorbed(d, Tail(other));
    }
  }

  /** `d.update(other)` done twice leaves the dict as done once. */
  lemma UpdateIdempotent<K, V>(d: Dict<K, V>, other: Dict<K, V>)
    requires Valid(d) && Valid(other)
    ensures Update(Update(d, other), other) == Update(d, other)
  {
    UpdateAbsorbed(Update(d, other), other);
  }

  lemma OverwriteHead<K, V>(rest: map<K, V>, k: K, old_v: V, v: V)
    requires k !in rest
    ensures map[k := v] + rest == (map[k := old_v] + rest)[k := v]
  {
  }

  lemma UnionUpdate<K, V>(a: map<K, V>, b: map<K, V>, k: K, v: V)
    ensures a + b[k := v] == (a + b)[k := v]
  {
  }

  lemma UpdateThenUnion<K, V>(a: map<K, V>, k: K, v: V, b: map<K, V>)
    ensures a[k := v] + b == a + (map[k := v] + b)
  {
  }
}

=== FILE: py_strings.dfy ===
/** The pieces of Python's `str` that the name matchers rely on. */
module PyStrings {

  /** `pat` occurs in `s` starting at index `i`. */
  predicate OccursAt(s: string, pat: string, i: nat) {
    i + |pat| <= |s| && s[i..i + |pat|] == pat
  }

  /** Python's `pat in s`. */
  predicate Occurs(s: string, pat: string) {
    exists i: nat | i <= |s| :: OccursAt(s, pat, i)
  }

  predicate StartsWith(s: string, prefix: string) {
    |prefix| <= |s| && s[..|prefix|] == prefix
  }

  predicate EndsWith(s: string, suffix: string) {
    |suffix| <= |s| && s[|s| - |suffix|..] == suffix
  }

  /** An occurrence in the tail of `s` is an occurrence in `s`, one place later. */
  lemma OccursInTail(s: string, pat: string, i: nat)
    requires |s| > 0 && OccursAt(s[1..], pat, i)
    ensures OccursAt(s, pat, i + 1)
  {
    assert s[1..][i..i + |pat|] == s[i + 1..i + 1 + |pat|];
  }

  /**
   * Python's `s.replace(pat, rep)`: scanning left to right, every
   * non-overlapping occurrence of `pat` is replaced by `rep`; an empty `pat`
   * puts `rep` before every character and once more at the end.
   */
  function Replace(s: string, pat: string, rep: string): (r: string)
    // replacing a pattern by itself changes nothing
    ensures pat == rep ==> r == s
    // deleting (or shortening) occurrences never makes the string longer
    ensures |pat| > 0 && |rep| <= |pat| ==> |r| <= |s|
    decreases |s|
  {
    if |pat| == 0 then
      if |s| == 0 then rep else rep + [s[0]] + Replace(s[1..], pat, rep)
    else if |s| == 0 then s
    else if StartsWith(s, pat) then
      rep + Replace(s[|pat|..], pat, rep)
    else
      [s[0]] + Replace(s[1..], pat, rep)
  }

  /** A pattern that does not occur leaves the string as it was. */
  lemma {:induction false} ReplaceAbsent(s: string, pat: string, rep: string)
    requires |pat| > 0 && !Occurs(s, pat)
    ensures Replace(s, pat, rep) == s
    decreases |s|
  {
    if |s| > 0 {
      assert !StartsWith(s, pat) by { assert !OccursAt(s, pat, 0); }
      assert !Occurs(s[1..], pat) by {
        if Occurs(s[1..], pat) {
          var i: nat :| i <= |s[1..]| && OccursAt(s[1..], pat, i);
          OccursInTail(s, pat, i);
        }
      }
      ReplaceAbsent(s[1..], pat, rep);
    }
  }

  /**
   * The find-and-splice reading of `Replace` (the way CPython computes it):
   * everything before the first occurrence is kept, the occurrence becomes
   * `rep`, and the scan resumes after it.
   */
  lemma ReplaceAtFirstOccurrence(s: string, pat: string, rep: string, i: nat)
    requires |pat| > 0 && OccursAt(s, pat, i)
    requires forall j :: 0 <= j < i ==> !OccursAt(s, pat, j)
    ensures Replace(s, pat, rep) == s[..i] + rep + Replace(s[i + |pat|..], pat, rep)
  {
    SpliceFrom(s, pat, rep, 0, i);
    assert s[0..] == s && s[0..i] == s[..i];
  }

  /** The splice, for the scan that starts at index `k` of `s`. */
  lemma {:induction false} SpliceFrom(s: string, pat: string, rep: string, k: nat, i: nat)
    requires |pat| > 0 && k <= i && OccursAt(s, pat, i)
    requires forall j :: k <= j < i ==> !OccursAt(s, pat, j)
    ensures Replace(s[k..], pat, rep) == s[k..i] + rep + Replace(s[i + |pat|..], pat, rep)
    decreases i - k
  {
    if k == i {
      ReplaceHere(s, pat, rep, i);
    } else {
      assert Replace(s[k..], pat, rep) == [s[k]] + Replace(s[k + 1..], pat, rep) by {
        ReplacePast(s, pat, rep, k);
      }
      SpliceFrom(s, pat, rep, k + 1, i);
      PrependChar(s, k, i, rep, Replace(s[i + |pat|..], pat, rep));
    }
  }

  /** An occurrence where the scan stands is replaced at once. */
  lemma ReplaceHere(s: string, pat: string, rep: string, i: nat)
    requires |pat| > 0 && OccursAt(s, pat, i)
    ensures Replace(s[i..], pat, rep) == s[i..i] + rep + Replace(s[i + |pat|..], pat, rep)
  {
    assert Replace(s[i..], pat, rep) == rep + Replace(s[i + |pat|..], pat, rep) by {
      assert StartsWith(s[i..], pat) by {
        assert s[i..][..|pat|] == s[i..i + |pat|];
      }
      assert s[i..][|pat|..] == s[i + |pat|..];
    }
    EmptyFront(s[i..i], rep, Replace(s[i + |pat|..], pat, rep));
  }

  lemma EmptyFront<T>(e: seq<T>, a: seq<T>, b: seq<T>)
    requires |e| == 0
    ensures e + a + b == a + b
  {
    assert e + a == a;
  }

  /** A position where no occurrence starts is kept as it is, and the scan moves on. */
  lemma ReplacePast(s: string, pat: string, rep: string, k: nat)
    requires |pat| > 0 && k < |s| && !OccursAt(s, pat, k)
    ensures Replace(s[k..], pat, rep) == [s[k]] + Replace(s[k + 1..], pat, rep)
  {
    assert !StartsWith(s[k..], pat) by {
      if |pat| <= |s[k..]| {
        assert s[k..][..|pat|] == s[k..k + |pat|];
      }
    }
    assert s[k..][1..] == s[k + 1..];
  }

  lemma PrependChar(s: string, k: nat, i: nat, a: string, b: string)
    requires k < i <= |s|
    ensures [s[k]] + (s[k + 1..i] + a + b) == s[k..i] + a + b
  {
    assert [s[k]] + s[k + 1..i] == s[k..i];
  }

  /** A pattern holding a character that `s` lacks cannot occur in `s`. */
  lemma MissingCharMeansAbsent(s: string, pat: string, k: nat)
    requires k < |pat| && pat[k] !in s
    ensures !Occurs(s, pat)
  {
  }

  /** Applies `name.replace(p, "")` for each pattern `p` of `pats`, in order. */
  function RemoveAll(s: string, pats: seq<string>): (r: string)
    // deleting never lengthens a non-empty pattern's target
    ensures (forall k :: 0 <= k < |pats| ==> |pats[k]| > 0) ==> |r| <= |s|
    decreases |pats|
  {
    if |pats| == 0 then s else RemoveAll(Replace(s, pats[0], ""), pats[1..])
  }

  /** `RemoveAll` over a concatenation of pattern lists runs them one after the other. */
  lemma {:induction false} RemoveAllSplit(s: string, pats: seq<string>, n: nat)
    requires n <= |pats|
    ensures RemoveAll(s, pats) == RemoveAll(RemoveAll(s, pats[..n]), pats[n..])
    decreases n
  {
    if n > 0 {
      assert pats[1..][..n - 1] == pats[..n][1..];
      assert pats[1..][n - 1..] == pats[n..];
      RemoveAllSplit(Replace(s, pats[0], ""), pats[1..], n - 1);
    }
  }

  /**
   * Every pattern of `pats` holds, at the index `hints` names, a character
   * that `s` lacks, so deleting them all leaves `s` unchanged.
   */
  lemma {:induction false} RemoveAllUnchanged(s: string, pats: seq<string>, hints: seq<nat>)
    requires |hints| == |pats|
    requires forall k :: 0 <= k < |pats| ==> hints[k] < |pats[k]| && pats[k][hints[k]] !in s
    ensures RemoveAll(s, pats) == s
    decreases |pats|
  {
    if |pats| > 0 {
      MissingCharMeansAbsent(s, pats[0], hints[0]);
      ReplaceAbsent(s, pats[0], "");
      RemoveAllUnchanged(s, pats[1..], hints[1..]);
    }
  }

  /** Deleting non-empty patterns none of which occurs leaves `s` unchanged. */
  lemma {:induction false} RemoveAllAbsent(s: string, pats: seq<string>)
    requires forall k :: 0 <= k < |pats| ==> |pats[k]| > 0 && !Occurs(s, pats[k])
    ensures RemoveAll(s, pats) == s
    decreases |pats|
  {
    if |pats| > 0 {
      ReplaceAbsent(s, pats[0], "");
      RemoveAllAbsent(s, pats[1..]);
    }
  }

  /**
   * `pat` occurs at `i`, and its `k`-th character appears nowhere in `s`
   * before the place it has in that occurrence: no occurrence starts earlier.
   */
  lemma FirstOccurrenceByChar(s: string, pat: string, i: nat, k: nat)
    requires OccursAt(s, pat, i) && k < |pat| && pat[k] !in s[..i + k]
    ensures forall j :: 0 <= j < i ==> !OccursAt(s, pat, j)
  {
  }

  /** A pattern with a character `s` lacks is deleted from `s` without change. */
  lemma ReplaceMissingChar(s: string, pat: string, k: nat)
    requires k < |pat| && pat[k] !in s
    ensures Replace(s, pat, "") == s
  {
    MissingCharMeansAbsent(s, pat, k);
    ReplaceAbsent(s, pat, "");
  }

  /**
   * A pattern ending in a space and longer than `n` cannot occur in a
   * string whose spaces all lie before index `n`.
   */
  lemma LateSpaceAbsent(s: string, pat: string, n: nat)
    requires |pat| > n && pat[|pat| - 1] == ' '
    requires forall j :: n <= j < |s| ==> s[j] != ' '
    ensures Replace(s, pat, "") == s
  {
    assert !Occurs(s, pat) by {
      forall i: nat | i <= |s|
        ensures !OccursAt(s, pat, i)
      {
      }
    }
    ReplaceAbsent(s, pat, "");
  }

  /**
   * The first occurrence of `pat` in `x + pat + y` is the one after `x` when
   * the first character of `pat` does not appear in `x`.
   */
  lemma ReplaceAfterPrefix(x: string, pat: string, rep: string, y: string)
    requires |pat| > 0 && pat[0] !in x
    ensures Replace(x + pat + y, pat, rep) == x + rep + Replace(y, pat, rep)
  {
    var s := x + pat + y;
    assert s[..|x|] == x && s[|x|..|x| + |pat|] == pat && s[|x| + |pat|..] == y;
    FirstOccurrenceByChar(s, pat, |x|, 0);
    ReplaceAtFirstOccurrence(s, pat, rep, |x|);
  }

  /**
   * When, besides, a character of `pat` is missing from `y`, that occurrence
   * is the only one, and deleting `pat` joins `x` and `y`.
   */
  lemma DeleteSoleOccurrence(x: string, pat: string, y: string, k: nat)
    requires |pat| > 0 && pat[0] !in x && k < |pat| && pat[k] !in y
    ensures Replace(x + pat + y, pat, "") == x + y
  {
    ReplaceMissingChar(y, pat, k);
    ReplaceAfterPrefix(x, pat, "", y);
  }

  /** A pattern at the front of `s`, one of whose characters the rest lacks, is deleted once. */
  lemma DeletePrefix(pat: string, y: string, k: nat)
    requires |pat| > 0 && k < |pat| && pat[k] !in y
    ensures Replace(pat + y, pat, "") == y
  {
    assert pat + y == "" + pat + y && "" + y == y;
    DeleteSoleOccurrence("", pat, y, k);
  }

  /**
   * A pattern whose second character appears in `s` at most as its first
   * character cannot occur in `s`: an occurrence puts that character later.
   */
  lemma SecondCharOnlyAtFront(s: string, pat: string)
    requires |pat| > 1 && forall i :: 1 <= i < |s| ==> s[i] != pat[1]
    ensures !Occurs(s, pat)
  {
    forall i: nat | i <= |s|
      ensures !OccursAt(s, pat, i)
    {
      if i + |pat| <= |s| {
        assert s[i..i + |pat|][1] == s[i + 1];
      }
    }
  }
}

=== FILE: ranking.dfy ===
/**
 * Python's `list.sort(key=..., reverse=True)` on a list of values: a stable
 * sort into non-increasing order. It is modelled on the positions of the
 * items, so that "ties keep their input order" can be stated exactly.
 */
module Ranking {

  /**
   * Item `a` goes before item `b`: its value is larger, or the values tie and
   * `a` came first in the input.
   */
  predicate Before(values: seq<real>, a: nat, b: nat)
    requires a < |values| && b < |values|
  {
    values[a] > values[b] || (values[a] == values[b] && a < b)
  }

  /** `order` lists positions of `values` in the order the stable descending sort puts them. */
  predicate Ordered(values: seq<real>, order: seq<nat>) {
    (forall i :: 0 <= i < |order| ==> order[i] < |values|) &&
    (forall i, j :: 0 <= i < j < |order| ==> Before(values, order[i], order[j]))
  }

  /**
   * Puts position `k`, which comes after every position already placed, in
   * front of the first placed item whose value is smaller.
   */
  function Insert(values: seq<real>, order: seq<nat>, k: nat): (r: seq<nat>)
    requires k < |values| && Ordered(values, order)
    requires forall i :: 0 <= i < |order| ==> order[i] < k
    ensures |r| == |order| + 1
    ensures forall x :: x in r <==> x in order || x == k
    ensures Ordered(values, r)
  {
    if |order| == 0 then [k]
    else if values[k] > values[order[0]] then [k] + order
    else
      var rest := Insert(values, order[1..], k);
      assert forall x :: x in order <==> x == order[0] || x in order[1..];
      assert forall j :: 0 <= j < |rest| ==> Before(values, order[0], rest[j]) by {
        forall j | 0 <= j < |rest| ensures Before(values, order[0], rest[j]) {
          assert rest[j] in rest;
          if rest[j] != k {
            var m :| 0 <= m < |order[1..]| && order[1..][m] == rest[j];
            assert Before(values, order[0], order[m + 1]);
          }
        }
      }
      [order[0]] + rest
  }

  /** Sorts the first `n` positions. */
  function SortPrefix(values: seq<real>, n: nat): (r: seq<nat>)
    requires n <= |values|
    ensures |r| == n
    ensures forall i :: 0 <= i < |r| ==> r[i] < n
    ensures forall x: nat :: x in r <==> x < n
    ensures Ordered(values, r)
  {
    if n == 0 then []
    else
      var r := Insert(values, SortPrefix(values, n - 1), n - 1);
      assert forall i :: 0 <= i < |r| ==> r[i] in r;
      r
  }

  /**
   * The positions of `values` in the order `sort(reverse=True)` leaves them:
   * a permutation of `0 .. |values| - 1`, non-increasing in value, equal
   * values in input order.
   */
  function SortDescending(values: seq<real>): (r: seq<nat>)
    ensures |r| == |values|
    ensures forall i :: 0 <= i < |r| ==> r[i] < |values|
    ensures forall x: nat :: x in r <==> x < |values|
    ensures forall i, j :: 0 <= i < j < |r| ==> values[r[i]] >= values[r[j]]
    ensures forall i, j :: 0 <= i < j < |r| && values[r[i]] == values[r[j]] ==> r[i] < r[j]
  {
    SortPrefix(values, |values|)
  }

  /**
   * The stable descending order is the only one: any arrangement of all the
   * positions that is `Ordered` is the one `SortDescending` gives, whichever
   * algorithm produced it.
   */
  lemma {:induction false} OrderedIsUnique(values: seq<real>, a: seq<nat>, b: seq<nat>)
    requires Ordered(values, a) && Ordered(values, b)
    requires |a| == |b| && forall x :: x in a <==> x in b
    ensures a == b
    decreases |a|
  {
    if |a| > 0 {
      // the head of each is the one item that goes before all the others
      assert a[0] in b;
      assert b[0] in a;
      var i :| 0 <= i < |b| && b[i] == a[0];
      var j :| 0 <= j < |a| && a[j] == b[0];
      assert a[0] == b[0];
      forall x ensures x in a[1..] <==> x in b[1..] {
        NotTwice(values, a, x);
        NotTwice(values, b, x);
      }
      OrderedIsUnique(values, a[1..], b[1..]);
    }
  }

  /** An `Ordered` sequence holds each position once, so what follows its head is everything but the head. */
  lemma NotTwice(values: seq<real>, a: seq<nat>, x: nat)
    requires Ordered(values, a) && |a| > 0
    ensures x in a[1..] <==> x in a && x != a[0]
  {
    if x in a[1..] {
      var i :| 0 <= i < |a[1..]| && a[1..][i] == x;
      assert Before(values, a[0], a[i + 1]);
    }
    if x in a && x != a[0] {
      var i :| 0 <= i < |a| && a[i] == x;
      assert a[1..][i - 1] == x;
    }
  }

  /**
   * The sort looks only at how values compare: values shifted by the same
   * amount are put in the same order.
   */
  lemma ShiftedValuesSortAlike(values: seq<real>, shifted: seq<real>, c: real)
    requires |shifted| == |values|
    requires forall i :: 0 <= i < |values| ==> shifted[i] == values[i] - c
    ensures SortDescending(shifted) == SortDescending(values)
  {
    var a, b := SortDescending(values), SortDescending(shifted);
    assert Ordered(values, b) by {
      forall i, j | 0 <= i < j < |b| ensures Before(values, b[i], b[j]) {
        assert Before(shifted, b[i], b[j]);
      }
    }
    OrderedIsUnique(values, a, b);
  }

  /** The items at the positions `order` lists, in that order. */
  function Arrange<T>(items: seq<T>, order: seq<nat>): (r: seq<T>)
    requires forall i :: 0 <= i < |order| ==> order[i] < |items|
    ensures |r| == |order| && forall i :: 0 <= i < |order| ==> r[i] == items[order[i]]
  {
    seq(|order|, i requires 0 <= i < |order| => items[order[i]])
  }

  /** `Insert` puts the new position somewhere and keeps the others in their order. */
  lemma {:induction false} InsertSplits(values: seq<real>, order: seq<nat>, k: nat) returns (m: nat)
    requires k < |values| && Ordered(values, order)
    requires forall i :: 0 <= i < |order| ==> order[i] < k
    ensures m <= |order| && Insert(values, order, k) == order[..m] + [k] + order[m..]
    decreases |order|
  {
    if |order| == 0 || values[k] > values[order[0]] {
      m := 0;
    } else {
      var m' := InsertSplits(values, order[1..], k);
      m := m' + 1;
      assert [order[0]] + order[1..][..m'] == order[..m];
      assert order[1..][m'..] == order[m..];
    }
  }

  /** Sorting the first `n` positions rearranges the first `n` items. */
  lemma {:induction false} SortPrefixPermutes<T>(items: seq<T>, values: seq<real>, n: nat)
    requires |items| == |values| && n <= |values|
    ensures multiset(Arrange(items, SortPrefix(values, n))) == multiset(items[..n])
    decreases n
  {
    if n > 0 {
      var prev := SortPrefix(values, n - 1);
      assert SortPrefix(values, n) == Insert(values, prev, n - 1);
      assert multiset(Arrange(items, prev)) == multiset(items[..n - 1]) by {
        SortPrefixPermutes(items, values, n - 1);
      }
      InsertAddsItem(items, values, prev, n - 1);
      PrefixGrows(items, n);
    }
  }

  /** The first `n` items are the first `n - 1` and one more. */
  lemma PrefixGrows<T>(items: seq<T>, n: nat)
    requires 0 < n <= |items|
    ensures multiset(items[..n]) == multiset(items[..n - 1]) + multiset{items[n - 1]}
  {
    assert items[..n] == items[..n - 1] + [items[n - 1]];
  }

  /** Inserting position `k` adds the item at `k` to the arrangement. */
  lemma InsertAddsItem<T>(items: seq<T>, values: seq<real>, order: seq<nat>, k: nat)
    requires |items| == |values| && k < |values| && Ordered(values, order)
    requires forall i :: 0 <= i < |order| ==> order[i] < k
    ensures multiset(Arrange(items, Insert(values, order, k))) == multiset(Arrange(items, order)) + multiset{items[k]}
  {
    var m := InsertSplits(values, order, k);
    assert order == order[..m] + order[m..];
    ArrangeSplice(items, order[..m], order[m..], k);
  }

  /** Arranging with one more position in the middle adds that one item. */
  lemma ArrangeSplice<T>(items: seq<T>, a: seq<nat>, b: seq<nat>, k: nat)
    requires k < |items|
    requires forall i :: 0 <= i < |a| ==> a[i] < |items|
    requires forall i :: 0 <= i < |b| ==> b[i] < |items|
    ensures multiset(Arrange(items, a + [k] + b)) == multiset(Arrange(items, a + b)) + multiset{items[k]}
  {
    var front, back := Arrange(items, a), Arrange(items, b);
    assert Arrange(items, a + [k] + b) == front + [items[k]] + back by {
      ArrangeConcat(items, a + [k], b);
      ArrangeConcat(items, a, [k]);
    }
    assert Arrange(items, a + b) == front + back by {
      ArrangeConcat(items, a, b);
    }
  }

  lemma ArrangeConcat<T>(items: seq<T>, a: seq<nat>, b: seq<nat>)
    requires forall i :: 0 <= i < |a| ==> a[i] < |items|
    requires forall i :: 0 <= i < |b| ==> b[i] < |items|
    ensures Arrange(items, a + b) == Arrange(items, a) + Arrange(items, b)
  {
  }

  /** The stable descending sort rearranges the items: it neither loses nor repeats any. */
  lemma SortPermutes<T>(items: seq<T>, values: seq<real>)
    requires |items| == |values|
    ensures multiset(Arrange(items, SortDescending(values))) == multiset(items)
  {
    SortPrefixPermutes(items, values, |values|);
    assert items[..|values|] == items;
  }
}

=== FILE: scores.dfy ===
/** Similarity scores, which the source computes as floats. */
module Scores {
  /**
   * `0.0`, `1.0` or `2.0` for the kinds of match, or `float("inf")` for no
   * match; no other value is ever produced.
   */
  datatype Score = Finite(value: nat) | Infinite {
    /** Python's `<` on the float this score stands for. */
    predicate Below(other: Score) {
      match other
      case Infinite => this.Finite?
      case Finite(b) => this.Finite? && this.value < b
    }
  }
}

=== FILE: util.dfy ===
/**
 * The list helpers of the Python 2 snapshot: the Levenshtein edit distance
 * computed by dynamic programming, the filtering list wrapper and the
 * flattening of a list of lists.
 */
module Util {

  function Min3(a: nat, b: nat, c: nat): (r: nat)
    ensures r <= a && r <= b && r <= c
    ensures r == a || r == b || r == c
  {
    if a <= b && a <= c then a else if b <= c then b else c
  }

  /**
   * The edit distance as the recurrence the table is filled with: the cell
   * for the prefixes `s` and `t` is the cheapest of deleting the last item of
   * `s`, replacing it by the last item of `t` (free when they are equal) and
   * inserting the last item of `t`.
   */
  function Distance<T(==)>(s: seq<T>, t: seq<T>): (d: nat)
    // deleting every item of `s` and inserting every item of `t` always works
    ensures d <= |s| + |t|
    decreases |s| + |t|
  {
    if |s| == 0 then |t|
    else if |t| == 0 then |s|
    else
      Min3(Distance(s[..|s| - 1], t) + 1,
           Distance(s[..|s| - 1], t[..|t| - 1]) + (if s[|s| - 1] == t[|t| - 1] then 0 else 1),
           Distance(s, t[..|t| - 1]) + 1)
  }

  /** One cell of the table, in terms of its upper, diagonal and left neighbours. */
  lemma DistanceCell<T>(s: seq<T>, t: seq<T>, x: nat, y: nat)
    requires 1 <= x <= |s| && 1 <= y <= |t|
    ensures Distance(s[..x], t[..y])
            == Min3(Distance(s[..x - 1], t[..y]) + 1,
                    Distance(s[..x - 1], t[..y - 1]) + (if s[x - 1] == t[y - 1] then 0 else 1),
                    Distance(s[..x], t[..y - 1]) + 1)
  {
    assert s[..x][..x - 1] == s[..x - 1] && t[..y][..y - 1] == t[..y - 1];
  }

  /**
   * Fills row `x` of the table from row `x - 1`: the first column costs `x`
   * deletions, every other cell is the cheapest of its three neighbours.
   */
  method NextRow<T(==)>(s: seq<T>, t: seq<T>, x: nat, prev: seq<nat>) returns (row: seq<nat>)
    requires 1 <= x <= |s| && |prev| == |t| + 1
    requires forall j :: 0 <= j <= |t| ==> prev[j] == Distance(s[..x - 1], t[..j])
    ensures |row| == |t| + 1
    ensures forall j :: 0 <= j <= |t| ==> row[j] == Distance(s[..x], t[..j])
  {
    row := [x];
    var y := 1;
    while y <= |t|
      invariant 1 <= y <= |t| + 1
      invariant |row| == y
      invariant forall j :: 0 <= j < y ==> row[j] == Distance(s[..x], t[..j])
    {
      var cost := if s[x - 1] == t[y - 1] then 0 else 1;
      var cell := Min3(prev[y] + 1, prev[y - 1] + cost, row[y - 1] + 1);
      assert cell == Distance(s[..x], t[..y]) by {
        DistanceCell(s, t, x, y);
      }
      ghost var before := row;
      row := row + [cell];
      assert forall j :: 0 <= j < y ==> row[j] == before[j];
      y := y + 1;
    }
  }

  /**
   * `levenstein_distance`: fills the (|s|+1) x (|t|+1) table row by row,
   * keeping only the previous row, and reads off the last cell.
   */
  method LevensteinDistance<T(==)>(s: seq<T>, t: seq<T>) returns (d: nat)
    ensures d == Distance(s, t)
  {
    // the first row: turning the empty prefix into t[..j] costs j insertions
    var prev: seq<nat> := seq(|t| + 1, j => j);
    var x := 1;
    while x <= |s|
      invariant 1 <= x <= |s| + 1
      invariant |prev| == |t| + 1
      invariant forall j :: 0 <= j <= |t| ==> prev[j] == Distance(s[..x - 1], t[..j])
    {
      prev := NextRow(s, t, x, prev);
      x := x + 1;
    }
    assert s[..|s|] == s && t[..|t|] == t;
    d := prev[|t|];
  }

  /** The distance is at least the difference of the lengths. */
  lemma {:induction false} DistanceAtLeastLengthGap<T>(s: seq<T>, t: seq<T>)
    ensures |s| - |t| <= Distance(s, t) && |t| - |s| <= Distance(s, t)
    decreases |s| + |t|
  {
    if |s| > 0 && |t| > 0 {
      DistanceAtLeastLengthGap(s[..|s| - 1], t);
      DistanceAtLeastLengthGap(s[..|s| - 1], t[..|t| - 1]);
      DistanceAtLeastLengthGap(s, t[..|t| - 1]);
    }
  }

  /** The distance is at most the longer length: replace, then insert or delete the rest. */
  lemma {:induction false} DistanceAtMostLonger<T>(s: seq<T>, t: seq<T>)
    ensures Distance(s, t) <= (if |s| < |t| then |t| else |s|)
    decreases |s| + |t|
  {
    if |s| > 0 && |t| > 0 {
      DistanceAtMostLonger(s[..|s| - 1], t[..|t| - 1]);
    }
  }

  /** The distance is zero exactly when the two sequences are equal. */
  lemma {:induction false} DistanceZeroIffEqual<T>(s: seq<T>, t: seq<T>)
    ensures Distance(s, t) == 0 <==> s == t
    decreases |s| + |t|
  {
    if |s| > 0 && |t| > 0 {
      var s', t' := s[..|s| - 1], t[..|t| - 1];
      DistanceZeroIffEqual(s', t');
      assert s == s' + [s[|s| - 1]] && t == t' + [t[|t| - 1]];
      if s == t {
        assert s' == t';
      }
    }
  }

  /** Editing `s` into `t` costs the same as editing `t` into `s`. */
  lemma {:induction false} DistanceSymmetric<T>(s: seq<T>, t: seq<T>)
    ensures Distance(s, t) == Distance(t, s)
    decreases |s| + |t|
  {
    if |s| > 0 && |t| > 0 {
      DistanceSymmetric(s[..|s| - 1], t);
      DistanceSymmetric(s[..|s| - 1], t[..|t| - 1]);
      DistanceSymmetric(s, t[..|t| - 1]);
    }
  }

  /** `ListWrapper.filter`: the items that meet `keep`, in their order. */
  function Filter<T>(items: seq<T>, keep: T -> bool): (r: seq<T>)
    ensures |r| <= |items|
    ensures forall k :: 0 <= k < |r| ==> keep(r[k]) && r[k] in items
    ensures forall k :: 0 <= k < |items| && keep(items[k]) ==> items[k] in r
  {
    if |items| == 0 then []
    else if keep(items[0]) then [items[0]] + Filter(items[1..], keep)
    else Filter(items[1..], keep)
  }

  /** The loop `filter` runs: one append per item that meets `keep`. */
  method FilterItems<T>(items: seq<T>, keep: T -> bool) returns (r: seq<T>)
    ensures r == Filter(items, keep)
  {
    r := [];
    var i := 0;
    while i < |items|
      invariant 0 <= i <= |items|
      invariant r == Filter(items[..i], keep)
    {
      FilterAppend(items[..i], [items[i]], keep);
      assert items[..i + 1] == items[..i] + [items[i]];
      if keep(items[i]) {
        r := r + [items[i]];
      }
      i := i + 1;
    }
    assert items[..|items|] == items;
  }

  /** Filtering a concatenation filters each part. */
  lemma {:induction false} FilterAppend<T>(a: seq<T>, b: seq<T>, keep: T -> bool)
    ensures Filter(a + b, keep) == Filter(a, keep) + Filter(b, keep)
    decreases |a|
  {
    if |a| == 0 {
      assert a + b == b;
    } else {
      assert (a + b)[0] == a[0] && (a + b)[1..] == a[1..] + b;
      FilterAppend(a[1..], b, keep);
      if keep(a[0]) {
        calc {
          Filter(a + b, keep);
          [a[0]] + Filter(a[1..] + b, keep);
          [a[0]] + (Filter(a[1..], keep) + Filter(b, keep));
          ([a[0]] + Filter(a[1..], keep)) + Filter(b, keep);
        }
      }
    }
  }

  /** Filtering twice by the same criterion is filtering once. */
  lemma {:induction false} FilterIdempotent<T>(items: seq<T>, keep: T -> bool)
    ensures Filter(Filter(items, keep), keep) == Filter(items, keep)
    decreases |items|
  {
    if |items| > 0 {
      FilterIdempotent(items[1..], keep);
    }
  }

  /** The items that fail `keep` are exactly the ones dropped. */
  lemma {:induction false} FilterCountsSplit<T>(items: seq<T>, keep: T -> bool)
    ensures |Filter(items, keep)| + |Filter(items, x => !keep(x))| == |items|
    decreases |items|
  {
    if |items| > 0 {
      FilterCountsSplit(items[1..], keep);
    }
  }

  /** The total length of a list of lists. */
  function TotalLength<T>(lists: seq<seq<T>>): nat {
    if |lists| == 0 then 0 else |lists[0]| + TotalLength(lists[1..])
  }

  /** `concatenate_lists`: the lists chained one after another. */
  function Concatenate<T>(lists: seq<seq<T>>): (r: seq<T>)
    ensures |r| == TotalLength(lists)
    ensures forall i, k :: 0 <= i < |lists| && 0 <= k < |lists[i]| ==> lists[i][k] in r
    ensures forall k :: 0 <= k < |r| ==> exists i :: 0 <= i < |lists| && r[k] in lists[i]
  {
    if |lists| == 0 then []
    else
      var rest := Concatenate(lists[1..]);
      assert forall i :: 1 <= i < |lists| ==> lists[i] == lists[1..][i - 1];
      lists[0] + rest
  }

  /** Chaining a concatenation of two lists of lists chains each part. */
  lemma {:induction false} ConcatenateAppend<T>(a: seq<seq<T>>, b: seq<seq<T>>)
    ensures Concatenate(a + b) == Concatenate(a) + Concatenate(b)
    decreases |a|
  {
    if |a| == 0 {
      assert a + b == b;
    } else {
      assert (a + b)[0] == a[0] && (a + b)[1..] == a[1..] + b;
      ConcatenateAppend(a[1..], b);
      calc {
        Concatenate(a + b);
        a[0] + Concatenate(a[1..] + b);
        a[0] + (Concatenate(a[1..]) + Concatenate(b));
        (a[0] + Concatenate(a[1..])) + Concatenate(b);
      }
    }
  }

  /**
   * The items of list `i` sit in the chain right after the items of the
   * lists before it.
   */
  lemma {:induction false} ConcatenatePlacesList<T>(lists: seq<seq<T>>, i: nat)
    requires i < |lists|
    ensures var before := TotalLength(lists[..i]);
            before + |lists[i]| <= |Concatenate(lists)| &&
            Concatenate(lists)[before..before + |lists[i]|] == lists[i]
  {
    assert lists == lists[..i] + [lists[i]] + lists[i + 1..];
    ConcatenateAppend(lists[..i] + [lists[i]], lists[i + 1..]);
    ConcatenateAppend(lists[..i], [lists[i]]);
    assert Concatenate([lists[i]]) == lists[i] by {
      assert [lists[i]][1..] == [];
    }
  }
}

=== FILE: wrappers.dfy ===
/** Optional values and results shared by every module of the model. */
module Wrappers {

  /** Python's `Optional[T]`: a value or `None`. */
  datatype Option<+T> = None | Some(value: T) {
    function GetOr(default: T): T {
      match this
      case Some(v) => v
      case None => default
    }
  }

  /** The outcome of a call that can raise: its value, or the exception it raises. */
  datatype Result<+T, +E> = Ok(value: T) | Err(error: E)
}
